=== FILE: README.md ===
# Client-Feedback in Dafny

A model of the core of Client-Feedback, a visual review tool. A user
opens a client's web page through the server's `/proxy` endpoint. The proxy
fetches the page, strips framing restrictions and injects an overlay script
(`embed.js`). Clicking anywhere on the page drops a numbered comment marker
anchored to the clicked element by a CSS path and a percentage position
inside it. Comments, replies, projects and users live in a database behind
`db.js` and are served by the Express routes of `index.js`. The React client
lists the comments, shows edit and delete controls, and filters projects.

The modules follow the program:

| module | file | models |
|---|---|---|
| `Base` | base.dfy | `Option`/`Result`, string prefixes and search, ASCII case, `Filter`, `Join`, decimal digits |
| `Proxy` | proxy.dfy | `server/proxy.js`: SSRF guard, header safelist, HTML rewrite, configuration script, error responses |
| `JsString` | jsstring.dfy | JavaScript double-quoted string literals: writing a value so that it reads back as itself, and reading it back |
| `Selector` | selector.dfy | `getCssPath` of `embed.js`: the walk up the DOM and the path it builds |
| `Geometry` | geometry.dfy | `getOffset` and the percentage anchoring of a click, and the marker position computed back from it |
| `Overlay` | overlay.dfy | the overlay state of `embed.js`: markers, highlight, the `+` marker and form, saving |
| `Sorting` | sorting.dfy | the ordered reads (`.order('created_at', …)`) as a sort by one integer key |
| `Store` | store.dfy | `server/db.js`: users, projects, comments, replies, and who may change what |
| `Routes` | routes.dfy | `server/index.js`: authentication middleware and every API route |
| `Canvas` | canvas.dfy | `client/src/Canvas.jsx`: permission flags, window messages, guards, numbering, display helpers |
| `Dashboard` | dashboard.dfy | `client/src/Dashboard.jsx`: project list fetch, search, delete, response fallback, card address |
| `Landing` | landing.dfy | `client/src/Landing.jsx`: address normalisation |
| `Profile` | profile.dfy | `client/src/Profile.jsx`: password confirmation and the update sent |

Things outside the program become parameters:
- the WHATWG URL parser (`parseHost`);
- the HTTP fetch (`fetch`);
- bcrypt (`hash`, `checkPassword`);
- JWT signing and checking (`sign`, `verify`);
- `document.querySelector` with `getBoundingClientRect` (`View.locate`), including whether it throws;
- generated ids and clock readings (`Stamp`).

The database is four maps keyed by id, plus the user list.

## Model

| member | source | states |
|---|---|---|
| Proxy.Guard | server/proxy.js:8-25 | A missing or empty `url` gives 400, and a URL the parser rejects gives 400 "Invalid URL". The answer is 403 exactly when the parsed host starts with one of the blocked prefixes; otherwise the URL is cleared for fetching. |
| Proxy.PatternIsPrefixList | server/proxy.js:18 | The anchored internal-address regular expression matches exactly the hosts that start with one of 21 literal prefixes: `localhost`, `127.`, `10.`, `192.168.`, `172.16.`–`172.31.` and `169.254.`. |
| Proxy.PatternGivesPrefix | server/proxy.js:18 | Every alternative of the pattern yields one of the literal blocked prefixes. |
| Proxy.PrefixGivesPattern | server/proxy.js:18 | Every literal blocked prefix is matched by some alternative of the pattern. |
| Proxy.Private172GivesPrefix | server/proxy.js:18 | A host of the form `172.` + second octet 16–31 + `.` starts with the corresponding `172.N.` prefix. |
| Proxy.Prefix172 | server/proxy.js:18 | The `172.` prefix for 16 + k is exactly the 7-character shape `172.`, two digits, `.`. |
| Proxy.OutsidePrivateRangePasses | server/proxy.js:18 | `172.32.0.1` is outside the 172.16/12 range and is not blocked. |
| Proxy.PrivateLookingNameIsBlocked | server/proxy.js:18 | The match is on a prefix of the host name only, so DNS names such as `10.example.com` and `localhost.example.com` are blocked. |
| Proxy.LoopbackAndPrivateBlocked | server/proxy.js:18-21 | `127.0.0.1`, `192.168.1.5` and `172.31.255.1` are refused. |
| Proxy.ResponseHeaders | server/proxy.js:43-53 | Only the four safelisted headers are copied, and only when the upstream value is truthy; the value is copied unchanged. `Access-Control-Allow-Origin` is `*`, and neither framing header is present. |
| Proxy.StripIntegrity | server/proxy.js:93 | Removing `integrity` keeps the number of nodes. |
| Proxy.StripIntegrityRemovesAll | server/proxy.js:93 | After the rewrite, no `script` element anywhere in the tree carries an `integrity` attribute. |
| Proxy.StripIntegrityFixedPoint | server/proxy.js:93 | The strip leaves a tree unchanged if and only if no script in it has `integrity`. |
| Proxy.StripIntegrityKeepsTags | server/proxy.js:93 | The strip neither adds nor removes elements of any tag. |
| Proxy.StripIntegrityAppend | server/proxy.js:93 | The strip works node by node over a concatenation. |
| Proxy.RewriteDocument | server/proxy.js:56-93 | A `<base href=url>` is prepended to the head only when the document has none, and afterwards there always is one. The body gets the appended template: whitespace, the configuration script, whitespace, the loader of `serverUrl/embed.js`, trailing whitespace. No script is left with `integrity`. |
| Proxy.RewriteFacts | server/proxy.js:61-93 | After the base tag is added, if it was missing, and the scripts are appended, the document contains a `base` element. The strip of the head starts with the new base tag. The strip of the body ends with the injected scripts unchanged. No script anywhere keeps `integrity`. |
| Proxy.ConfigReadsBack | server/proxy.js:82-88 | With both values written as escaped string literals, the configuration script hands the overlay exactly the project id and the server URL, whatever characters they hold. |
| JsString.EscapeRoundTrip | server/proxy.js:85-86 | Any value written as an escaped literal body, followed by the closing quote, reads back as that value, and reading stops right after that quote. |
| Proxy.ConfigHasNoTagOpen | server/proxy.js:82-88 | The written configuration script contains no `<`, so no value can close the `<script>` element early. |
| Proxy.PlainValuesWrittenAsTemplate | server/proxy.js:84-87 | For values without quotes, backslashes, `<` or control characters, the escaped script is exactly the text the template writes. |
| Proxy.ProjectIdBreaksOutOfLiteral | server/proxy.js:85 | As written, the project id `";alert(1);//` ends the literal early, so the script is no longer the configuration assignment. The escaped form reads back as that id. |
| Proxy.ScriptCloseInProjectId | server/proxy.js:83-88 | As written, a project id holding `</script>` puts a `<` into the script text. The escaped form holds none. |
| Proxy.LoaderEndsBody | server/proxy.js:82-90 | The rewritten body ends with the script loading `serverUrl/embed.js`, followed only by the template's trailing whitespace. |
| Proxy.Protocol | server/proxy.js:70-76 | On Vercel a host without `localhost` forces `https`. Without Vercel and without a forwarded protocol the default is `http`. In every case it is `https`, `http` or the forwarded value. |
| Proxy.ServerUrl | server/proxy.js:70-78 | The server URL starts with the chosen protocol and `://`, and the rest of it is exactly the request's host. |
| Proxy.Respond | server/proxy.js:39-104 | The response headers are the safelisted copy. Content without `text/html` is forwarded unchanged with status 200. HTML on Vercel without a `Host` header is 500 with the `TypeError` text of `host.includes`. Other HTML is 200 with the document rewritten for the request's project id and server URL. An HTML body always has a base tag, keeps no `integrity`, and ends with the injected scripts. |
| Proxy.Forward | server/proxy.js:27-104 | A failed fetch is 500 `Error fetching URL: <message>` with no headers. Every 200 answer carries the upstream's safelisted headers, `*` for `Access-Control-Allow-Origin` and no framing header. An HTML answer is 200 and ends with the injected scripts. |
| Proxy.HandleProxy | server/proxy.js:4-105 | A missing URL gives 400 "Missing url parameter" and an unparsable one 400 "Invalid URL". The status is 403 exactly for a blocked host. A 200 answer comes from a successful fetch and carries its safelisted headers. An HTML answer is 200, never the Vercel-without-host case, and its body ends with the injected scripts for the request's project id and host. |
| Proxy.RejectedRequestsDoNotFetch | server/proxy.js:8-25 | A request the guard refuses gets the same 400/403 answer whatever the fetch would return, so no fetch is made. |
| Proxy.FetchFailureIs500 | server/proxy.js:101-104 | A guarded request whose fetch throws gets 500 `Error fetching URL: <message>`. |
| Proxy.ExampleComRewrite | test_verification.js:44-55 | Proxying `https://example.com/` with a `text/html` answer yields 200, a head starting with `<base href="https://example.com/">`, and a body whose last element is the script loading `http://localhost:3456/embed.js`, followed only by whitespace. |
| Selector.NthOfType | server/public/embed.js:126-129 | The loop over previous siblings counts one plus the number of earlier siblings with the same tag. |
| Selector.WalkUp | server/public/embed.js:118-134 | The loop collects exactly the reference path segments, outermost first, stopping after the first element with an id. |
| Selector.StepUp | server/public/embed.js:132-133 | Moving to the parent keeps the collected path a suffix of the reference segments. |
| Selector.GetCssPath | server/public/embed.js:116-136 | A non-element gives `undefined`; otherwise the result is the segments joined with ` > `. |
| Selector.SelectorFor | server/public/embed.js:242 | The anchor selector is never empty: the CSS path, or `body` when there is none. |
| Selector.PathExtendsParent | server/public/embed.js:119-135 | For an element without an id, its path is the parent's path followed by ` > ` and its own segment. |
| Selector.IdAnchorsPath | server/public/embed.js:121-124 | With an id on the path, the first segment is `tag#id` of the nearest such ancestor-or-self, and no later segment contains `#`. |
| Selector.SameTagSiblingsDiffer | server/public/embed.js:126-130 | Two id-less siblings with the same tag get different segments, because of `:nth-of-type`. |
| Selector.CountTagAppend | server/public/embed.js:127-128 | Counting same-tag siblings is additive over concatenated sibling lists. |
| Selector.NthSuffixInjective | server/public/embed.js:130 | Different sibling counts give different `:nth-of-type` suffixes. |
| Geometry.GetOffset | server/public/embed.js:139-147 | The page box is the viewport box moved by the scroll, with the same size. |
| Geometry.Capture | server/public/embed.js:244-249 | A click is stored as percentages of the target's box. They are defined exactly when the box has nonzero width and height, and then x% · width = (clientX − left) · 100, likewise for y. |
| Geometry.RoundTrip | server/public/embed.js:176-181 | Re-projecting the stored percentages onto the same element's page box gives back the click's page coordinates. |
| Geometry.InsideIffPercentInRange | server/public/embed.js:244-249 | A click lies inside the element's box if and only if both stored percentages are in [0, 100]. |
| Geometry.ResizeKeepsRelativePosition | server/public/embed.js:176-181 | After the element is resized or moved, the marker keeps the same fractional position inside it. |
| Geometry.Reproject | server/public/embed.js:179-181 | With percentages in [0, 100], the marker lies inside the element's page box. |
| Geometry.Fallback | server/public/embed.js:186-190 | A comment without an element selector is placed as if its element were the whole document. |
| Geometry.DocumentCapture | server/public/embed.js:186-190 | A click measured against the whole document is stored as percentages of the document's scroll size. They are defined exactly when both sizes are nonzero, and then x% · scrollWidth = pageX · 100, likewise for y. |
| Geometry.DocumentRoundTrip | server/public/embed.js:186-190 | Placing a document-measured anchor by the fallback, with the same scroll size, gives back the click's page coordinates. |
| Overlay.RenderMarkers | server/public/embed.js:165-209 | Every marker is drawn from the comment at position number − 1. It is placed by that comment's selector and percentages, titled with its text, and active exactly when its id is the active one. Numbers increase strictly. No marker comes from a comment the loop does not reach, at or after the first selector that throws. |
| Overlay.Reached | server/public/embed.js:150-185 | The loop reaches the comments before the first one whose selector makes `querySelector` throw, or the whole list. The exception ends `renderComments` and is caught in `loadComments`. |
| Overlay.EveryPlaceableCommentDrawn | server/public/embed.js:165-185 | Every comment the loop reaches whose element is found, or which has no selector, gets a marker numbered by its 1-based position. |
| Overlay.ThrowingSelectorEndsRender | server/public/embed.js:150-185 | A comment whose selector makes `querySelector` throw ends the render. No comment at or after it gets a marker, however placeable. |
| Overlay.SetActive | server/public/embed.js:212-222 | After highlighting, a marker is active exactly when its id is the highlighted one. Nothing else about any child changes. |
| Overlay.AtMostOneActive | server/public/embed.js:212-222 | With distinct comment ids, at most one marker is highlighted. |
| Overlay.RenderReplacesStatics | server/public/embed.js:161-163 | Reloading replaces the static markers with the freshly rendered ones and leaves the compose slot and the highlight alone. |
| Overlay.RenderKeepsValid | server/public/embed.js:160-209 | A render keeps the compose slot as it was and highlights exactly the freshly drawn marker of the active comment. |
| Overlay.StepPreservesValid | server/public/embed.js:160-330 | Every event keeps the invariant: at most one `+` marker, exactly as many forms as `+` markers, and the highlight consistent. |
| Overlay.ShowAddFormOpensOneSlot | server/public/embed.js:258-280 | Opening the form replaces any earlier slot with exactly one `+` marker and one form holding the new draft, and keeps the markers. |
| Overlay.CloseFormEmptiesSlot | server/public/embed.js:302-307 | Closing removes the `+` marker and the form, and keeps the comment markers. |
| Overlay.HighlightMessage | server/public/embed.js:225-234 | A `HIGHLIGHT_COMMENT` message highlights exactly the named comment's marker, sends nothing and leaves the compose slot alone. Any other message kind changes nothing. |
| Overlay.ClickInsideOverlayIgnored | server/public/embed.js:238 | A click inside the overlay's own container changes nothing and sends nothing. |
| Overlay.EmptyOrCancelledSavesNothing | server/public/embed.js:287-297 | Submitting empty text does nothing. Cancel closes the slot without saving. |
| Overlay.SubmitPostsDraft | server/public/embed.js:285-291 | Sending non-empty text posts the open draft's anchor and selector with the text, once. The overlay is left as it was: the form stays open while the save is awaited. |
| Overlay.SecondSendPostsAgain | server/public/embed.js:285-291 | Nothing guards a second Send while the first save is pending: it posts the same comment again. |
| Overlay.SavedClosesSlot | server/public/embed.js:290-330 | When the save returns, the slot is closed and the markers are kept. An answered POST reloads and then sends `COMMENT_ADDED` with the answered id. An answer that is not JSON reloads and then alerts. A failed fetch only alerts. |
| Overlay.ClickDuringSaveIsLost | server/public/embed.js:237-291 | A page click during a pending save opens a new slot holding the new draft. The `closeForm` after the save removes it without posting it. |
| Overlay.PageClickOpensSlotAtClick | server/public/embed.js:237-256 | A page click outside the overlay opens one slot. Its draft holds the clicked element's selector and the corrected anchor (see Findings). For a selector other than `body` and a nonzero box, the anchor re-projects onto the element's page box at the click's page position. For `body` and a nonzero document size, the fallback placement is that position. |
| Overlay.MarkerReturnsToClick | server/public/embed.js:165-291 | A page click followed by Send posts one comment with a defined anchor and the click's selector. Once stored and reloaded, that comment's marker is drawn at the clicked page point, numbered 1, in both branches. This holds when the selector still finds the same box, or, for `body`, when the document keeps its scroll size. |
| Overlay.BodyClickMisplaced | server/public/embed.js:242-249 | Both `<body>` and `<html>` get the selector `body`. As written, a click at (400, 208) on a body box of (8, 8, 784, 400) stores (50, 50). In an 800 × 2000 document that anchor is drawn at (400, 1000). The corrected anchor is drawn at (400, 208). |
| Overlay.OpenDraftMeansForm | server/public/embed.js:285-292 | A draft can be submitted exactly when a form is open. |
| Sorting.InsertSorted | server/db.js:114-165 | Insertion keeps the sequence sorted and places the new row between the two halves of the old one. |
| Sorting.SortByKey | server/db.js:114-165 | The result holds each row of the set exactly once, in non-decreasing key order. |
| Store.MessageIsUnauthorizedIff | server/index.js:216-217 | Only the authorization failure has the message `Unauthorized`, which is what the routes compare. |
| Store.GetUserByEmail | server/db.js:40-48 | A user is found exactly when one user has the e-mail, and then that user is returned. No match and several matches both yield nothing. |
| Store.CreateUser | server/db.js:28-37 | Appends a user with the generated id, the e-mail, the hashed password and the name. A taken id fails with a duplicate key and changes nothing. |
| Store.UpdateUser | server/db.js:71-89 | Each given non-empty field replaces the stored one, the password through the hash. Omitted or empty fields keep their stored values. A missing user fails with "no rows", and so does an update that gives no field at all. |
| Store.EmptyUpdateFails | server/db.js:71-89 | An update with no name or e-mail given and no password fails with the no-rows error, code `PGRST116`, whoever it names. |
| Store.SameValuesChangeNothing | server/db.js:71-89 | Saving a user's own name and e-mail again, without a password, answers that user and leaves the store as it was. |
| Store.CreateProject | server/db.js:92-101 | Adds a project owned by the caller with the URL and the creation time, and changes nothing else. |
| Store.GetProject | server/db.js:103-112 | Returns the stored project when the id exists; otherwise fails with code `PGRST116`. |
| Store.DeleteProject | server/db.js:134-153 | Succeeds exactly when the caller owns the project, and then removes only that project. Otherwise it fails with `Unauthorized`. |
| Store.GetUserProjects | server/db.js:114-132 | Returns exactly the caller's projects, each with its comment count, once each, newest first. |
| Store.GetComments | server/db.js:156-165 | Returns exactly the project's comments, once each, oldest first. |
| Store.CreateComment | server/db.js:167-184 | Stores an unresolved comment with the given author, text and position. The selector is the given one, or an empty string when none is given. Nothing else changes. |
| Store.UpdateComment | server/db.js:186-207 | Succeeds exactly for the comment's author, and changes only that comment's text. |
| Store.UpdateCommentPosition | server/db.js:248-269 | Succeeds exactly for the author, and changes only the position. |
| Store.DeleteComment | server/db.js:209-246 | A missing comment gives "Comment not found". Otherwise it succeeds exactly for the author or the project owner, and removes only that comment. |
| Store.ResolveComment | server/db.js:271-298 | A missing comment gives "Comment not found". The author or the project owner may set `resolved`, and only that flag changes. |
| Store.GetReplies | server/db.js:301-310 | Returns exactly the comment's replies, once each, oldest first. |
| Store.CreateReply | server/db.js:312-326 | Stores the reply with its author and time, and changes nothing else. |
| Store.DeleteReply | server/db.js:328-370 | A missing reply gives "Reply not found". Otherwise it succeeds exactly for the reply's author or the owner of its comment's project, and removes only that reply. |
| Store.AuthorizationAsymmetry | server/db.js:186-298 | Editing the text or position is for the author only; deleting or resolving is for the author or the project owner. |
| Store.AnonymousComments | server/db.js:194-196 | Nobody can edit an anonymous comment; only the project owner can delete it. |
| Store.OrphanedReplyAuthorOnly | server/db.js:340-360 | A reply whose comment is gone can be deleted only by its author. |
| Store.CreatedCommentIsListed | server/db.js:156-184 | A created comment is listed for its project, alongside exactly the comments listed before. |
| Store.CreateThenDeleteRestores | server/db.js:167-246 | Its author deleting a just-created comment restores the store exactly. |
| Store.UpdateCommentIdempotent | server/db.js:186-207 | Applying the same edit twice gives the same result as applying it once. |
| Store.UserOperationsPreserveValid | server/db.js:28-89 | Creating and updating users keep ids unique and the keys consistent. |
| Store.ProjectAndReplyOperationsPreserveValid | server/db.js:92-370 | Project and reply mutations keep every map keyed by its rows' ids. |
| Store.CommentOperationsPreserveValid | server/db.js:167-298 | Comment mutations keep every map keyed by its rows' ids. |
| Routes.Authenticate | server/index.js:17-32 | A `Bearer ` header whose token verifies admits that user. No such header gives 401 "Unauthorized"; a bad token gives 401 "Invalid token". |
| Routes.OptionalAuth | server/index.js:35-45 | A user is attached exactly when the strict check would admit one, and it is the same user; otherwise the request goes on anonymously. |
| Routes.BearerTokenAuthenticates | server/index.js:18-30 | A header of `Bearer ` followed by a valid token authenticates its user. |
| Routes.GuardedError | server/index.js:216-219 | An authorization failure is 403 "Unauthorized"; every other error is 500 with its message. |
| Routes.Signup | server/index.js:49-75 | A missing field gives 400 "All fields are required", and a taken e-mail 400 "Email already registered". Success appends the user and returns it with a token signed over it. Every failure leaves the store unchanged. |
| Routes.Login | server/index.js:77-107 | A missing field gives 400. A known e-mail with the right password returns that user and a signed token. Everything else is 401 "Invalid credentials". |
| Routes.LoginFailuresLookAlike | server/index.js:86-95 | An unknown e-mail and a wrong password get the same 401 answer. |
| Routes.GetProjectsRoute | server/index.js:112-120 | An authenticated caller gets exactly their own projects with comment counts, each once, newest first. |
| Routes.PostProject | server/index.js:123-134 | Authentication is required. A missing URL gives 400 "URL required". Success stores and returns the caller's new project. |
| Routes.GetProjectRoute | server/index.js:137-149 | 200 with the project when it exists, otherwise 404 "Not found". |
| Routes.PostedProjectIsFound | server/index.js:123-149 | A project just created is found by its id through `GET /api/projects/:id`, with the same body its creator got. |
| Routes.DeleteProjectRoute | server/index.js:152-163 | 200 exactly when the authenticated caller owns the project, which is then removed. An authenticated non-owner gets 403. |
| Routes.GetCommentsRoute | server/index.js:168-179 | A missing project id gives 400. Otherwise the answer is the project's comments, oldest first. |
| Routes.AuthorId | server/index.js:187 | A comment's or reply's author id is the signed-in user's id. It is none when the user is signed out or the id is empty. |
| Routes.AuthorName | server/index.js:187-188 | A comment's author name is the signed-in user's name when that is non-empty. It is `Anonymous` when the user is signed out or the name is empty, so it is never empty. |
| Routes.PostComment | server/index.js:182-204 | Anyone may comment. The comment carries the optional user's id and name and is stored and returned. A store failure is 500 with nothing stored. |
| Routes.AnonymousCommentDefaults | server/index.js:182-199 | Without a valid token the stored comment has no user id and the name `Anonymous`. |
| Routes.PostedCommentIsListed | server/index.js:168-199 | A posted comment is returned with its text and listed for its project. |
| Routes.PutComment | server/index.js:207-221 | Missing text gives 400 "Text required". 200 exactly for the author, with only the text changed. Anyone else, and a missing comment too, gets 403. |
| Routes.DeleteCommentRoute | server/index.js:224-236 | A missing comment gives 500 "Comment not found". 200 exactly for the author or the project owner, with the comment removed; otherwise 403. |
| Routes.GetRepliesRoute | server/index.js:241-252 | A missing comment id gives 400. Otherwise the answer is exactly the comment's replies, each once, oldest first. |
| Routes.PostReply | server/index.js:255-269 | Missing text gives 400. Otherwise the reply is stored with the optional user's id and name and returned. |
| Routes.DeleteReplyRoute | server/index.js:272-283 | 200 exactly for the reply's author or the owner of its comment's project, with the reply removed. Any other signed-in caller gets 403 "Unauthorized" on an existing reply. A missing reply gives 500. Every failure leaves the store unchanged. |
| Canvas.TruncateText | client/src/Canvas.jsx:210-213 | Measured in characters, texts within the limit are unchanged. Longer ones keep their first `maxLength` characters followed by `...`. |
| Canvas.BmpLengthIsUtf16Length | client/src/Canvas.jsx:211-212 | On text of Basic Multilingual Plane characters only, the character count equals JavaScript's `text.length`, so the cut falls where the source's does. |
| Canvas.AstralCountsTwice | client/src/Canvas.jsx:211-212 | Each character outside the Basic Multilingual Plane counts as two units in `text.length`. |
| Canvas.EmojiPastDefaultLimit | client/src/Canvas.jsx:210-213 | Sixty emoji are kept whole by the model under the default limit of 100, while their JavaScript length is 120. |
| Canvas.TruncateIdempotent | client/src/Canvas.jsx:210-213 | Truncating an already truncated text changes nothing. |
| Canvas.GetWidth | client/src/Canvas.jsx:204-208 | `375px` exactly for mobile, `768px` exactly for tablet, `100%` for everything else. |
| Canvas.GetWidthMatchesDevice | client/src/Canvas.jsx:204-208 | Each device button sizes the frame to that device's preview width in pixels, mobile narrower than tablet. The initial `desktop` fills the canvas. |
| Canvas.ControlsMatchServerRules | client/src/Canvas.jsx:448-452 | The edit control shows exactly when the server would accept the edit. The delete control shows exactly when the server would accept the delete. |
| Canvas.SignedOutSeesNoControls | client/src/Canvas.jsx:451-452 | A signed-out visitor sees neither control. |
| Canvas.FindById | client/src/Canvas.jsx:55 | Finds the first comment with the id, or reports that none has it. |
| Canvas.HandleMessage | client/src/Canvas.jsx:47-63 | Messages for other projects are ignored. `COMMENT_ADDED` reloads and highlights. `MARKER_CLICKED` highlights and, when the comment is listed, opens it and loads its replies. |
| Canvas.MarkerClickReachesPanel | client/src/Canvas.jsx:53-54 | A marker click in the overlay notifies the page, and the page highlights the same comment. |
| Canvas.CommentAddedReachesPanel | client/src/Canvas.jsx:47-52 | A save answered by the server makes the overlay send `COMMENT_ADDED` with the answered id. The page then reloads its comments and highlights that id. |
| Canvas.EditRequest | client/src/Canvas.jsx:111-112 | Blank text sends nothing; any other text is sent for the comment being edited. |
| Canvas.ReplyRequest | client/src/Canvas.jsx:164-165 | Blank text or no open comment sends nothing. |
| Canvas.SentTextPassesServerCheck | client/src/Canvas.jsx:111-165 | Whatever the page sends passes the server's non-empty text check. |
| Canvas.DetailNumber | client/src/Canvas.jsx:255 | The detail badge is 0 exactly when the comment is no longer listed. |
| Canvas.DetailMatchesList | client/src/Canvas.jsx:255 | With distinct ids, the detail badge equals the number shown in the list. |
| Canvas.MarkerNumberMatchesList | server/public/embed.js:194 | Every overlay marker carries the number the page's list shows for the same comment. |
| Dashboard.FilterProjects | client/src/Dashboard.jsx:76-78 | Keeps exactly the projects whose address contains the search term, ignoring case. |
| Dashboard.FilterKeepsOrder | client/src/Dashboard.jsx:76-78 | The search keeps the list's order. |
| Dashboard.EmptySearchKeepsAll | client/src/Dashboard.jsx:76-78 | An empty search shows every project. |
| Dashboard.SearchIgnoresCase | client/src/Dashboard.jsx:76-78 | Searching for the lower-cased term finds the same projects. |
| Dashboard.AfterDelete | client/src/Dashboard.jsx:68-70 | A successful delete drops exactly the projects with that id. A failed one keeps the list. |
| Dashboard.DeleteKeepsOrder | client/src/Dashboard.jsx:69 | Deleting keeps the remaining order, and deleting an unlisted id changes nothing. |
| Dashboard.ProjectList | client/src/Dashboard.jsx:47 | A response that is not a list shows no projects. |
| Dashboard.ShowProjects | client/src/Dashboard.jsx:40-49 | A 401 answer, and only that, signs the user out. A project array is shown as it is. An error object, or any other JSON that is not an array, shows no projects. A plain-text answer, which `res.json()` cannot parse, leaves the list as it was. |
| Dashboard.DashboardListsOwnProjects | client/src/Dashboard.jsx:31-52 | With a token the server accepts, the dashboard lists exactly the caller's projects, each once with its comment count, newest first. With a token it rejects, the user is signed out. |
| Dashboard.DisplayUrl | client/src/Dashboard.jsx:179 | The card shows the address without one leading `http://` or `https://`, and any other address unchanged. |
| Landing.Normalize | client/src/Landing.jsx:15-18 | An address starting with `http` is kept; anything else gets `https://` in front. |
| Landing.SubmitUrl | client/src/Landing.jsx:12-18 | An empty field sends nothing; otherwise the normalised address is sent. |
| Landing.NormalizedStartsWithHttp | client/src/Landing.jsx:15-18 | The address sent always starts with `http`. |
| Landing.NormalizeIdempotent | client/src/Landing.jsx:15-18 | Normalising twice is the same as normalising once. |
| Landing.HttpPrefixedHostKeptAsIs | client/src/Landing.jsx:16 | `httpbin.org` is sent without a scheme, because the test is for the four letters `http` only. |
| Landing.CardShowsWhatWasTyped | client/src/Landing.jsx:15-18 | A bare host name typed on the landing page is shown unchanged on the dashboard card. |
| Profile.PrepareUpdate | client/src/Profile.jsx:30-36 | Stops with "Passwords do not match" exactly when a password was typed and differs from the confirmation. Otherwise it sends the name and e-mail, plus the password only when one was typed. |
| Profile.EmptyPasswordNeverMismatches | client/src/Profile.jsx:30-36 | With the password left empty, the update is sent without a password whatever the confirmation holds. |
| Profile.AfterUpdate | client/src/Profile.jsx:38-45 | Success clears both password fields. Failure keeps the form and shows the server's error or the default message. |
| Profile.FormUpdateInStore | client/src/Profile.jsx:35-36 | Applied by `updateUser`, the form is saved exactly when some field is filled in; an all-empty form gets the no-rows error. When saved, the stored password changes exactly when one was typed, and a field cleared in the form keeps its stored value. |
| Profile.ResubmitAfterUpdate | client/src/Profile.jsx:30-45 | After a successful save, sending the form again sends the name and e-mail only. After a failure it sends the same update again. |

## Left out

- Network and process I/O: the axios fetch, Express, the console, the `fetch` calls of the client and `window.postMessage` transport. The fetch is a parameter of `Proxy.HandleProxy`; the messages are values (`Overlay.Effect`, `Canvas.WindowMessage`).
- The HTML parser and serialiser (cheerio): the upstream response carries the parsed document; `$.html()` output is the rewritten `Document`.
- The WHATWG URL parser: `parseHost` is a parameter; `None` stands for a thrown `TypeError`.
- `process.env.VERCEL` is a boolean parameter; the duplicated `responseType` key of the axios options has no effect on the model (the later `'text'` wins) and is not modelled.
- bcrypt and JWT: `hash`, `checkPassword`, `sign` and `verify` are parameters; token expiry is part of `verify`.
- The database: no network errors, no row-level policies, and no cascading deletes. Deleting a project or a comment leaves its comments or replies in place, because the schema is not part of this model.
- Generated ids and timestamps come from a `Stamp` parameter. Rows with equal `created_at` come back in no fixed order; the model picks one.
- Floating point: positions and percentages are `real`. A zero-width or zero-height box, which makes the browser compute `NaN`, is `None` in `Geometry.Capture`. `null` coordinates are not modelled.
- `toLowerCase` and `trim` are modelled on ASCII letters and ASCII white space only.
- Canvas.TruncateText: lengths count characters, not the UTF-16 code units of `text.length` and `substring`. Text with characters outside the Basic Multilingual Plane, such as emoji, is therefore cut at a different point (`Canvas.EmojiPastDefaultLimit`), and a cut inside a surrogate pair, which leaves a lone surrogate in JavaScript, cannot arise. For other text the two agree (`Canvas.BmpLengthIsUtf16Length`).
- The DOM: an element is its tag, id, earlier siblings' tags and parent; `querySelector` plus `getBoundingClientRect` is `View.locate`. Whether a selector is valid CSS, which decides if `querySelector` throws, is part of that parameter; the model does not parse CSS. Scrolling into view, CSS classes other than `active`, and the shadow root are not modelled.
- The resize handler's 200 ms debounce and the client's toasts, loading flags, modals and timers.
- Realtime updates, `AuthContext.jsx`, `App.jsx`, `Homepage.jsx`, `Auth.jsx`, `ConfirmModal.jsx` and `server/index_minimal.js` are not part of this model.
- `PUT /api/auth/profile`, which `Profile.jsx` calls through `AuthContext.jsx`, has no handler in `server/index.js`. `Store.UpdateUser` models `db.updateUser`, and `Profile.FormUpdateInStore` connects the form to it directly.
- `db.verifyPassword`, `db.generateToken` and `db.verifyToken` are the parameters above.
- Canvas.HandleMessage: the page's handler reads `comments` from the render in which it was installed; the model gives it the current list.
- Sorting.SortByKey: the order among rows with equal keys is not specified, matching the database's lack of a guarantee.
- Proxy.RewriteDocument: the base tag's `href` and the loader's `src` hold the page URL and the server URL as attribute values. The template pastes both into markup without escaping (server/proxy.js:62 and 89), so a value holding `"`, `<`, `>` or `&` would change what cheerio parses; the document shape stated holds for values without those characters. The configuration script is modelled in its escaped form (see Findings).
- Store.UpdateUser: that the database service answers an empty `.update({})` with no row, so `.single()` raises `PGRST116`, is that service's behaviour and not visible in the program; the model takes it as given.
- JsString.ReadLiteral reads only the escapes the written form uses (`\xHH`, `\"`, `\\`, `\'`) and refuses the others, which the configuration script never contains.
- Overlay.Step: a click inside a link also cancels the link's navigation (`e.preventDefault()`, server/public/embed.js:239). Navigation is outside the overlay's state, so the model has no effect for it. The slot opens as for any other click.
- Overlay.Step: the reload that `saveComment` awaits arrives as a later `Loaded` event, after the slot is closed rather than before. A render leaves the compose slot alone, so the order does not change the state.

Behaviour of the code worth knowing:
- Deleting a missing comment answers 500 "Comment not found" rather than 404 (`Routes.DeleteCommentRoute`).
- Editing a missing comment answers 403, because `updateComment` reports a missing row as `Unauthorized` (`Routes.PutComment`).
- There are no routes for resolving a comment or moving its position. The model has `Store.ResolveComment` and `Store.UpdateCommentPosition` only.
- `POST /api/projects` requires a bearer token. `Landing.jsx` and `test_verification.js` post without one and get 401.
- `getUserByEmail` treats several users with the same e-mail like none (`PGRST116` is swallowed), so signup then allows another account with that e-mail.

## Findings

| source | as written | input that shows it | evidently intended | confidence | as-written member | corrected member |
|---|---|---|---|---|---|---|
| server/proxy.js:82-90 | `projectId` from the query string and the server URL are pasted between the double quotes of the configuration script without escaping | `/proxy?url=https://example.com/&projectId=";alert(1);//` | the configuration holds the project id as a string value, whatever it contains | not executed | Proxy.ConfigScriptAsWritten, shown by Proxy.ProjectIdBreaksOutOfLiteral and Proxy.ScriptCloseInProjectId | Proxy.ConfigScriptText, proved by Proxy.ConfigReadsBack and Proxy.ConfigHasNoTagOpen |
| server/public/embed.js:242-249 | the anchor is always taken as percentages of the clicked element's box, including when the selector is `body`, either from `<body>` itself or as the fallback for `<html>`'s empty path. `renderComments` places a `body` comment by percentages of the document's scroll size (lines 176 and 186-190). | a click at (400, 208) on a body box of (8, 8, 784, 400), in an 800 × 2000 document with no scroll: stored (50, 50), drawn at (400, 1000) | a comment's marker is drawn where the click was | not executed | Overlay.ClickAnchorAsWritten, shown by Overlay.BodyClickMisplaced | Overlay.ClickAnchor, proved by Overlay.MarkerReturnsToClick and Geometry.DocumentRoundTrip |

The rewrite (`Proxy.RewriteDocument`) uses the corrected script. The overlay's click handler (`Overlay.Step`) stores the corrected anchor.

=== FILE: base.dfy ===
/** Shared vocabulary: optional values, results with an error side, and the
    handful of JavaScript string operations the rest of the model relies on
    (`startsWith`, `includes`, `toLowerCase`, `trim`, `join`, decimal
    rendering of numbers). */
module Base {

  datatype Option<+T> = None | Some(value: T)

  datatype Result<+T, +E> = Success(value: T) | Failure(error: E)

  /** Row ids (uuids) and user ids. The server compares them in several
      styles (`!==`, `String(a) === String(b)`, `===`, `==`); on the string
      ids the application uses these all agree, so one type serves. */
  type Id = string

  lemma AppendAssoc<T>(a: seq<T>, b: seq<T>, c: seq<T>)
    ensures (a + b) + c == a + (b + c)
  {
  }

  /** `s.startsWith(p)` */
  predicate StartsWith(s: string, p: string) {
    |p| <= |s| && s[..|p|] == p
  }

  predicate EndsWith<T(==)>(s: seq<T>, t: seq<T>) {
    |t| <= |s| && s[|s| - |t|..] == t
  }

  lemma EndsWithAppend<T>(s: seq<T>, t: seq<T>)
    ensures EndsWith(s + t, t)
  {
    assert (s + t)[|s|..] == t;
  }

  /** `s.includes(t)`: `t` occurs somewhere in `s` (the empty string occurs everywhere). */
  predicate Contains(s: string, t: string)
    decreases |s|
  {
    StartsWith(s, t) || (|s| > 0 && Contains(s[1..], t))
  }

  /** Occurrence of `t` in `s` stated by position, the reading `Contains` is checked against. */
  ghost predicate OccursAt(s: string, t: string, i: int) {
    0 <= i && i + |t| <= |s| && s[i..i + |t|] == t
  }

  lemma {:induction false} ContainsMeansOccurs(s: string, t: string)
    ensures Contains(s, t) <==> exists i :: OccursAt(s, t, i)
    decreases |s|
  {
    if StartsWith(s, t) {
      assert OccursAt(s, t, 0);
    } else if |s| > 0 {
      ContainsMeansOccurs(s[1..], t);
      if Contains(s[1..], t) {
        var i :| OccursAt(s[1..], t, i);
        assert s[i + 1..i + 1 + |t|] == s[1..][i..i + |t|];
        assert OccursAt(s, t, i + 1);
      } else {
        forall i | OccursAt(s, t, i) && i > 0 ensures OccursAt(s[1..], t, i - 1) {
          assert s[1..][i - 1..i - 1 + |t|] == s[i..i + |t|];
        }
      }
    }
  }

  /** A string is a prefix of itself followed by anything. */
  lemma PrefixOfConcat(p: string, rest: string)
    ensures StartsWith(p + rest, p)
  {
    assert (p + rest)[..|p|] == p;
  }

  predicate IsUpper(c: char) { 'A' <= c <= 'Z' }

  function LowerChar(c: char): (r: char)
    ensures IsUpper(c) ==> r as int == c as int + 32
    ensures !IsUpper(c) ==> r == c
  {
    if IsUpper(c) then (c as int + 32) as char else c
  }

  /** `s.toLowerCase()`, restricted to the ASCII letters. */
  function ToLower(s: string): (r: string)
    ensures |r| == |s|
    ensures forall i :: 0 <= i < |s| ==> r[i] == LowerChar(s[i])
  {
    if |s| == 0 then "" else [LowerChar(s[0])] + ToLower(s[1..])
  }

  /** The characters `String.prototype.trim` removes, restricted to ASCII
      space, tab, line feed, vertical tab, form feed and carriage return. */
  predicate IsSpace(c: char) {
    c == ' ' || c == '\t' || c == '\n' || c == '\r' || c == '\U{000B}' || c == '\U{000C}'
  }

  /** `!s.trim()`: nothing but white space (or nothing at all). */
  predicate IsBlank(s: string) {
    forall i :: 0 <= i < |s| ==> IsSpace(s[i])
  }

  /** `s.filter(keep)`: the elements that pass, in their original order. */
  function Filter<T(!new)>(s: seq<T>, keep: T -> bool): (r: seq<T>)
    ensures |r| <= |s|
    ensures forall x :: x in r <==> x in s && keep(x)
  {
    if |s| == 0 then [] else (if keep(s[0]) then [s[0]] else []) + Filter(s[1..], keep)
  }

  /** Filtering distributes over concatenation, so it never reorders. */
  lemma {:induction false} FilterAppend<T(!new)>(a: seq<T>, b: seq<T>, keep: T -> bool)
    ensures Filter(a + b, keep) == Filter(a, keep) + Filter(b, keep)
  {
    if |a| == 0 {
      assert a + b == b;
    } else {
      assert (a + b)[1..] == a[1..] + b;
      assert (a + b)[0] == a[0];
      FilterAppend(a[1..], b, keep);
      var head := if keep(a[0]) then [a[0]] else [];
      AppendAssoc(head, Filter(a[1..], keep), Filter(b, keep));
    }
  }

  /** When every element passes, filtering returns the sequence itself. */
  lemma {:induction false} FilterKeepsAll<T(!new)>(s: seq<T>, keep: T -> bool)
    requires forall i :: 0 <= i < |s| ==> keep(s[i])
    ensures Filter(s, keep) == s
  {
    if |s| > 0 {
      FilterKeepsAll(s[1..], keep);
      assert [s[0]] + s[1..] == s;
    }
  }

  /** `segments.join(sep)` */
  function Join(segments: seq<string>, sep: string): (r: string)
    ensures |segments| == 0 ==> r == ""
    ensures |segments| == 1 ==> r == segments[0]
  {
    if |segments| == 0 then ""
    else if |segments| == 1 then segments[0]
    else Join(segments[..|segments| - 1], sep) + sep + segments[|segments| - 1]
  }

  function DigitChar(d: nat): (c: char)
    requires d < 10
    ensures '0' <= c <= '9'
  {
    ('0' as int + d) as char
  }

  /** Decimal rendering of a natural number, as JavaScript's `String(n)` prints it. */
  function NatToString(n: nat): (r: string)
    ensures |r| > 0
    decreases n
  {
    if n < 10 then [DigitChar(n)] else NatToString(n / 10) + [DigitChar(n % 10)]
  }

  lemma DigitCharInjective(a: nat, b: nat)
    requires a < 10 && b < 10 && DigitChar(a) == DigitChar(b)
    ensures a == b
  {
  }

  /** Different numbers print differently. */
  lemma {:induction false} NatToStringInjective(a: nat, b: nat)
    requires NatToString(a) == NatToString(b)
    ensures a == b
    decreases a
  {
    var sa, sb := NatToString(a), NatToString(b);
    if a < 10 && b < 10 {
      DigitCharInjective(a, b);
    } else if 10 <= a && 10 <= b {
      assert sa[..|sa| - 1] == NatToString(a / 10);
      assert sb[..|sb| - 1] == NatToString(b / 10);
      NatToStringInjective(a / 10, b / 10);
      assert sa[|sa| - 1] == DigitChar(a % 10);
      assert sb[|sb| - 1] == DigitChar(b % 10);
      DigitCharInjective(a % 10, b % 10);
    }
  }
}

=== FILE: canvas.dfy ===
/** The review page of client/src/Canvas.jsx, reduced to its decisions:
    which controls a user sees, which window messages it acts on, when it
    sends an edit or a reply, how it numbers comments, and the two display
    helpers. */
module Canvas {
  import opened Base
  import opened Store
  import opened Routes
  import Overlay

  // ===== Display helpers =====

  /** `truncateText`'s default `maxLength`. */
  const DefaultMaxLength: nat := 100

  /** `truncateText(text, maxLength)`: short texts unchanged, long ones cut to
      `maxLength` characters followed by `'...'`. */
  function TruncateText(text: string, maxLength: nat): (r: string)
    ensures |text| <= maxLength ==> r == text
    ensures |text| > maxLength ==> |r| == maxLength + 3 && r[..maxLength] == text[..maxLength] && r[maxLength..] == "..."
  {
    if |text| <= maxLength then text else text[..maxLength] + "..."
  }

  /** The length JavaScript reports for `s` (`text.length`): one UTF-16 code
      unit for a character of the Basic Multilingual Plane, two (a surrogate
      pair) for any other. `TruncateText` measures in characters. */
  function Utf16Length(s: string): (n: nat)
    ensures |s| <= n <= 2 * |s|
    decreases |s|
  {
    if |s| == 0 then 0 else (if (s[0] as int) < 0x1_0000 then 1 else 2) + Utf16Length(s[1..])
  }

  /** On text made only of Basic Multilingual Plane characters the two
      measures agree, so `TruncateText` cuts where `truncateText` does. */
  lemma {:induction false} BmpLengthIsUtf16Length(s: string)
    requires forall i :: 0 <= i < |s| ==> (s[i] as int) < 0x1_0000
    ensures Utf16Length(s) == |s|
    decreases |s|
  {
    if |s| > 0 {
      BmpLengthIsUtf16Length(s[1..]);
    }
  }

  /** Characters outside that plane, such as emoji, count twice in
      JavaScript: 60 of them are 120 units long, past the default limit that
      `TruncateText` measures them against. */
  lemma {:induction false} AstralCountsTwice(s: string)
    requires forall i :: 0 <= i < |s| ==> (s[i] as int) >= 0x1_0000
    ensures Utf16Length(s) == 2 * |s|
    decreases |s|
  {
    if |s| > 0 {
      AstralCountsTwice(s[1..]);
    }
  }

  /** Sixty copies of U+1F600: the model keeps them whole under the default
      limit, while their JavaScript length is past it. */
  lemma EmojiPastDefaultLimit()
    ensures var s := seq(60, _ => 0x1F600 as char);
            TruncateText(s, DefaultMaxLength) == s && Utf16Length(s) == 120 > DefaultMaxLength
  {
    var s := seq(60, _ => 0x1F600 as char);
    AstralCountsTwice(s);
  }

  /** Truncating twice is truncating once: the cut text is itself long and
      cuts back to the same thing. */
  lemma TruncateIdempotent(text: string, maxLength: nat)
    ensures TruncateText(TruncateText(text, maxLength), maxLength) == TruncateText(text, maxLength)
  {
    if |text| > maxLength {
      var r := TruncateText(text, maxLength);
      assert r[..maxLength] == text[..maxLength];
    }
  }

  /** `getWidth()`: the frame width for the device preview. */
  function GetWidth(device: string): (r: string)
    ensures device == "mobile" <==> r == "375px"
    ensures device == "tablet" <==> r == "768px"
    ensures device != "mobile" && device != "tablet" <==> r == "100%"
  {
    if device == "mobile" then "375px" else if device == "tablet" then "768px" else "100%"
  }

  /** The three toolbar buttons that call `setDevice`; the page starts on
      `Desktop`. */
  datatype Device = Desktop | Tablet | Mobile

  /** The state string each button stores. */
  function DeviceName(d: Device): string {
    match d
    case Desktop => "desktop"
    case Tablet => "tablet"
    case Mobile => "mobile"
  }

  /** The preview width each device stands for, in CSS pixels; the desktop
      preview takes the full width of the canvas. */
  function PreviewPixels(d: Device): Option<nat> {
    match d
    case Desktop => None
    case Tablet => Some(768)
    case Mobile => Some(375)
  }

  /** Every toolbar button sizes the frame to its device's preview width, the
      narrower device giving the narrower frame, and the page's initial
      device fills the canvas. */
  lemma GetWidthMatchesDevice(d: Device)
    ensures PreviewPixels(d).Some? ==> GetWidth(DeviceName(d)) == NatToString(PreviewPixels(d).value) + "px"
    ensures PreviewPixels(d).None? ==> GetWidth(DeviceName(d)) == "100%"
    ensures PreviewPixels(Mobile).value < PreviewPixels(Tablet).value
  {
    match d
    case Desktop =>
    case Tablet =>
      assert NatToString(768) == "768" by {
        assert NatToString(76) == "76" by { assert NatToString(7) == "7"; }
      }
    case Mobile =>
      assert NatToString(375) == "375" by {
        assert NatToString(37) == "37" by { assert NatToString(3) == "3"; }
      }
  }

  // ===== Permission flags =====

  /** `isOwner = user && project && project.owner_id === user.id`. */
  predicate IsProjectOwner(user: Option<TokenUser>, project: Option<Project>) {
    user.Some? && project.Some? && project.value.ownerId == Some(user.value.id)
  }

  /** `isAuthor = user && c.user_id === user.id`: shows the edit control. */
  predicate IsCommentAuthor(user: Option<TokenUser>, c: Comment) {
    user.Some? && c.userId == Some(user.value.id)
  }

  /** `canDelete = isAuthor || isOwner`: shows the delete control. */
  predicate CanDelete(user: Option<TokenUser>, project: Option<Project>, c: Comment) {
    IsCommentAuthor(user, c) || IsProjectOwner(user, project)
  }

  /** The controls the page shows are exactly the ones the server honours:
      edit for the author, delete for the author or the owner of the
      comment's project. */
  lemma ControlsMatchServerRules(st: Store, user: TokenUser, project: Option<Project>, c: Comment)
    requires Valid(st) && c.id in st.comments && st.comments[c.id] == c
    requires c.projectId in st.projects ==> project == Some(st.projects[c.projectId])
    requires c.projectId !in st.projects ==> project.None?
    ensures IsCommentAuthor(Some(user), c) <==> UpdateComment(st, c.id, user.id, c.text).Success?
    ensures CanDelete(Some(user), project, c) <==> DeleteComment(st, c.id, user.id).Success?
  {
  }

  /** A visitor who is not signed in sees neither control. */
  lemma SignedOutSeesNoControls(project: Option<Project>, c: Comment)
    ensures !IsCommentAuthor(None, c) && !CanDelete(None, project, c)
  {
  }

  // ===== Window messages =====

  /** The fields of `e.data` the page reads. */
  datatype WindowMessage = WindowMessage(kind: string, projectId: Option<Id>, commentId: Option<Id>)

  /** The part of the page state a message can change. */
  datatype Panel = Panel(activeId: Option<Id>, selected: Option<Comment>)

  /** Follow-up requests: reload the comment list, or load a comment's
      replies. */
  datatype Action = ReloadComments | LoadReplies(commentId: Id)

  /** `comments.findIndex(c => c.id === id)` as a position, when there is one. */
  function FindById(comments: seq<Comment>, id: Option<Id>): (r: Option<nat>)
    ensures r.Some? ==> r.value < |comments| && Some(comments[r.value].id) == id
    ensures r.Some? ==> forall j :: 0 <= j < r.value ==> Some(comments[j].id) != id
    ensures r.None? ==> forall j :: 0 <= j < |comments| ==> Some(comments[j].id) != id
  {
    if |comments| == 0 then None
    else if Some(comments[0].id) == id then Some(0)
    else match FindById(comments[1..], id)
      case None => None
      case Some(i) => Some(i + 1)
  }

  /** `handleMessage`: only messages about this page's project count;
      `COMMENT_ADDED` reloads and highlights the new comment,
      `MARKER_CLICKED` highlights and opens the clicked comment. */
  function HandleMessage(p: Panel, pageId: Id, comments: seq<Comment>, data: Option<WindowMessage>): (r: (Panel, seq<Action>))
    ensures data.None? || data.value.projectId != Some(pageId) ==> r == (p, [])
    ensures data.Some? && data.value.projectId == Some(pageId) && data.value.kind == "COMMENT_ADDED" ==>
              r == (p.(activeId := data.value.commentId), [ReloadComments])
    ensures data.Some? && data.value.projectId == Some(pageId) && data.value.kind == "MARKER_CLICKED" ==>
              r.0.activeId == data.value.commentId
              && (FindById(comments, data.value.commentId).None? ==> r == (p.(activeId := data.value.commentId), []))
              && (FindById(comments, data.value.commentId).Some? ==>
                    var c := comments[FindById(comments, data.value.commentId).value];
                    r.0.selected == Some(c) && r.1 == [LoadReplies(c.id)])
    ensures data.Some? && data.value.kind != "COMMENT_ADDED" && data.value.kind != "MARKER_CLICKED" ==> r == (p, [])
  {
    if data.None? || data.value.projectId != Some(pageId) then (p, [])
    else
      var m := data.value;
      if m.kind == "COMMENT_ADDED" then (p.(activeId := m.commentId), [ReloadComments])
      else if m.kind == "MARKER_CLICKED" then
        match FindById(comments, m.commentId)
        case None => (p.(activeId := m.commentId), [])
        case Some(i) => (Panel(m.commentId, Some(comments[i])), [LoadReplies(comments[i].id)])
      else (p, [])
  }

  /** A comment saved from the overlay of this page's project reaches the
      list: the overlay's `COMMENT_ADDED` message, carrying the id the server
      answered, makes the page reload its comments and highlight that id. */
  lemma CommentAddedReachesPanel(o: Overlay.Overlay, id: Option<Id>, p: Panel, comments: seq<Comment>)
    ensures var effects := Overlay.Step(o, Overlay.Saved(Overlay.Answered(id))).1;
            |effects| == 2 && effects[1] == Overlay.NotifyCommentAdded(o.projectId, id)
            && HandleMessage(p, o.projectId, comments, Some(WindowMessage("COMMENT_ADDED", Some(o.projectId), id)))
               == (p.(activeId := id), [ReloadComments])
  {
  }

  /** A marker clicked in the overlay of this page's project highlights the
      same comment in the list. */
  lemma MarkerClickReachesPanel(o: Overlay.Overlay, id: Id, p: Panel, comments: seq<Comment>)
    ensures var effects := Overlay.Step(o, Overlay.MarkerClicked(id)).1;
            effects == [Overlay.NotifyMarkerClicked(o.projectId, id)]
            && HandleMessage(p, o.projectId, comments, Some(WindowMessage("MARKER_CLICKED", Some(o.projectId), Some(id)))).0.activeId
               == Some(id)
  {
  }

  // ===== Edit and reply guards =====

  datatype EditCall = EditCall(commentId: Id, text: string)

  /** `handleEditComment`: blank text sends nothing; otherwise the text is
      sent as typed. */
  function EditRequest(editingId: Id, editText: string): (r: Option<EditCall>)
    ensures r.None? <==> IsBlank(editText)
    ensures r.Some? ==> r.value == EditCall(editingId, editText)
  {
    if IsBlank(editText) then None else Some(EditCall(editingId, editText))
  }

  datatype ReplyCall = ReplyCall(commentId: Id, text: string)

  /** `handleReply`: blank text or no open comment sends nothing. */
  function ReplyRequest(replyText: string, selected: Option<Comment>): (r: Option<ReplyCall>)
    ensures r.None? <==> IsBlank(replyText) || selected.None?
    ensures r.Some? ==> r.value == ReplyCall(selected.value.id, replyText)
  {
    if IsBlank(replyText) || selected.None? then None else Some(ReplyCall(selected.value.id, replyText))
  }

  /** The page's guard is stricter than the server's: whatever it sends
      passes the server's text check. */
  lemma SentTextPassesServerCheck(editingId: Id, editText: string, replyText: string, selected: Option<Comment>)
    ensures EditRequest(editingId, editText).Some? ==> Given(Some(EditRequest(editingId, editText).value.text))
    ensures ReplyRequest(replyText, selected).Some? ==> Given(Some(ReplyRequest(replyText, selected).value.text))
  {
  }

  // ===== Numbering =====

  /** The number the comment list shows next to the comment at position `i`. */
  function ListNumber(i: nat): nat { i + 1 }

  /** The number the detail view shows: `findIndex(...) + 1`, which is 0 when
      the comment is no longer in the list. */
  function DetailNumber(comments: seq<Comment>, selected: Comment): (r: nat)
    ensures r == 0 <==> forall j :: 0 <= j < |comments| ==> comments[j].id != selected.id
  {
    match FindById(comments, Some(selected.id))
    case None => 0
    case Some(i) => ListNumber(i)
  }

  predicate DistinctIds(comments: seq<Comment>) {
    forall i, j :: 0 <= i < j < |comments| ==> comments[i].id != comments[j].id
  }

  /** With distinct ids the detail view and the list show the same number. */
  lemma DetailMatchesList(comments: seq<Comment>, i: nat)
    requires DistinctIds(comments) && i < |comments|
    ensures DetailNumber(comments, comments[i]) == ListNumber(i)
  {
    var k := FindById(comments, Some(comments[i].id));
    assert k.Some?;
    assert k.value == i;
  }

  /** The comment as the overlay script reads it from the same listing. */
  function AsStored(c: Comment): Overlay.StoredComment {
    Overlay.StoredComment(c.id, c.text, c.x, c.y, c.selector)
  }

  /** The overlay numbers its markers by position in the same listing, so
      every marker carries the number the list shows for its comment. */
  lemma MarkerNumberMatchesList(comments: seq<Comment>, view: Overlay.View, activeId: Option<Id>, j: nat)
    requires j < |Overlay.RenderMarkers(seq(|comments|, k requires 0 <= k < |comments| => AsStored(comments[k])), view, activeId)|
    ensures var m := Overlay.RenderMarkers(seq(|comments|, k requires 0 <= k < |comments| => AsStored(comments[k])), view, activeId)[j];
            1 <= m.number <= |comments| && comments[m.number - 1].id == m.id && ListNumber(m.number - 1) == m.number
  {
    var stored := seq(|comments|, k requires 0 <= k < |comments| => AsStored(comments[k]));
    var m := Overlay.RenderMarkers(stored, view, activeId)[j];
    assert Overlay.DrawnFrom(stored, m.number - 1, view, activeId, m);
  }
}

=== FILE: dashboard.dfy ===
/** The project list of client/src/Dashboard.jsx: the search filter, the
    list after a delete, the fallback for a response that is not a list, and
    the address shown on each card. */
module Dashboard {
  import opened Base
  import opened Store
  import opened Routes
  import opened Sorting

  /** `p.url.toLowerCase().includes(searchTerm.toLowerCase())`. */
  predicate MatchesSearch(p: ProjectSummary, term: string) {
    Contains(ToLower(p.project.url), ToLower(term))
  }

  /** `filteredProjects`: the projects whose address contains the search
      term, ignoring case, in list order. */
  function FilterProjects(projects: seq<ProjectSummary>, term: string): (r: seq<ProjectSummary>)
    ensures forall p :: p in r <==> p in projects && MatchesSearch(p, term)
    ensures |r| <= |projects|
  {
    Filter(projects, p => MatchesSearch(p, term))
  }

  /** The filter works piecewise, so it keeps the list's order. */
  lemma FilterKeepsOrder(a: seq<ProjectSummary>, b: seq<ProjectSummary>, term: string)
    ensures FilterProjects(a + b, term) == FilterProjects(a, term) + FilterProjects(b, term)
  {
    FilterAppend(a, b, p => MatchesSearch(p, term));
  }

  /** An empty search shows every project. */
  lemma EmptySearchKeepsAll(projects: seq<ProjectSummary>)
    ensures FilterProjects(projects, "") == projects
  {
    forall i | 0 <= i < |projects| ensures MatchesSearch(projects[i], "") {
      assert ToLower("") == "";
      assert StartsWith(ToLower(projects[i].project.url), "");
    }
    FilterKeepsAll(projects, p => MatchesSearch(p, ""));
  }

  /** The search ignores the case of both the address and the term. */
  lemma SearchIgnoresCase(projects: seq<ProjectSummary>, term: string)
    ensures forall p :: p in FilterProjects(projects, ToLower(term)) <==> p in FilterProjects(projects, term)
  {
    LowerIdempotent(term);
  }

  lemma LowerIdempotent(s: string)
    ensures ToLower(ToLower(s)) == ToLower(s)
  {
    assert forall i :: 0 <= i < |s| ==> LowerChar(LowerChar(s[i])) == LowerChar(s[i]);
  }

  /** The list after `DELETE /api/projects/:id`: on success the projects
      with that id are dropped (`projects.filter(p => p.id !== id)`); on
      failure the list stays as it was. */
  function AfterDelete(projects: seq<ProjectSummary>, id: Id, ok: bool): (r: seq<ProjectSummary>)
    ensures !ok ==> r == projects
    ensures ok ==> forall p :: p in r <==> p in projects && p.project.id != id
  {
    if ok then Filter(projects, (p: ProjectSummary) => p.project.id != id) else projects
  }

  /** Deleting keeps the remaining projects in order, and deleting an id that
      is not listed changes nothing. */
  lemma DeleteKeepsOrder(a: seq<ProjectSummary>, b: seq<ProjectSummary>, id: Id)
    ensures AfterDelete(a + b, id, true) == AfterDelete(a, id, true) + AfterDelete(b, id, true)
    ensures (forall i :: 0 <= i < |a| ==> a[i].project.id != id) ==> AfterDelete(a, id, true) == a
  {
    FilterAppend(a, b, (p: ProjectSummary) => p.project.id != id);
    if forall i :: 0 <= i < |a| ==> a[i].project.id != id {
      FilterKeepsAll(a, (p: ProjectSummary) => p.project.id != id);
    }
  }

  /** The decoded body of `GET /api/projects`. */
  datatype ProjectsBody = ProjectArray(items: seq<ProjectSummary>) | NotAnArray

  /** `Array.isArray(data) ? data : []`. */
  function ProjectList(body: ProjectsBody): (r: seq<ProjectSummary>)
    ensures body.NotAnArray? ==> r == []
    ensures body.ProjectArray? ==> r == body.items
  {
    match body
    case ProjectArray(items) => items
    case NotAnArray => []
  }

  /** How `fetchProjects` ends: a 401 signs the user out and goes to the
      sign-in page, a JSON body becomes the list through `ProjectList`, and a
      body `res.json()` cannot parse is caught and leaves the list as it was. */
  datatype Fetched = SignedOut | Listed(projects: seq<ProjectSummary>) | Unchanged

  /** `fetchProjects` reading the answer of `GET /api/projects`, which is a
      project array, a JSON error object or a plain-text error. */
  function ShowProjects(resp: Response): (r: Fetched)
    ensures resp.status == 401 <==> r.SignedOut?
    ensures resp.status != 401 && resp.body.ProjectsJson? ==> r == Listed(resp.body.projects)
    ensures resp.status != 401 && !resp.body.ProjectsJson? && !resp.body.PlainText? ==> r == Listed([])
    ensures resp.status != 401 && resp.body.PlainText? ==> r == Unchanged
  {
    if resp.status == 401 then SignedOut
    else
      match resp.body
      case ProjectsJson(ps) => Listed(ProjectList(ProjectArray(ps)))
      case PlainText(_) => Unchanged
      case _ => Listed(ProjectList(NotAnArray))
  }

  /** Signed in with a token the server accepts, the dashboard lists exactly
      the caller's projects, each once with its comment count, newest first;
      with a token it rejects, the user is signed out. */
  method DashboardListsOwnProjects(st: Store, token: string, verify: string -> Option<TokenUser>) returns (shown: Fetched)
    ensures verify(token).None? ==> shown == SignedOut
    ensures verify(token).Some? ==>
              shown.Listed?
              && (forall s :: s in shown.projects <==>
                    s.project in st.projects.Values && s.project.ownerId == Some(verify(token).value.id)
                    && s.commentCount == CommentCount(st, s.project.id))
              && Distinct(shown.projects)
              && (forall i, j :: 0 <= i < j < |shown.projects| ==>
                    shown.projects[i].project.createdAt >= shown.projects[j].project.createdAt)
  {
    var header := BearerPrefix + token;
    assert StartsWith(header, BearerPrefix) && header[7..] == token;
    var resp := GetProjectsRoute(st, Some(header), verify);
    shown := ShowProjects(resp);
  }

  /** `url.replace(/^https?:\/\//, '')`: the card shows the address without a
      leading `http://` or `https://`. */
  function DisplayUrl(url: string): (r: string)
    ensures StartsWith(url, "https://") ==> url == "https://" + r
    ensures StartsWith(url, "http://") ==> url == "http://" + r
    ensures !StartsWith(url, "https://") && !StartsWith(url, "http://") ==> r == url
  {
    if StartsWith(url, "https://") then
      assert url[..7][4] == 's';
      url[8..]
    else if StartsWith(url, "http://") then url[7..]
    else url
  }
}

=== FILE: geometry.dfy ===
/** The coordinate arithmetic of server/public/embed.js: a click is stored as
    percentages of the clicked element's box, and a marker is placed by
    projecting those percentages back onto the element's box in page
    coordinates. Geometry is real-valued; browser floating point is not
    modelled. */
module Geometry {
  import opened Base

  /** A box: `getBoundingClientRect()` (viewport coordinates) or the
      `getOffset` result (page coordinates). Browsers never report a negative
      size. */
  datatype Rect = Rect(left: real, top: real, width: real, height: real)

  predicate ValidRect(r: Rect) {
    r.width >= 0.0 && r.height >= 0.0
  }

  /** `window.scrollX` / `window.scrollY`. */
  datatype Scroll = Scroll(x: real, y: real)

  /** A click in viewport coordinates. The browser's `pageX`/`pageY` are the
      viewport coordinates plus the scroll offsets. */
  datatype Click = Click(clientX: real, clientY: real)

  function PageX(c: Click, s: Scroll): real { c.clientX + s.x }
  function PageY(c: Click, s: Scroll): real { c.clientY + s.y }

  /** A point on the page. */
  datatype Point = Point(x: real, y: real)

  /** `getOffset(el)`: the element's box moved from viewport to page
      coordinates by the current scroll; the size is unchanged. */
  function GetOffset(rect: Rect, s: Scroll): (r: Rect)
    ensures r.width == rect.width && r.height == rect.height
    ensures r.left - s.x == rect.left && r.top - s.y == rect.top
  {
    Rect(rect.left + s.x, rect.top + s.y, rect.width, rect.height)
  }

  /** One axis of the capture: the click's distance from the box's edge as a
      percentage of the box's size. The source divides without a guard; a
      zero size, where JavaScript would store NaN or Infinity, is `None`. */
  function Percent(offset: real, size: real): (r: Option<real>)
    ensures r.Some? <==> size != 0.0
    ensures r.Some? ==> r.value * size == offset * 100.0
  {
    if size == 0.0 then None else Some(offset / size * 100.0)
  }

  /** The stored anchor of a click: `xPercent`, `yPercent`. */
  datatype Anchor = Anchor(x: real, y: real)

  /** The click handler's capture: percentages of the clicked element's
      bounding rectangle, measured from its top-left corner. */
  function Capture(c: Click, rect: Rect): (r: Option<Anchor>)
    ensures r.Some? <==> rect.width != 0.0 && rect.height != 0.0
    ensures r.Some? ==> r.value.x * rect.width == (c.clientX - rect.left) * 100.0
    ensures r.Some? ==> r.value.y * rect.height == (c.clientY - rect.top) * 100.0
  {
    var px := Percent(c.clientX - rect.left, rect.width);
    var py := Percent(c.clientY - rect.top, rect.height);
    if px.Some? && py.Some? then Some(Anchor(px.value, py.value)) else None
  }

  /** One axis of `renderComments`' placement: `offset + pct / 100 * size`. */
  function Project(start: real, pct: real, size: real): real {
    start + pct / 100.0 * size
  }

  /** The marker position for an anchored comment whose element currently
      has page box `offset`. */
  function Reproject(offset: Rect, a: Anchor): (p: Point)
    ensures ValidRect(offset) && 0.0 <= a.x <= 100.0 ==> offset.left <= p.x <= offset.left + offset.width
    ensures ValidRect(offset) && 0.0 <= a.y <= 100.0 ==> offset.top <= p.y <= offset.top + offset.height
  {
    ProjectWithin(offset.left, a.x, offset.width);
    ProjectWithin(offset.top, a.y, offset.height);
    Point(Project(offset.left, a.x, offset.width), Project(offset.top, a.y, offset.height))
  }

  /** A percentage between 0 and 100 lands inside the box. */
  lemma ProjectWithin(start: real, pct: real, size: real)
    ensures size >= 0.0 && 0.0 <= pct <= 100.0 ==> start <= Project(start, pct, size) <= start + size
  {
    if size >= 0.0 && 0.0 <= pct <= 100.0 {
      assert 0.0 <= pct / 100.0 <= 1.0;
      assert 0.0 <= pct / 100.0 * size <= size;
    }
  }

  /** The legacy fallback for comments anchored to nothing (or to `body`):
      percentages of the whole document's scroll size. */
  function Fallback(a: Anchor, scrollWidth: real, scrollHeight: real): (p: Point)
    ensures p == Reproject(Rect(0.0, 0.0, scrollWidth, scrollHeight), a)
  {
    Point(a.x / 100.0 * scrollWidth, a.y / 100.0 * scrollHeight)
  }

  /** One axis of the round trip: projecting the captured percentage back
      onto the same box recovers the coordinate. */
  lemma {:induction false} AxisRoundTrip(client: real, start: real, size: real, scroll: real)
    requires size != 0.0
    ensures Project(start + scroll, Percent(client - start, size).value, size) == client + scroll
  {
    var pct := Percent(client - start, size).value;
    assert pct * size == (client - start) * 100.0;
    calc {
      Project(start + scroll, pct, size);
      start + scroll + pct / 100.0 * size;
      { assert pct / 100.0 * size == pct * size / 100.0; }
      start + scroll + (client - start) * 100.0 / 100.0;
      client + scroll;
    }
  }

  /** Round trip: with the element's box and the scroll unchanged, the marker
      is drawn exactly at the page coordinate of the click. */
  lemma {:induction false} RoundTrip(c: Click, rect: Rect, s: Scroll)
    requires rect.width != 0.0 && rect.height != 0.0
    ensures Capture(c, rect).Some?
    ensures Reproject(GetOffset(rect, s), Capture(c, rect).value) == Point(PageX(c, s), PageY(c, s))
  {
    AxisRoundTrip(c.clientX, rect.left, rect.width, s.x);
    AxisRoundTrip(c.clientY, rect.top, rect.height, s.y);
  }

  /** The capture against the whole document: the click's page coordinates
      as percentages of the document's scroll size, the measure that
      `Fallback` reads back. */
  function DocumentCapture(c: Click, s: Scroll, scrollWidth: real, scrollHeight: real): (r: Option<Anchor>)
    ensures r.Some? <==> scrollWidth != 0.0 && scrollHeight != 0.0
    ensures r.Some? ==> r.value.x * scrollWidth == PageX(c, s) * 100.0
    ensures r.Some? ==> r.value.y * scrollHeight == PageY(c, s) * 100.0
  {
    var px := Percent(PageX(c, s), scrollWidth);
    var py := Percent(PageY(c, s), scrollHeight);
    if px.Some? && py.Some? then Some(Anchor(px.value, py.value)) else None
  }

  /** Round trip through the document: with the scroll size unchanged, the
      fallback placement of a document capture is the click's page point. */
  lemma {:induction false} DocumentRoundTrip(c: Click, s: Scroll, scrollWidth: real, scrollHeight: real)
    requires scrollWidth != 0.0 && scrollHeight != 0.0
    ensures DocumentCapture(c, s, scrollWidth, scrollHeight).Some?
    ensures Fallback(DocumentCapture(c, s, scrollWidth, scrollHeight).value, scrollWidth, scrollHeight)
            == Point(PageX(c, s), PageY(c, s))
  {
    AxisRoundTrip(PageX(c, s), 0.0, scrollWidth, 0.0);
    AxisRoundTrip(PageY(c, s), 0.0, scrollHeight, 0.0);
  }

  /** A click inside the element's box stores percentages between 0 and 100,
      and one outside it does not. */
  lemma {:induction false} InsideIffPercentInRange(c: Click, rect: Rect)
    requires rect.width > 0.0 && rect.height > 0.0
    ensures (rect.left <= c.clientX <= rect.left + rect.width && rect.top <= c.clientY <= rect.top + rect.height)
        <==> (0.0 <= Capture(c, rect).value.x <= 100.0 && 0.0 <= Capture(c, rect).value.y <= 100.0)
  {
    AxisInRange(c.clientX - rect.left, rect.width);
    AxisInRange(c.clientY - rect.top, rect.height);
  }

  lemma AxisInRange(offset: real, size: real)
    requires size > 0.0
    ensures 0.0 <= offset <= size <==> 0.0 <= Percent(offset, size).value <= 100.0
  {
    var p := Percent(offset, size).value;
    assert p * size == offset * 100.0;
    if 0.0 <= p {
      assert 0.0 <= offset;
    }
    if p <= 100.0 {
      assert p * size <= 100.0 * size;
    }
    if offset <= size {
      assert p * size <= 100.0 * size;
    }
  }

  /** After the element moves or is resized (a window resize re-renders the
      markers), the marker keeps its relative position within the element:
      the same fraction of the new box as the click was of the old one. */
  lemma {:induction false} ResizeKeepsRelativePosition(c: Click, rect: Rect, newOffset: Rect)
    requires rect.width != 0.0 && rect.height != 0.0
    requires newOffset.width != 0.0 && newOffset.height != 0.0
    ensures var p := Reproject(newOffset, Capture(c, rect).value);
            (p.x - newOffset.left) / newOffset.width == (c.clientX - rect.left) / rect.width
            && (p.y - newOffset.top) / newOffset.height == (c.clientY - rect.top) / rect.height
  {
    AxisFraction(c.clientX - rect.left, rect.width, newOffset.left, newOffset.width);
    AxisFraction(c.clientY - rect.top, rect.height, newOffset.top, newOffset.height);
  }

  lemma AxisFraction(offset: real, size: real, start: real, newSize: real)
    requires size != 0.0 && newSize != 0.0
    ensures (Project(start, Percent(offset, size).value, newSize) - start) / newSize == offset / size
  {
    var p := Percent(offset, size).value;
    assert p == offset / size * 100.0;
    assert Project(start, p, newSize) - start == p / 100.0 * newSize;
    assert p / 100.0 * newSize / newSize == p / 100.0;
  }
}

=== FILE: jsstring.dfy ===
/** JavaScript string literals, as far as the proxy's configuration script
    needs them: writing a value between double quotes so that it reads back
    as itself, and reading a literal body back. */
module JsString {
  import opened Base

  /** The characters that cannot stand for themselves inside a double-quoted
      literal placed in an HTML `<script>`: the line terminators and other
      control characters, the quote and the backslash, and `<`, which could
      start `</script>`. */
  predicate NeedsEscape(c: char) {
    c < ' ' || c == '"' || c == '\\' || c == '<'
  }

  function HexDigit(n: nat): (c: char)
    requires n < 16
  {
    if n < 10 then ('0' as int + n) as char else ('a' as int + n - 10) as char
  }

  predicate IsHex(c: char) {
    '0' <= c <= '9' || 'a' <= c <= 'f'
  }

  function HexValue(c: char): (n: nat)
    requires IsHex(c)
    ensures n < 16
  {
    if c <= '9' then c as int - '0' as int else c as int - 'a' as int + 10
  }

  lemma HexDigitRoundTrip(n: nat)
    requires n < 16
    ensures IsHex(HexDigit(n)) && HexValue(HexDigit(n)) == n
  {
  }

  /** One character as it is written inside the literal: itself, or `\xHH`. */
  function EscapeChar(c: char): (r: string)
    ensures !NeedsEscape(c) ==> r == [c]
    ensures NeedsEscape(c) ==> |r| == 4 && r[0] == '\\' && r[1] == 'x'
  {
    if NeedsEscape(c) then ['\\', 'x', HexDigit(c as int / 16), HexDigit(c as int % 16)] else [c]
  }

  /** The body of a double-quoted literal whose value is `s`. */
  function Escape(s: string): (r: string)
    ensures forall i :: 0 <= i < |r| ==> r[i] != '<' && r[i] != '"' && r[i] != '\n' && r[i] != '\r'
    decreases |s|
  {
    if |s| == 0 then "" else EscapeChar(s[0]) + Escape(s[1..])
  }

  /** Reads the body of a literal up to its closing quote: the value and
      what follows the quote, or `None` for text that is not a well-formed
      literal (a raw line break, a missing quote). Of the escapes, `\xHH` and
      the quote, backslash and apostrophe escapes are read; the others are
      not needed here and are refused. */
  function ReadLiteral(s: string): (r: Option<(string, string)>)
    decreases |s|
  {
    if |s| == 0 then None
    else if s[0] == '"' then Some(("", s[1..]))
    else if s[0] == '\n' || s[0] == '\r' then None
    else if s[0] == '\\' then
      if |s| >= 4 && s[1] == 'x' && IsHex(s[2]) && IsHex(s[3]) then
        Prepend((HexValue(s[2]) * 16 + HexValue(s[3])) as char, ReadLiteral(s[4..]))
      else if |s| >= 2 && (s[1] == '"' || s[1] == '\\' || s[1] == '\'') then
        Prepend(s[1], ReadLiteral(s[2..]))
      else None
    else Prepend(s[0], ReadLiteral(s[1..]))
  }

  function Prepend(c: char, r: Option<(string, string)>): Option<(string, string)> {
    match r
    case None => None
    case Some((v, rest)) => Some(([c] + v, rest))
  }

  /** Whatever the value, its escaped body followed by the closing quote
      reads back as that value, and reading stops right after that quote. */
  lemma {:induction false} EscapeRoundTrip(v: string, rest: string)
    ensures ReadLiteral(Escape(v) + "\"" + rest) == Some((v, rest))
    decreases |v|
  {
    var s := Escape(v) + "\"" + rest;
    if |v| == 0 {
      assert s == "\"" + rest;
    } else {
      var c := v[0];
      var tail := Escape(v[1..]) + "\"" + rest;
      assert s == EscapeChar(c) + tail;
      EscapeRoundTrip(v[1..], rest);
      assert v == [c] + v[1..];
      if NeedsEscape(c) {
        HexDigitRoundTrip(c as int / 16);
        HexDigitRoundTrip(c as int % 16);
        assert s[4..] == tail;
        assert (HexValue(s[2]) * 16 + HexValue(s[3])) as char == c;
      } else {
        assert s[0] == c && s[1..] == tail;
      }
    }
  }

  /** A value without characters that need escaping is written as it is. */
  lemma {:induction false} PlainValueUnchanged(v: string)
    requires forall i :: 0 <= i < |v| ==> !NeedsEscape(v[i])
    ensures Escape(v) == v
    decreases |v|
  {
    if |v| > 0 {
      PlainValueUnchanged(v[1..]);
      assert v == [v[0]] + v[1..];
    }
  }
}

=== FILE: landing.dfy ===
/** The address form of client/src/Landing.jsx: what it sends to create a
    project. */
module Landing {
  import opened Base
  import Dashboard

  /** `submitUrl.startsWith('http') ? submitUrl : 'https://' + submitUrl`. */
  function Normalize(url: string): (r: string)
    ensures StartsWith(url, "http") ==> r == url
    ensures !StartsWith(url, "http") ==> r == "https://" + url
  {
    if StartsWith(url, "http") then url else "https://" + url
  }

  /** `handleSubmit`: an empty field sends nothing; otherwise the normalised
      address is sent. */
  function SubmitUrl(url: string): (r: Option<string>)
    ensures r.None? <==> url == ""
    ensures r.Some? ==> r.value == Normalize(url)
  {
    if url == "" then None else Some(Normalize(url))
  }

  /** The address sent always starts with `http`. */
  lemma NormalizedStartsWithHttp(url: string)
    ensures StartsWith(Normalize(url), "http")
  {
    if !StartsWith(url, "http") {
      PrefixOfConcat("https://", url);
      assert ("https://" + url)[..4] == "http";
    }
  }

  /** Normalising twice is normalising once. */
  lemma NormalizeIdempotent(url: string)
    ensures Normalize(Normalize(url)) == Normalize(url)
  {
    NormalizedStartsWithHttp(url);
  }

  /** The check is only for the four letters `http`, so a host name that
      starts with them is sent without a scheme. */
  lemma HttpPrefixedHostKeptAsIs()
    ensures Normalize("httpbin.org") == "httpbin.org"
  {
    assert "httpbin.org"[..4] == "http";
  }

  /** A bare host name comes back unchanged on the dashboard card: the
      prefix the form adds is the one the card strips. */
  lemma CardShowsWhatWasTyped(url: string)
    requires !StartsWith(url, "http")
    ensures Dashboard.DisplayUrl(Normalize(url)) == url
  {
    var n := "https://" + url;
    PrefixOfConcat("https://", url);
    assert n[8..] == url;
  }
}

=== FILE: overlay.dfy ===
/** The overlay that server/public/embed.js keeps in its shadow root: the
    numbered markers `renderComments` draws, the `active` highlight that
    `setActive` moves between them, and the single compose slot (a `+`
    marker and a form) that a page click opens and `closeForm` clears. */
module Overlay {
  import opened Base
  import opened Geometry
  import opened Selector

  /** A comment as the overlay receives it from `GET /api/comments`. */
  datatype StoredComment = StoredComment(id: Id, text: string, x: real, y: real, selector: string)

  /** What `document.querySelector(sel)` does with a stored selector: returns
      the first matching element (given here by its `getOffset` box), returns
      `null`, or throws because the text is not a valid CSS selector. The
      last happens for selectors `getCssPath` itself builds when an element's
      id is not a CSS identifier (`div#:r1:`, `p#1st`): the id is appended
      without escaping. */
  datatype Located = Found(offset: Rect) | NoMatch | Invalid

  /** What the page offers the renderer: the outcome of `querySelector`
      for each selector, and the document's scroll size for the fallback. */
  datatype View = View(locate: string -> Located, scrollWidth: real, scrollHeight: real)

  /** A drawn marker: `data-id`, the label text, the tooltip, the position and
      whether it carries the `active` class. */
  datatype Marker = Marker(id: Id, number: nat, title: string, at: Point, active: bool)

  /** What the `forEach` callback does with one comment: draws it at a point,
      returns early without a marker, or throws out of the whole loop. */
  datatype Place = At(at: Point) | Skipped | Halts

  /** Where a comment's marker goes: a real selector is reprojected onto the
      element it matches, skipped when nothing matches, and stops the loop
      when `querySelector` throws; an empty selector or `'body'` uses the
      document percentages. */
  function Placement(c: StoredComment, view: View): Place {
    var a := Anchor(c.x, c.y);
    if c.selector != "" && c.selector != "body" then
      match view.locate(c.selector)
      case Found(offset) => At(Reproject(offset, a))
      case NoMatch => Skipped
      case Invalid => Halts
    else
      At(Fallback(a, view.scrollWidth, view.scrollHeight))
  }

  /** How many comments the `forEach` reaches: the position of the first
      comment whose selector throws, or the whole list. The exception leaves
      `renderComments` and is swallowed by the `catch` of `loadComments`. */
  function Reached(cs: seq<StoredComment>, view: View): (k: nat)
    ensures k <= |cs|
    ensures forall i :: 0 <= i < k ==> !Placement(cs[i], view).Halts?
    ensures k < |cs| ==> Placement(cs[k], view).Halts?
    decreases |cs|
  {
    if |cs| == 0 then 0
    else
      var init := cs[..|cs| - 1];
      var k := Reached(init, view);
      assert forall i :: 0 <= i < |init| ==> init[i] == cs[i];
      if k < |init| then k
      else if Placement(cs[|cs| - 1], view).Halts? then |init|
      else |cs|
  }

  /** The marker the comment at position `k` would get: numbered `k + 1`,
      titled with the text, active exactly when its id is the active one. */
  ghost predicate DrawnFrom(cs: seq<StoredComment>, k: int, view: View, activeId: Option<Id>, m: Marker) {
    0 <= k < |cs| && Placement(cs[k], view).At?
    && m == Marker(cs[k].id, k + 1, cs[k].text, Placement(cs[k], view).at, activeId == Some(cs[k].id))
  }

  /** `comments.forEach((c, index) => …)`: one marker per placeable comment
      the loop reaches, in list order, each labelled with its 1-based
      position in the whole list, so a skipped comment still uses up its
      number; the markers appended before a throwing selector stay. */
  function RenderMarkers(cs: seq<StoredComment>, view: View, activeId: Option<Id>): (r: seq<Marker>)
    ensures forall j :: 0 <= j < |r| ==> DrawnFrom(cs, r[j].number - 1, view, activeId, r[j])
    ensures forall i, j :: 0 <= i < j < |r| ==> r[i].number < r[j].number
    ensures forall j :: 0 <= j < |r| ==> r[j].number <= Reached(cs, view)
    decreases |cs|
  {
    if |cs| == 0 then []
    else
      var init := cs[..|cs| - 1];
      var prev := RenderMarkers(init, view, activeId);
      var c := cs[|cs| - 1];
      DrawnFromPrefix(cs, prev, view, activeId);
      if Reached(init, view) < |init| then prev
      else
        match Placement(c, view)
        case At(p) => prev + [Marker(c.id, |cs|, c.text, p, activeId == Some(c.id))]
        case Skipped => prev
        case Halts => prev
  }

  /** A marker drawn from a prefix of the list is drawn from the whole list. */
  lemma DrawnFromPrefix(cs: seq<StoredComment>, prev: seq<Marker>, view: View, activeId: Option<Id>)
    requires |cs| > 0
    requires forall j :: 0 <= j < |prev| ==> DrawnFrom(cs[..|cs| - 1], prev[j].number - 1, view, activeId, prev[j])
    ensures forall j :: 0 <= j < |prev| ==> DrawnFrom(cs, prev[j].number - 1, view, activeId, prev[j])
  {
    forall j | 0 <= j < |prev| ensures DrawnFrom(cs, prev[j].number - 1, view, activeId, prev[j]) {
      var k := prev[j].number - 1;
      assert cs[..|cs| - 1][k] == cs[k];
    }
  }

  /** Every comment the loop reaches that can be placed gets a marker:
      before the first throwing selector, nothing is dropped except the
      comments whose selector matches no element. */
  lemma {:induction false} EveryPlaceableCommentDrawn(cs: seq<StoredComment>, view: View, activeId: Option<Id>, k: int)
    requires 0 <= k < Reached(cs, view) && Placement(cs[k], view).At?
    ensures exists j :: 0 <= j < |RenderMarkers(cs, view, activeId)| && RenderMarkers(cs, view, activeId)[j].number == k + 1
    decreases |cs|
  {
    var init := cs[..|cs| - 1];
    var prev := RenderMarkers(init, view, activeId);
    if k == |cs| - 1 {
      assert Reached(init, view) == |init|;
      assert RenderMarkers(cs, view, activeId)[|prev|].number == k + 1;
    } else {
      assert init[k] == cs[k];
      assert k < Reached(init, view);
      EveryPlaceableCommentDrawn(init, view, activeId, k);
      var j :| 0 <= j < |prev| && prev[j].number == k + 1;
      assert RenderMarkers(cs, view, activeId)[j] == prev[j];
    }
  }

  /** A selector that makes `querySelector` throw ends the render: no comment
      at or after it gets a marker, however placeable. */
  lemma ThrowingSelectorEndsRender(cs: seq<StoredComment>, view: View, activeId: Option<Id>, k: int)
    requires 0 <= k < |cs| && Placement(cs[k], view).Halts?
    ensures forall j :: 0 <= j < |RenderMarkers(cs, view, activeId)| ==> RenderMarkers(cs, view, activeId)[j].number <= k
  {
  }

  /** The state that a submitted form carries: the percentages and selector
      captured at the click (no percentages when the element had zero size). */
  datatype Draft = Draft(anchor: Option<Anchor>, selector: string)

  /** Children of the shadow root that the script manages. */
  datatype Child =
    | Static(marker: Marker)               // `.static-marker`
    | TempMarker(at: Point)                // the `+` marker of the compose slot
    | ComposeForm(at: Point, draft: Draft) // the compose form

  datatype Overlay = Overlay(projectId: Id, children: seq<Child>, activeId: Option<Id>)

  function Statics(cs: seq<Child>): (r: seq<Marker>)
    ensures |r| <= |cs|
  {
    if |cs| == 0 then []
    else (if cs[0].Static? then [cs[0].marker] else []) + Statics(cs[1..])
  }

  function TempCount(cs: seq<Child>): nat {
    if |cs| == 0 then 0 else (if cs[0].TempMarker? then 1 else 0) + TempCount(cs[1..])
  }

  function FormCount(cs: seq<Child>): nat {
    if |cs| == 0 then 0 else (if cs[0].ComposeForm? then 1 else 0) + FormCount(cs[1..])
  }

  /** Every static marker's `active` class agrees with `activeCommentId`. */
  predicate ActiveConsistent(o: Overlay) {
    forall i :: 0 <= i < |o.children| && o.children[i].Static? ==>
      (o.children[i].marker.active <==> o.activeId == Some(o.children[i].marker.id))
  }

  /** The overlay's invariant: the compose slot holds either nothing or one
      `+` marker together with one form, and the highlight is consistent. */
  predicate Valid(o: Overlay) {
    TempCount(o.children) == FormCount(o.children) <= 1 && ActiveConsistent(o)
  }

  /** `querySelectorAll('.static-marker').forEach(m => m.remove())`. */
  function DropStatics(cs: seq<Child>): (r: seq<Child>)
    ensures Statics(r) == []
    ensures TempCount(r) == TempCount(cs) && FormCount(r) == FormCount(cs)
    ensures forall i :: 0 <= i < |r| ==> !r[i].Static?
  {
    if |cs| == 0 then []
    else if cs[0].Static? then DropStatics(cs[1..])
    else [cs[0]] + DropStatics(cs[1..])
  }

  /** `tempMarker.remove(); tempForm.remove()`. */
  function DropCompose(cs: seq<Child>): (r: seq<Child>)
    ensures Statics(r) == Statics(cs)
    ensures TempCount(r) == 0 && FormCount(r) == 0
    ensures forall i :: 0 <= i < |r| ==> r[i].Static?
    ensures forall i :: 0 <= i < |cs| && cs[i].Static? ==> cs[i] in r
  {
    if |cs| == 0 then []
    else if cs[0].Static? then [cs[0]] + DropCompose(cs[1..])
    else DropCompose(cs[1..])
  }

  function AsChildren(ms: seq<Marker>): (r: seq<Child>)
    ensures |r| == |ms|
    ensures forall i :: 0 <= i < |r| ==> r[i] == Static(ms[i])
  {
    seq(|ms|, i requires 0 <= i < |ms| => Static(ms[i]))
  }

  /** `setActive(id)`: the active id is replaced and every static marker is
      re-classed against it; nothing else in the shadow root changes. */
  function SetActive(o: Overlay, id: Option<Id>): (r: Overlay)
    ensures r.activeId == id && r.projectId == o.projectId
    ensures ActiveConsistent(r)
    ensures |r.children| == |o.children|
    ensures forall i :: 0 <= i < |o.children| ==>
              if o.children[i].Static? then
                r.children[i].Static? && r.children[i].marker.(active := false) == o.children[i].marker.(active := false)
              else r.children[i] == o.children[i]
  {
    var cs := o.children;
    Overlay(o.projectId,
            seq(|cs|, i requires 0 <= i < |cs| =>
              if cs[i].Static? then Static(cs[i].marker.(active := id == Some(cs[i].marker.id))) else cs[i]),
            id)
  }

  /** With distinct marker ids, `setActive` leaves at most one marker active. */
  lemma {:induction false} AtMostOneActive(o: Overlay, id: Option<Id>, i: int, j: int)
    requires var cs := SetActive(o, id).children;
             0 <= i < |cs| && 0 <= j < |cs| && cs[i].Static? && cs[j].Static?
             && cs[i].marker.active && cs[j].marker.active
    requires forall a, b :: 0 <= a < b < |o.children| && o.children[a].Static? && o.children[b].Static? ==>
               o.children[a].marker.id != o.children[b].marker.id
    ensures i == j
  {
    var cs := SetActive(o, id).children;
    assert cs[i].marker.id == o.children[i].marker.id;
    assert cs[j].marker.id == o.children[j].marker.id;
  }

  /** Outbound effects: the `POST /api/comments` of `saveComment`, the
      `loadComments` it awaits afterwards, the `postMessage`s to the host page
      and the `alert` of a failed save. */
  datatype Effect =
    | PostComment(projectId: Id, text: string, anchor: Option<Anchor>, selector: string)
    | NotifyMarkerClicked(projectId: Id, commentId: Id)
    | ReloadComments
    | NotifyCommentAdded(projectId: Id, addedId: Option<Id>)
    | AlertSaveFailed

  /** How the awaited `saveComment` ends: the POST was answered with a JSON
      body (holding an `id`, or not when the server answered an error), it
      was answered with a body `res.json()` cannot parse, or `fetch` itself
      failed. */
  datatype SaveOutcome = Answered(id: Option<Id>) | AnsweredNotJson | FetchFailed

  /** What can happen to the overlay. */
  datatype Event =
    | Loaded(comments: seq<StoredComment>, view: View)        // `loadComments` resolved
    | MarkerClicked(clickedId: Id)                            // a static marker's click handler
    | Message(kind: string, messageId: Option<Id>)            // a window message from the host page
    | PageClick(insideOverlay: bool, target: DomNode, click: Click, rect: Rect, scroll: Scroll,
                docWidth: real, docHeight: real)                // the click handler; the document's scroll size at the click
    | Submit(text: string)                                    // Send in the compose form
    | Saved(outcome: SaveOutcome)                             // an awaited `saveComment` returned
    | Cancel                                                  // Cancel in the compose form

  /** The anchor the click handler stores, as written: percentages of the
      clicked element's box, whatever selector the click gets. */
  function ClickAnchorAsWritten(click: Click, rect: Rect): Option<Anchor> {
    Capture(click, rect)
  }

  /** The anchor the click handler stores, corrected so that it measures
      what `renderComments` reads back: a click whose selector is `body` (a
      click on `<body>`, or on `<html>`, whose path falls back to `body`) is
      stored as percentages of the document's scroll size; any other click
      as percentages of the clicked element's box. */
  function ClickAnchor(selector: string, click: Click, rect: Rect, scroll: Scroll, docWidth: real, docHeight: real): Option<Anchor> {
    if selector == "body" then DocumentCapture(click, scroll, docWidth, docHeight)
    else Capture(click, rect)
  }

  /** The draft a page click opens. */
  function ClickDraft(target: DomNode, click: Click, rect: Rect, scroll: Scroll, docWidth: real, docHeight: real): Draft {
    var selector := SelectorFor(target);
    Draft(ClickAnchor(selector, click, rect, scroll, docWidth, docHeight), selector)
  }

  /** The draft a form is holding, if the slot is open. */
  function OpenDraft(cs: seq<Child>): Option<Draft> {
    if |cs| == 0 then None
    else if cs[0].ComposeForm? then Some(cs[0].draft)
    else OpenDraft(cs[1..])
  }

  /** `showAddForm`: the old slot is emptied, then a `+` marker at the click
      and the form 20px to its right are appended. */
  function ShowAddForm(o: Overlay, at: Point, draft: Draft): Overlay {
    o.(children := DropCompose(o.children) + [TempMarker(at), ComposeForm(Point(at.x + 20.0, at.y), draft)])
  }

  /** `closeForm`. */
  function CloseForm(o: Overlay): Overlay {
    o.(children := DropCompose(o.children))
  }

  /** `renderComments`: the old static markers go, the new ones are
      appended after everything else in the shadow root. */
  function Render(o: Overlay, comments: seq<StoredComment>, view: View): Overlay {
    o.(children := DropStatics(o.children) + AsChildren(RenderMarkers(comments, view, o.activeId)))
  }

  /** The effects of a finished `saveComment`: a reload and the
      `COMMENT_ADDED` message when the POST was answered, the alert when
      anything in it threw. */
  function SaveEffects(projectId: Id, outcome: SaveOutcome): seq<Effect> {
    match outcome
    case Answered(id) => [ReloadComments, NotifyCommentAdded(projectId, id)]
    case AnsweredNotJson => [ReloadComments, AlertSaveFailed]
    case FetchFailed => [AlertSaveFailed]
  }

  /** One event. Send only starts the save: the form stays open until the
      awaited `saveComment` returns, and the `closeForm` that follows it
      closes whatever slot is open by then. */
  function Step(o: Overlay, e: Event): (Overlay, seq<Effect>) {
    match e
    case Loaded(comments, view) =>
      (Render(o, comments, view), [])
    case MarkerClicked(id) =>
      (SetActive(o, Some(id)), [NotifyMarkerClicked(o.projectId, id)])
    case Message(kind, id) =>
      if kind == "HIGHLIGHT_COMMENT" then (SetActive(o, id), []) else (o, [])
    case PageClick(inside, target, click, rect, scroll, docWidth, docHeight) =>
      if inside then (o, [])
      else
        var draft := ClickDraft(target, click, rect, scroll, docWidth, docHeight);
        (ShowAddForm(o, Point(PageX(click, scroll), PageY(click, scroll)), draft), [])
    case Submit(text) =>
      var d := OpenDraft(o.children);
      if d.None? || text == "" then (o, [])
      else (o, [PostComment(o.projectId, text, d.value.anchor, d.value.selector)])
    case Saved(outcome) =>
      (CloseForm(o), SaveEffects(o.projectId, outcome))
    case Cancel =>
      (CloseForm(o), [])
  }

  lemma StaticsAppend(a: seq<Child>, b: seq<Child>)
    ensures Statics(a + b) == Statics(a) + Statics(b)
    ensures TempCount(a + b) == TempCount(a) + TempCount(b)
    ensures FormCount(a + b) == FormCount(a) + FormCount(b)
  {
    StaticsOfAppend(a, b);
    TempCountOfAppend(a, b);
    FormCountOfAppend(a, b);
  }

  lemma {:induction false} StaticsOfAppend(a: seq<Child>, b: seq<Child>)
    ensures Statics(a + b) == Statics(a) + Statics(b)
  {
    if |a| == 0 {
      assert a + b == b;
    } else {
      assert (a + b)[1..] == a[1..] + b;
      assert (a + b)[0] == a[0];
      StaticsOfAppend(a[1..], b);
      var head: seq<Marker> := if a[0].Static? then [a[0].marker] else [];
      AppendAssoc(head, Statics(a[1..]), Statics(b));
    }
  }

  lemma {:induction false} TempCountOfAppend(a: seq<Child>, b: seq<Child>)
    ensures TempCount(a + b) == TempCount(a) + TempCount(b)
  {
    if |a| == 0 {
      assert a + b == b;
    } else {
      assert (a + b)[1..] == a[1..] + b;
      TempCountOfAppend(a[1..], b);
    }
  }

  lemma {:induction false} FormCountOfAppend(a: seq<Child>, b: seq<Child>)
    ensures FormCount(a + b) == FormCount(a) + FormCount(b)
  {
    if |a| == 0 {
      assert a + b == b;
    } else {
      assert (a + b)[1..] == a[1..] + b;
      FormCountOfAppend(a[1..], b);
    }
  }

  lemma {:induction false} AsChildrenCounts(ms: seq<Marker>)
    ensures Statics(AsChildren(ms)) == ms
    ensures TempCount(AsChildren(ms)) == 0 && FormCount(AsChildren(ms)) == 0
  {
    if |ms| > 0 {
      assert AsChildren(ms)[1..] == AsChildren(ms[1..]);
      AsChildrenCounts(ms[1..]);
    }
  }

  lemma {:induction false} SetActiveKeepsCounts(cs: seq<Child>, id: Option<Id>, pid: Id, aid: Option<Id>)
    ensures var r := SetActive(Overlay(pid, cs, aid), id).children;
            TempCount(r) == TempCount(cs) && FormCount(r) == FormCount(cs)
  {
    var r := SetActive(Overlay(pid, cs, aid), id).children;
    if |cs| > 0 {
      SetActiveKeepsCounts(cs[1..], id, pid, aid);
      assert r[1..] == SetActive(Overlay(pid, cs[1..], aid), id).children;
    }
  }

  lemma {:induction false} OpenDraftMeansForm(cs: seq<Child>)
    ensures OpenDraft(cs).Some? <==> FormCount(cs) > 0
  {
    if |cs| > 0 {
      OpenDraftMeansForm(cs[1..]);
    }
  }

  /** Rendering replaces every static marker by the freshly drawn ones and
      leaves the compose slot alone. */
  lemma RenderReplacesStatics(o: Overlay, comments: seq<StoredComment>, view: View)
    ensures var r := Render(o, comments, view);
            Statics(r.children) == RenderMarkers(comments, view, o.activeId)
            && TempCount(r.children) == TempCount(o.children)
            && FormCount(r.children) == FormCount(o.children)
            && r.activeId == o.activeId
  {
    ReplaceStatics(o.children, RenderMarkers(comments, view, o.activeId));
  }

  lemma ReplaceStatics(cs: seq<Child>, ms: seq<Marker>)
    ensures var r := DropStatics(cs) + AsChildren(ms);
            Statics(r) == ms && TempCount(r) == TempCount(cs) && FormCount(r) == FormCount(cs)
  {
    StaticsAppend(DropStatics(cs), AsChildren(ms));
    AsChildrenCounts(ms);
  }

  /** Every event preserves the overlay's invariant: at most one compose slot,
      with its `+` marker and form together, and a consistent highlight. */
  lemma StepPreservesValid(o: Overlay, e: Event)
    requires Valid(o)
    ensures Valid(Step(o, e).0)
  {
    match e
    case Loaded(comments, view) =>
      RenderKeepsValid(o, comments, view);
    case MarkerClicked(id) =>
      SetActiveKeepsCounts(o.children, Some(id), o.projectId, o.activeId);
    case Message(kind, id) =>
      SetActiveKeepsCounts(o.children, id, o.projectId, o.activeId);
    case PageClick(inside, target, click, rect, scroll, docWidth, docHeight) =>
      if !inside {
        var draft := ClickDraft(target, click, rect, scroll, docWidth, docHeight);
        var at := Point(PageX(click, scroll), PageY(click, scroll));
        ShowAddFormOpensOneSlot(o, at, draft);
      }
    case Submit(text) =>
    case Saved(outcome) =>
      CloseFormEmptiesSlot(o);
    case Cancel =>
      CloseFormEmptiesSlot(o);
  }

  /** A render keeps the slot and draws every marker with the highlight of
      the current active id. */
  lemma RenderKeepsValid(o: Overlay, comments: seq<StoredComment>, view: View)
    requires Valid(o)
    ensures Valid(Render(o, comments, view))
  {
    var ms := RenderMarkers(comments, view, o.activeId);
    RenderReplacesStatics(o, comments, view);
    forall j | 0 <= j < |ms| ensures ms[j].active <==> o.activeId == Some(ms[j].id) {
      assert DrawnFrom(comments, ms[j].number - 1, view, o.activeId, ms[j]);
    }
    HighlightAfterAppend(DropStatics(o.children), ms, o.projectId, o.activeId);
  }

  lemma HighlightAfterAppend(cs: seq<Child>, ms: seq<Marker>, pid: Id, aid: Option<Id>)
    requires forall i :: 0 <= i < |cs| ==> !cs[i].Static?
    requires forall j :: 0 <= j < |ms| ==> (ms[j].active <==> aid == Some(ms[j].id))
    ensures ActiveConsistent(Overlay(pid, cs + AsChildren(ms), aid))
  {
    var r := cs + AsChildren(ms);
    forall i | 0 <= i < |r| && r[i].Static?
      ensures r[i].marker.active <==> aid == Some(r[i].marker.id)
    {
      assert r[i] == AsChildren(ms)[i - |cs|];
    }
  }

  /** `showAddForm` leaves exactly one `+` marker, at the click, and one form
      20px to its right, and keeps the static markers. */
  lemma ShowAddFormOpensOneSlot(o: Overlay, at: Point, draft: Draft)
    requires ActiveConsistent(o)
    ensures var r := ShowAddForm(o, at, draft);
            TempCount(r.children) == 1 && FormCount(r.children) == 1
            && Statics(r.children) == Statics(o.children)
            && OpenDraft(r.children) == Some(draft)
            && ActiveConsistent(r)
  {
    var d := DropCompose(o.children);
    var tail := [TempMarker(at), ComposeForm(Point(at.x + 20.0, at.y), draft)];
    StaticsAppend(d, tail);
    SlotCounts(tail);
    OpenDraftAfterStatics(d, tail);
    forall i | 0 <= i < |d| ensures d[i].Static? && d[i] in o.children {
      StaticsFromSource(o.children, d[i]);
    }
  }

  lemma {:induction false} StaticsFromSource(cs: seq<Child>, c: Child)
    requires c in DropCompose(cs)
    ensures c in cs
  {
    if |cs| > 0 && c != cs[0] {
      if cs[0].Static? {
        assert c in DropCompose(cs[1..]);
      }
      StaticsFromSource(cs[1..], c);
    }
  }

  lemma {:induction false} OpenDraftAfterStatics(d: seq<Child>, tail: seq<Child>)
    requires forall i :: 0 <= i < |d| ==> d[i].Static?
    ensures OpenDraft(d + tail) == OpenDraft(tail)
  {
    if |d| > 0 {
      assert (d + tail)[1..] == d[1..] + tail;
      assert (d + tail)[0] == d[0];
      OpenDraftAfterStatics(d[1..], tail);
    } else {
      assert d + tail == tail;
    }
  }

  lemma SlotCounts(tail: seq<Child>)
    requires |tail| == 2 && tail[0].TempMarker? && tail[1].ComposeForm?
    ensures TempCount(tail) == 1 && FormCount(tail) == 1 && Statics(tail) == []
    ensures OpenDraft(tail) == Some(tail[1].draft)
  {
    var last := tail[1..];
    assert last[1..] == [];
    assert TempCount(last) == 0 && FormCount(last) == 1 && Statics(last) == [];
  }

  /** `closeForm` empties the compose slot and keeps the static markers. */
  lemma CloseFormEmptiesSlot(o: Overlay)
    requires ActiveConsistent(o)
    ensures var r := CloseForm(o).children;
            TempCount(r) == 0 && FormCount(r) == 0 && Statics(r) == Statics(o.children)
            && ActiveConsistent(CloseForm(o))
  {
    var d := DropCompose(o.children);
    forall i | 0 <= i < |d| ensures d[i] in o.children {
      StaticsFromSource(o.children, d[i]);
    }
  }

  /** A `HIGHLIGHT_COMMENT` message from the page highlights the named
      comment's marker and nothing else; other message kinds are ignored. */
  lemma HighlightMessage(o: Overlay, kind: string, id: Option<Id>)
    ensures kind == "HIGHLIGHT_COMMENT" ==>
              var r := Step(o, Message(kind, id));
              r.1 == [] && r.0.activeId == id && ActiveConsistent(r.0)
              && TempCount(r.0.children) == TempCount(o.children) && FormCount(r.0.children) == FormCount(o.children)
    ensures kind != "HIGHLIGHT_COMMENT" ==> Step(o, Message(kind, id)) == (o, [])
  {
    SetActiveKeepsCounts(o.children, id, o.projectId, o.activeId);
  }

  /** A click that lands inside the overlay's own container opens nothing. */
  lemma ClickInsideOverlayIgnored(o: Overlay, target: DomNode, click: Click, rect: Rect, scroll: Scroll, docWidth: real, docHeight: real)
    ensures Step(o, PageClick(true, target, click, rect, scroll, docWidth, docHeight)) == (o, [])
  {
  }

  /** Sending an empty comment saves nothing and keeps the form open;
      cancelling saves nothing and closes it. */
  lemma EmptyOrCancelledSavesNothing(o: Overlay)
    requires Valid(o)
    ensures Step(o, Submit("")) == (o, [])
    ensures Step(o, Cancel).1 == [] && TempCount(Step(o, Cancel).0.children) == 0
            && FormCount(Step(o, Cancel).0.children) == 0
  {
    CloseFormEmptiesSlot(o);
  }

  /** Sending non-empty text posts exactly the captured draft once and
      leaves the overlay as it was: the slot stays open while the save is
      awaited. */
  lemma SubmitPostsDraft(o: Overlay, text: string)
    requires Valid(o) && FormCount(o.children) == 1 && text != ""
    ensures var (r, effects) := Step(o, Submit(text));
            var d := OpenDraft(o.children);
            d.Some? && effects == [PostComment(o.projectId, text, d.value.anchor, d.value.selector)]
            && r == o
  {
    OpenDraftMeansForm(o.children);
  }

  /** Nothing guards a second Send while the first save is pending: it posts
      the same comment again. */
  lemma SecondSendPostsAgain(o: Overlay, text: string)
    requires Valid(o) && FormCount(o.children) == 1 && text != ""
    ensures var (r1, e1) := Step(o, Submit(text));
            var (r2, e2) := Step(r1, Submit(text));
            e1 == e2 && |e1 + e2| == 2 && (e1 + e2)[0] == (e1 + e2)[1] && (e1 + e2)[0].PostComment?
  {
    SubmitPostsDraft(o, text);
  }

  /** When the save returns the slot is closed, whatever it holds, and the
      effects follow the outcome: a reload then `COMMENT_ADDED` with the id
      the server answered, a reload then the alert, or the alert alone. */
  lemma SavedClosesSlot(o: Overlay, outcome: SaveOutcome)
    requires Valid(o)
    ensures var (r, effects) := Step(o, Saved(outcome));
            TempCount(r.children) == 0 && FormCount(r.children) == 0
            && Statics(r.children) == Statics(o.children)
            && (outcome.Answered? ==> effects == [ReloadComments, NotifyCommentAdded(o.projectId, outcome.id)])
            && (outcome.AnsweredNotJson? ==> effects == [ReloadComments, AlertSaveFailed])
            && (outcome.FetchFailed? ==> effects == [AlertSaveFailed])
            && (AlertSaveFailed in effects <==> !outcome.Answered?)
            && (ReloadComments in effects <==> !outcome.FetchFailed?)
  {
    CloseFormEmptiesSlot(o);
  }

  /** A page click while a save is pending opens a new slot, and the
      `closeForm` that follows the pending save removes it: the second draft
      is lost without being posted. */
  lemma {:induction false} ClickDuringSaveIsLost(o: Overlay, text: string, target: DomNode, click: Click, rect: Rect, scroll: Scroll,
                                                 docWidth: real, docHeight: real, outcome: SaveOutcome)
    requires Valid(o) && FormCount(o.children) == 1 && text != ""
    ensures var (r1, _) := Step(o, Submit(text));
            var (r2, _) := Step(r1, PageClick(false, target, click, rect, scroll, docWidth, docHeight));
            var (r3, e3) := Step(r2, Saved(outcome));
            FormCount(r2.children) == 1 && OpenDraft(r2.children) == Some(ClickDraft(target, click, rect, scroll, docWidth, docHeight))
            && FormCount(r3.children) == 0
            && forall k :: 0 <= k < |e3| ==> !e3[k].PostComment?
  {
    SubmitPostsDraft(o, text);
    var draft := ClickDraft(target, click, rect, scroll, docWidth, docHeight);
    var at := Point(PageX(click, scroll), PageY(click, scroll));
    ShowAddFormOpensOneSlot(o, at, draft);
    var r2 := ShowAddForm(o, at, draft);
    assert Step(o, PageClick(false, target, click, rect, scroll, docWidth, docHeight)).0 == r2;
    StepPreservesValid(o, PageClick(false, target, click, rect, scroll, docWidth, docHeight));
    CloseFormEmptiesSlot(r2);
  }

  /** A click outside the overlay opens the slot at the click's page
      coordinates, holding the click's selector and the corrected anchor;
      with the same box (or, for `body`, the same document size) and scroll
      that anchor reprojects onto the `+` marker. */
  lemma PageClickOpensSlotAtClick(o: Overlay, target: DomNode, click: Click, rect: Rect, scroll: Scroll, docWidth: real, docHeight: real)
    requires Valid(o)
    ensures var r := Step(o, PageClick(false, target, click, rect, scroll, docWidth, docHeight)).0;
            var d := OpenDraft(r.children);
            var selector := SelectorFor(target);
            var at := Point(PageX(click, scroll), PageY(click, scroll));
            TempCount(r.children) == 1 && FormCount(r.children) == 1
            && d == Some(Draft(ClickAnchor(selector, click, rect, scroll, docWidth, docHeight), selector))
            && (selector != "body" && rect.width != 0.0 && rect.height != 0.0 ==>
                  d.value.anchor.Some? && Reproject(GetOffset(rect, scroll), d.value.anchor.value) == at)
            && (selector == "body" && docWidth != 0.0 && docHeight != 0.0 ==>
                  d.value.anchor.Some? && Fallback(d.value.anchor.value, docWidth, docHeight) == at)
  {
    var draft := ClickDraft(target, click, rect, scroll, docWidth, docHeight);
    ShowAddFormOpensOneSlot(o, Point(PageX(click, scroll), PageY(click, scroll)), draft);
    if rect.width != 0.0 && rect.height != 0.0 {
      RoundTrip(click, rect, scroll);
    }
    if docWidth != 0.0 && docHeight != 0.0 {
      DocumentRoundTrip(click, scroll, docWidth, docHeight);
    }
  }

  /** From click to marker: a page click, Send, the server storing the posted
      anchor and selector, and the reload drawing that comment put its marker
      back on the clicked point, as long as the page has not moved: the
      selector still finds the same box, or for `body` the document keeps
      its scroll size. */
  lemma MarkerReturnsToClick(o: Overlay, target: DomNode, click: Click, rect: Rect, scroll: Scroll, docWidth: real, docHeight: real,
                             text: string, id: Id, view: View, activeId: Option<Id>)
    requires Valid(o) && text != ""
    requires SelectorFor(target) != "body" ==>
               rect.width != 0.0 && rect.height != 0.0 && view.locate(SelectorFor(target)) == Found(GetOffset(rect, scroll))
    requires SelectorFor(target) == "body" ==>
               docWidth != 0.0 && docHeight != 0.0 && view.scrollWidth == docWidth && view.scrollHeight == docHeight
    ensures var (o1, _) := Step(o, PageClick(false, target, click, rect, scroll, docWidth, docHeight));
            var (_, e) := Step(o1, Submit(text));
            |e| == 1 && e[0].PostComment? && e[0].selector == SelectorFor(target) && e[0].anchor.Some?
            && var c := StoredComment(id, text, e[0].anchor.value.x, e[0].anchor.value.y, e[0].selector);
               var at := Point(PageX(click, scroll), PageY(click, scroll));
               Placement(c, view) == At(at)
               && RenderMarkers([c], view, activeId) == [Marker(id, 1, text, at, activeId == Some(id))]
  {
    var draft := ClickDraft(target, click, rect, scroll, docWidth, docHeight);
    var at := Point(PageX(click, scroll), PageY(click, scroll));
    ShowAddFormOpensOneSlot(o, at, draft);
    if SelectorFor(target) == "body" {
      DocumentRoundTrip(click, scroll, docWidth, docHeight);
    } else {
      RoundTrip(click, rect, scroll);
    }
    var o1 := ShowAddForm(o, at, draft);
    var a := draft.anchor.value;
    var c := StoredComment(id, text, a.x, a.y, draft.selector);
    assert Placement(c, view) == At(at);
    assert [c][..0] == [];
  }

  /** The click handler as written, on a `<body>` click: the anchor is taken
      against the body's box (8, 8, 784, 400), but `renderComments` reads a
      `body` anchor against the document's 800 by 2000 scroll size, so the
      marker of a click at (400, 208) is drawn at (400, 1000). The corrected
      anchor draws it at the click. */
  lemma BodyClickMisplaced(view: View)
    requires view.scrollWidth == 800.0 && view.scrollHeight == 2000.0
    ensures var body := Element("body", "", ["head"], DocumentElement);
            var click := Click(400.0, 208.0);
            var rect := Rect(8.0, 8.0, 784.0, 400.0);
            var scroll := Scroll(0.0, 0.0);
            var written := ClickAnchorAsWritten(click, rect);
            var corrected := ClickAnchor(SelectorFor(body), click, rect, scroll, 800.0, 2000.0);
            SelectorFor(body) == "body" && SelectorFor(DocumentElement) == "body"
            && written == Some(Anchor(50.0, 50.0))
            && Placement(StoredComment("c", "", 50.0, 50.0, "body"), view) == At(Point(400.0, 1000.0))
            && Point(PageX(click, scroll), PageY(click, scroll)) == Point(400.0, 208.0)
            && corrected.Some?
            && Placement(StoredComment("c", "", corrected.value.x, corrected.value.y, "body"), view) == At(Point(400.0, 208.0))
  {
    DocumentRoundTrip(Click(400.0, 208.0), Scroll(0.0, 0.0), 800.0, 2000.0);
  }
}

=== FILE: profile.dfy ===
/** The profile form of client/src/Profile.jsx: the password confirmation,
    the update it sends, and the state after the answer. */
module Profile {
  import opened Base
  import opened Store

  datatype Form = Form(name: string, email: string, password: string, confirmPassword: string)

  /** The status line under the form. */
  datatype Status = Status(kind: string, message: string)

  /** The update object: name and e-mail always, the password only when one
      was typed. */
  datatype ProfileUpdate = ProfileUpdate(name: string, email: string, password: Option<string>)

  /** The first half of `handleSubmit`: a typed password that differs from
      its confirmation stops with an error; otherwise the update to send. */
  function PrepareUpdate(f: Form): (r: Result<ProfileUpdate, Status>)
    ensures r.Failure? <==> f.password != "" && f.password != f.confirmPassword
    ensures r.Failure? ==> r.error == Status("error", "Passwords do not match")
    ensures r.Success? ==> r.value.name == f.name && r.value.email == f.email
    ensures r.Success? ==> (r.value.password.Some? <==> f.password != "")
    ensures r.Success? && r.value.password.Some? ==> r.value.password.value == f.password == f.confirmPassword
  {
    if f.password != "" && f.password != f.confirmPassword then Failure(Status("error", "Passwords do not match"))
    else Success(ProfileUpdate(f.name, f.email, if f.password != "" then Some(f.password) else None))
  }

  /** Leaving the password empty never trips the confirmation check. */
  lemma EmptyPasswordNeverMismatches(f: Form)
    requires f.password == ""
    ensures PrepareUpdate(f) == Success(ProfileUpdate(f.name, f.email, None))
  {
  }

  /** What `updateProfile` resolves to. */
  datatype UpdateResult = UpdateResult(success: bool, error: Option<string>)

  /** The second half: on success both password fields are cleared; on
      failure the form is kept and the error shown is the server's or a
      default. */
  function AfterUpdate(f: Form, result: UpdateResult): (r: (Form, Status))
    ensures result.success ==>
              r == (f.(password := "", confirmPassword := ""), Status("success", "Profile updated successfully!"))
    ensures !result.success ==> r.0 == f && r.1.kind == "error"
    ensures !result.success && Given(result.error) ==> r.1.message == result.error.value
    ensures !result.success && !Given(result.error) ==> r.1.message == "Failed to update profile"
  {
    if result.success then (f.(password := "", confirmPassword := ""), Status("success", "Profile updated successfully!"))
    else (f, Status("error", if Given(result.error) then result.error.value else "Failed to update profile"))
  }

  /** The update as the store's `updateUser` would receive it. */
  function AsUserUpdate(u: ProfileUpdate): UserUpdate {
    UserUpdate(Some(u.name), Some(u.email), u.password)
  }

  /** Sent to the store, the form is saved exactly when some field is
      filled in; then it changes the stored password exactly when one was
      typed, and a field cleared in the form keeps its stored value. */
  lemma FormUpdateInStore(st: Store, userId: Id, f: Form, hash: string -> string)
    requires PrepareUpdate(f).Success?
    requires exists i :: 0 <= i < |st.users| && st.users[i].id == userId
    ensures var r := UpdateUser(st, userId, AsUserUpdate(PrepareUpdate(f).value), hash);
            var before := st.users[FindUser(st.users, userId).value];
            (r.Success? <==> f.name != "" || f.email != "" || f.password != "")
            && (r.Success? ==>
                  (f.password != "" ==> r.value.1.passwordHash == hash(f.password))
                  && (f.password == "" ==> r.value.1.passwordHash == before.passwordHash)
                  && (f.name == "" ==> r.value.1.name == before.name)
                  && (f.email == "" ==> r.value.1.email == before.email))
            && (r.Failure? ==> r.error == NoRows)
  {
  }

  /** After a successful save the password fields are empty, so sending the
      form again changes name and e-mail only; after a failure the form is
      kept and sending it again sends the same update. */
  lemma ResubmitAfterUpdate(f: Form, result: UpdateResult)
    ensures result.success ==> PrepareUpdate(AfterUpdate(f, result).0) == Success(ProfileUpdate(f.name, f.email, None))
    ensures !result.success ==> PrepareUpdate(AfterUpdate(f, result).0) == PrepareUpdate(f)
  {
  }
}

=== FILE: proxy.dfy ===
/** The `/proxy` handler of server/proxy.js: validate the `url` query
    parameter, refuse internal host names, fetch the page, copy a safelist of
    response headers and, for HTML, rewrite the parsed document (a `<base>`
    tag, the overlay configuration and loader scripts, no `integrity`
    attributes on scripts).

    The WHATWG URL parser, the HTTP fetch and the HTML parser are outside the
    model: the first two are function parameters, and the upstream response
    carries the document the parser yields for its text. */
module Proxy {
  import opened Base
  import JsString

  /** A node of a parsed HTML document. Tag and attribute names are lower case,
      as the HTML parser reports them. */
  datatype Node =
    | Element(tag: string, attrs: map<string, string>, children: seq<Node>)
    | Text(content: string)

  /** The HTML parser always produces a head and a body, whatever the markup. */
  datatype Document = Document(head: seq<Node>, body: seq<Node>)

  /** What the fetch returns: header names are lower case; `doc` is the parse of `data`. */
  datatype Upstream = Upstream(headers: map<string, string>, data: string, doc: Document)

  datatype FetchOutcome = Fetched(response: Upstream) | FetchError(message: string)

  /** The incoming request: the two query parameters and the request headers
      (lower-case names). An absent query parameter is `None`. */
  datatype ProxyRequest = ProxyRequest(url: Option<string>, projectId: Option<string>, headers: map<string, string>)

  datatype Body =
    | ErrorJson(error: string)   // res.status(..).json({ error })
    | PlainText(text: string)    // res.send(string) of an error text
    | RawData(data: string)      // a non-HTML upstream body, forwarded as is
    | Html(doc: Document)        // the rewritten document, serialised by $.html()

  datatype ProxyResponse = ProxyResponse(status: int, headers: map<string, string>, body: Body)

  // ---------------------------------------------------------------------------
  // SSRF guard
  // ---------------------------------------------------------------------------

  predicate IsDigit(c: char) { '0' <= c <= '9' }

  /** The `172\.(1[6-9]|2[0-9]|3[0-1])` part of the pattern: two characters
      spelling 16 to 31. */
  predicate PrivateSecondOctet(a: char, b: char) {
    (a == '1' && '6' <= b <= '9') || (a == '2' && IsDigit(b)) || (a == '3' && '0' <= b <= '1')
  }

  /** The internal-address pattern
      `^(localhost|127\.|10\.|192\.168\.|172\.(1[6-9]|2[0-9]|3[0-1])\.|169\.254\.)`,
      alternative by alternative. It is anchored only at the start. */
  predicate MatchesInternalPattern(host: string) {
    || StartsWith(host, "localhost")
    || StartsWith(host, "127.")
    || StartsWith(host, "10.")
    || StartsWith(host, "192.168.")
    || (|host| >= 7 && host[..4] == "172." && PrivateSecondOctet(host[4], host[5]) && host[6] == '.')
    || StartsWith(host, "169.254.")
  }

  /** The same blocklist as a list of 21 literal prefixes: `localhost`,
      `127.`, `10.`, `192.168.`, `172.16.` to `172.31.`, `169.254.`. */
  const BlockedPrefixes: seq<string> :=
    ["localhost", "127.", "10.", "192.168."] + Prefixes172(16) + ["169.254."]

  /** `172.16.`, `172.17.`, ... up to `n` of them. */
  function Prefixes172(n: nat): (r: seq<string>)
    requires n <= 16
    ensures |r| == n && forall k :: 0 <= k < n ==> r[k] == "172." + Octet172(k) + "."
  {
    if n == 0 then [] else Prefixes172(n - 1) + ["172." + Octet172(n - 1) + "."]
  }

  /** The two digits of 16 + k. */
  function Octet172(k: nat): (r: string)
    requires k < 16
    ensures |r| == 2 && PrivateSecondOctet(r[0], r[1])
  {
    [DigitChar((16 + k) / 10), DigitChar((16 + k) % 10)]
  }

  ghost predicate HasBlockedPrefix(host: string) {
    exists i :: 0 <= i < |BlockedPrefixes| && StartsWith(host, BlockedPrefixes[i])
  }

  lemma BlockedPrefixesShape()
    ensures |BlockedPrefixes| == 21
    ensures BlockedPrefixes[0] == "localhost" && BlockedPrefixes[1] == "127." && BlockedPrefixes[2] == "10."
    ensures BlockedPrefixes[3] == "192.168." && BlockedPrefixes[20] == "169.254."
    ensures forall k :: 0 <= k < 16 ==> BlockedPrefixes[4 + k] == "172." + Octet172(k) + "."
  {
    var a: seq<string> := ["localhost", "127.", "10.", "192.168."];
    assert BlockedPrefixes == a + Prefixes172(16) + ["169.254."];
  }

  lemma Prefix172(host: string, k: nat)
    requires k < 16 && |host| >= 7
    ensures StartsWith(host, BlockedPrefixes[4 + k]) <==> host[..4] == "172." && host[4..6] == Octet172(k) && host[6] == '.'
  {
    BlockedPrefixesShape();
    var p := "172." + Octet172(k) + ".";
    assert |p| == 7 && p[..4] == "172." && p[4..6] == Octet172(k) && p[6] == '.';
    if host[..7] == p {
      assert host[..4] == host[..7][..4];
      assert host[4..6] == host[..7][4..6];
    }
    assert host[..7] == host[..4] + host[4..6] + [host[6]];
  }

  /** The regular expression blocks exactly the hosts that start with one of
      the literal prefixes. */
  lemma PatternIsPrefixList(host: string)
    ensures MatchesInternalPattern(host) <==> HasBlockedPrefix(host)
  {
    if MatchesInternalPattern(host) {
      PatternGivesPrefix(host);
    }
    if HasBlockedPrefix(host) {
      var i :| 0 <= i < |BlockedPrefixes| && StartsWith(host, BlockedPrefixes[i]);
      PrefixGivesPattern(host, i);
    }
  }

  lemma PatternGivesPrefix(host: string)
    requires MatchesInternalPattern(host)
    ensures HasBlockedPrefix(host)
  {
    BlockedPrefixesShape();
    if StartsWith(host, "localhost") {
      assert StartsWith(host, BlockedPrefixes[0]);
    } else if StartsWith(host, "127.") {
      assert StartsWith(host, BlockedPrefixes[1]);
    } else if StartsWith(host, "10.") {
      assert StartsWith(host, BlockedPrefixes[2]);
    } else if StartsWith(host, "192.168.") {
      assert StartsWith(host, BlockedPrefixes[3]);
    } else if StartsWith(host, "169.254.") {
      assert StartsWith(host, BlockedPrefixes[20]);
    } else {
      Private172GivesPrefix(host);
    }
  }

  lemma Private172GivesPrefix(host: string)
    requires |host| >= 7 && host[..4] == "172." && PrivateSecondOctet(host[4], host[5]) && host[6] == '.'
    ensures HasBlockedPrefix(host)
  {
    var k: nat := (host[4] as int - '0' as int) * 10 + (host[5] as int - '0' as int) - 16;
    assert k < 16;
    assert Octet172(k) == [host[4], host[5]] == host[4..6];
    Prefix172(host, k);
    assert StartsWith(host, BlockedPrefixes[4 + k]);
  }

  lemma PrefixGivesPattern(host: string, i: nat)
    requires i < |BlockedPrefixes| && StartsWith(host, BlockedPrefixes[i])
    ensures MatchesInternalPattern(host)
  {
    BlockedPrefixesShape();
    if 4 <= i < 20 {
      assert |host| >= 7;
      Prefix172(host, i - 4);
      var o := Octet172(i - 4);
      assert host[4] == host[4..6][0] == o[0];
      assert host[5] == host[4..6][1] == o[1];
      assert PrivateSecondOctet(host[4], host[5]);
    } else if i == 0 {
      assert StartsWith(host, "localhost");
    } else if i == 1 {
      assert StartsWith(host, "127.");
    } else if i == 2 {
      assert StartsWith(host, "10.");
    } else if i == 3 {
      assert StartsWith(host, "192.168.");
    } else {
      assert StartsWith(host, "169.254.");
    }
  }

  /** `p` is not a prefix of `s` because they differ at position `i`. */
  lemma DiffersAt(s: string, p: string, i: nat)
    requires i < |p| && (i >= |s| || s[i] != p[i])
    ensures !StartsWith(s, p)
  {
    if |p| <= |s| {
      assert s[..|p|][i] == s[i];
    }
  }

  /** Because the match is on a prefix only, `172.32.0.1` is let through ... */
  lemma OutsidePrivateRangePasses()
    ensures !MatchesInternalPattern("172.32.0.1")
  {
    var h := "172.32.0.1";
    DiffersAt(h, "localhost", 0);
    DiffersAt(h, "127.", 1);
    DiffersAt(h, "10.", 1);
    DiffersAt(h, "192.168.", 1);
    DiffersAt(h, "169.254.", 1);
    assert !PrivateSecondOctet(h[4], h[5]);
  }

  /** ... while a DNS name that merely starts like a private address is blocked. */
  lemma PrivateLookingNameIsBlocked()
    ensures MatchesInternalPattern("10.example.com")
    ensures MatchesInternalPattern("localhost.example.com")
  {
    assert "10.example.com"[..3] == "10.";
    assert "localhost.example.com"[..9] == "localhost";
  }

  /** Loopback and private-network addresses are blocked. */
  lemma LoopbackAndPrivateBlocked()
    ensures MatchesInternalPattern("127.0.0.1")
    ensures MatchesInternalPattern("192.168.1.5")
    ensures MatchesInternalPattern("172.31.255.1")
  {
    assert "127.0.0.1"[..4] == "127.";
    assert "192.168.1.5"[..8] == "192.168.";
    assert "172.31.255.1"[..4] == "172.";
  }

  /** The three answers of the guard. */
  const MissingUrl: ProxyResponse := ProxyResponse(400, map[], ErrorJson("Missing url parameter"))
  const InvalidUrl: ProxyResponse := ProxyResponse(400, map[], ErrorJson("Invalid URL"))
  const InternalForbidden: ProxyResponse := ProxyResponse(403, map[], ErrorJson("Forbidden: Internal addresses are not allowed"))

  /** The checks made before any fetch. `Success(url)` clears `url` for
      fetching; `Failure(r)` is the response sent instead. `parseHost` stands
      for `new URL(url).hostname`, `None` when the constructor throws. */
  function Guard(url: Option<string>, parseHost: string -> Option<string>): (r: Result<string, ProxyResponse>)
    ensures r.Success? ==> url == Some(r.value) && r.value != ""
    ensures (url.None? || url == Some("")) ==> r == Failure(MissingUrl)
    ensures url.Some? && url.value != "" && parseHost(url.value).None? ==>
              r == Failure(InvalidUrl)
    ensures r.Failure? ==> r.error.status in {400, 403} && r.error.headers == map[]
    ensures r.Failure? && r.error.status == 403 <==>
      url.Some? && url.value != "" && parseHost(url.value).Some? && HasBlockedPrefix(parseHost(url.value).value)
  {
    if url.None? || url.value == "" then
      Failure(MissingUrl)
    else
      match parseHost(url.value)
      case None => Failure(InvalidUrl)
      case Some(host) =>
        PatternIsPrefixList(host);
        if MatchesInternalPattern(host) then
          Failure(InternalForbidden)
        else Success(url.value)
  }

  // ---------------------------------------------------------------------------
  // Response headers
  // ---------------------------------------------------------------------------

  const SafeHeaders: seq<string> := ["content-type", "cache-control", "last-modified", "etag"]

  const AllowOrigin: string := "access-control-allow-origin"

  /** `response.headers[h]` is truthy: present and not the empty string. */
  predicate Truthy(headers: map<string, string>, h: string) {
    h in headers && headers[h] != ""
  }

  /** `headers[h] || fallback` */
  function HeaderOr(headers: map<string, string>, h: string, fallback: string): string {
    if Truthy(headers, h) then headers[h] else fallback
  }

  /** The header loop over `headersToCopy` followed by the framing changes. */
  function ResponseHeaders(upstream: map<string, string>): (r: map<string, string>)
    ensures forall h :: h in r ==> h in SafeHeaders || h == AllowOrigin
    ensures forall i :: 0 <= i < |SafeHeaders| ==>
      (SafeHeaders[i] in r <==> Truthy(upstream, SafeHeaders[i])) &&
      (SafeHeaders[i] in r ==> r[SafeHeaders[i]] == upstream[SafeHeaders[i]])
    ensures AllowOrigin in r && r[AllowOrigin] == "*"
    ensures "x-frame-options" !in r && "content-security-policy" !in r
  {
    var copied := map h | h in SafeHeaders && Truthy(upstream, h) :: upstream[h];
    copied[AllowOrigin := "*"]
  }

  // ---------------------------------------------------------------------------
  // The HTML rewrite
  // ---------------------------------------------------------------------------

  /** Some element in `nodes` (at any depth) has tag `tag`: `$(tag).length > 0`. */
  predicate HasTag(nodes: seq<Node>, tag: string)
    decreases nodes
  {
    if |nodes| == 0 then false
    else
      (match nodes[0]
       case Element(t, _, ch) => t == tag || HasTag(ch, tag)
       case Text(_) => false)
      || HasTag(nodes[1..], tag)
  }

  predicate DocHasBase(doc: Document) {
    HasTag(doc.head, "base") || HasTag(doc.body, "base")
  }

  /** No `<script>` element in `nodes`, at any depth, has an `integrity` attribute. */
  predicate NoScriptIntegrity(nodes: seq<Node>)
    decreases nodes
  {
    if |nodes| == 0 then true
    else
      (match nodes[0]
       case Element(t, a, ch) => (t == "script" ==> "integrity" !in a) && NoScriptIntegrity(ch)
       case Text(_) => true)
      && NoScriptIntegrity(nodes[1..])
  }

  /** `$('script').removeAttr('integrity')` over a node list. */
  function StripIntegrity(nodes: seq<Node>): (r: seq<Node>)
    ensures |r| == |nodes|
    decreases nodes
  {
    if |nodes| == 0 then []
    else
      var first := match nodes[0]
        case Element(t, a, ch) =>
          Element(t, if t == "script" then a - {"integrity"} else a, StripIntegrity(ch))
        case Text(s) => Text(s);
      [first] + StripIntegrity(nodes[1..])
  }

  /** The rewrite removes every script `integrity` attribute. */
  lemma {:induction false} StripIntegrityRemovesAll(nodes: seq<Node>)
    ensures NoScriptIntegrity(StripIntegrity(nodes))
    decreases nodes
  {
    if |nodes| > 0 {
      var r := StripIntegrity(nodes);
      assert r[1..] == StripIntegrity(nodes[1..]);
      StripIntegrityRemovesAll(nodes[1..]);
      match nodes[0]
      case Element(t, a, ch) => StripIntegrityRemovesAll(ch);
      case Text(_) =>
    }
  }

  /** Stripping changes nothing exactly when there is nothing to strip: the
      rewrite touches no other attribute and no other element. */
  lemma {:induction false} StripIntegrityFixedPoint(nodes: seq<Node>)
    ensures StripIntegrity(nodes) == nodes <==> NoScriptIntegrity(nodes)
    decreases nodes
  {
    if |nodes| > 0 {
      var r := StripIntegrity(nodes);
      assert r == [r[0]] + StripIntegrity(nodes[1..]);
      assert nodes == [nodes[0]] + nodes[1..];
      StripIntegrityFixedPoint(nodes[1..]);
      match nodes[0]
      case Element(t, a, ch) =>
        StripIntegrityFixedPoint(ch);
        if t == "script" && "integrity" in a {
          assert "integrity" !in r[0].attrs;
          assert r[0] != nodes[0];
        } else if t == "script" {
          assert a - {"integrity"} == a;
        }
      case Text(_) =>
    }
  }

  /** Stripping attributes neither adds nor removes elements. */
  lemma {:induction false} StripIntegrityKeepsTags(nodes: seq<Node>, tag: string)
    ensures HasTag(StripIntegrity(nodes), tag) == HasTag(nodes, tag)
    decreases nodes
  {
    if |nodes| > 0 {
      var r := StripIntegrity(nodes);
      assert r[1..] == StripIntegrity(nodes[1..]);
      StripIntegrityKeepsTags(nodes[1..], tag);
      match nodes[0]
      case Element(t, a, ch) => StripIntegrityKeepsTags(ch, tag);
      case Text(_) =>
    }
  }

  lemma {:induction false} NoScriptIntegrityAppend(a: seq<Node>, b: seq<Node>)
    ensures NoScriptIntegrity(a + b) == (NoScriptIntegrity(a) && NoScriptIntegrity(b))
    decreases a
  {
    if |a| > 0 {
      assert (a + b)[0] == a[0];
      assert (a + b)[1..] == a[1..] + b;
      NoScriptIntegrityAppend(a[1..], b);
    } else {
      assert a + b == b;
    }
  }

  lemma {:induction false} StripIntegrityAppend(a: seq<Node>, b: seq<Node>)
    ensures StripIntegrity(a + b) == StripIntegrity(a) + StripIntegrity(b)
    decreases a
  {
    if |a| > 0 {
      assert (a + b)[0] == a[0];
      assert (a + b)[1..] == a[1..] + b;
      StripIntegrityAppend(a[1..], b);
    } else {
      assert a + b == b;
    }
  }

  /** `<base href="${url}">` */
  function BaseTag(url: string): Node {
    Element("base", map["href" := url], [])
  }

  // The fixed pieces of the appended template, indentation included: the
  // text before the project id's literal, between the two literals, and
  // after the server URL's literal.
  const ConfigOpen: string := "\n" + Spaces(16) + "window.PASTEL_CONFIG = {\n" + Spaces(20) + "projectId: \""
  const ConfigMiddle: string := ",\n" + Spaces(20) + "serverUrl: \""
  const ConfigClose: string := "\n" + Spaces(16) + "};\n" + Spaces(12)

  /** The whitespace text nodes the template leaves before and between the
      two scripts, and after the second. */
  const Indent: string := "\n" + Spaces(12)
  const Outdent: string := "\n" + Spaces(8)

  function Spaces(n: nat): (r: string)
    ensures |r| == n && forall i :: 0 <= i < n ==> r[i] == ' '
  {
    seq(n, _ => ' ')
  }

  /** The configuration script's text around two literal bodies. */
  function ConfigScript(projectIdBody: string, serverUrlBody: string): string {
    ConfigOpen + (projectIdBody + ("\"" + (ConfigMiddle + (serverUrlBody + ("\"" + ConfigClose)))))
  }

  /** The configuration script as the template writes it: both values pasted
      between the quotes as they are. */
  function ConfigScriptAsWritten(projectId: string, serverUrl: string): string {
    ConfigScript(projectId, serverUrl)
  }

  /** The configuration script with each value written as a string literal
      whose value is exactly that value. */
  function ConfigScriptText(projectId: string, serverUrl: string): string {
    ConfigScript(JsString.Escape(projectId), JsString.Escape(serverUrl))
  }

  /** What the overlay finds in `window.PASTEL_CONFIG` after the script ran:
      the two string values, when the text is the configuration assignment
      with two well-formed literals; `None` when it is anything else. */
  function ConfigValues(t: string): Option<(string, string)> {
    if !StartsWith(t, ConfigOpen) then None
    else
      match JsString.ReadLiteral(t[|ConfigOpen|..])
      case None => None
      case Some((projectId, rest)) =>
        if !StartsWith(rest, ConfigMiddle) then None
        else
          match JsString.ReadLiteral(rest[|ConfigMiddle|..])
          case None => None
          case Some((serverUrl, tail)) => if tail == ConfigClose then Some((projectId, serverUrl)) else None
  }

  lemma SplitAt(a: string, b: string)
    ensures StartsWith(a + b, a) && (a + b)[|a|..] == b
  {
    assert (a + b)[..|a|] == a;
  }

  /** Whatever the project id and server URL, the written configuration
      hands the overlay exactly those two values. */
  lemma ConfigReadsBack(projectId: string, serverUrl: string)
    ensures ConfigValues(ConfigScriptText(projectId, serverUrl)) == Some((projectId, serverUrl))
  {
    ReadsBackAround(ConfigOpen, ConfigMiddle, ConfigClose, projectId, serverUrl);
  }

  /** The reading steps of `ConfigValues` over escaped values, whatever
      the fixed text around them. */
  lemma ReadsBackAround(open: string, middle: string, close: string, pv: string, uv: string)
    ensures var u := JsString.Escape(uv) + ("\"" + close);
            var y := middle + u;
            var x := JsString.Escape(pv) + ("\"" + y);
            StartsWith(open + x, open) && (open + x)[|open|..] == x
            && JsString.ReadLiteral(x) == Some((pv, y))
            && StartsWith(y, middle) && y[|middle|..] == u
            && JsString.ReadLiteral(u) == Some((uv, close))
  {
    var u := JsString.Escape(uv) + ("\"" + close);
    var y := middle + u;
    SplitAt(open, JsString.Escape(pv) + ("\"" + y));
    ReadEscaped(pv, y);
    SplitAt(middle, u);
    ReadEscaped(uv, close);
  }

  /** An escaped value, its closing quote and any text after it: reading
      stops at the quote with the value. */
  lemma ReadEscaped(v: string, after: string)
    ensures JsString.ReadLiteral(JsString.Escape(v) + ("\"" + after)) == Some((v, after))
  {
    AppendAssoc(JsString.Escape(v), "\"", after);
    JsString.EscapeRoundTrip(v, after);
  }

  /** The written configuration holds no `<`, so no `</script>` inside it can
      end the element early, whatever the values. */
  lemma ConfigHasNoTagOpen(projectId: string, serverUrl: string)
    ensures '<' !in ConfigScriptText(projectId, serverUrl)
  {
    var p, u := JsString.Escape(projectId), JsString.Escape(serverUrl);
    assert '<' !in p && '<' !in u;
    NoTagOpenInTemplate();
    var z := "\"" + ConfigClose;
    assert '<' !in z;
    assert '<' !in u + z;
    assert '<' !in ConfigMiddle + (u + z);
    assert '<' !in p + ("\"" + (ConfigMiddle + (u + z)));
  }

  lemma NoTagOpenInTemplate()
    ensures '<' !in ConfigOpen && '<' !in ConfigMiddle && '<' !in ConfigClose
  {
    assert '<' !in Spaces(12) && '<' !in Spaces(16) && '<' !in Spaces(20);
    assert '<' !in "window.PASTEL_CONFIG = {\n" && '<' !in "projectId: \"";
    assert '<' !in "serverUrl: \"" && '<' !in "};\n";
  }

  /** A project id (or host) made only of characters that need no escaping
      is written exactly as the template writes it. */
  lemma PlainValuesWrittenAsTemplate(projectId: string, serverUrl: string)
    requires forall i :: 0 <= i < |projectId| ==> !JsString.NeedsEscape(projectId[i])
    requires forall i :: 0 <= i < |serverUrl| ==> !JsString.NeedsEscape(serverUrl[i])
    ensures ConfigScriptText(projectId, serverUrl) == ConfigScriptAsWritten(projectId, serverUrl)
  {
    JsString.PlainValueUnchanged(projectId);
    JsString.PlainValueUnchanged(serverUrl);
  }

  /** A `projectId` query parameter that closes the quote. */
  const QuoteBreakingId: string := "\";alert(1);//"

  /** As written, that project id ends the literal early: the script is no
      longer the configuration assignment (the rest of the id runs as code),
      while the escaped form hands the overlay the id unchanged. */
  lemma ProjectIdBreaksOutOfLiteral(serverUrl: string)
    ensures ConfigValues(ConfigScriptAsWritten(QuoteBreakingId, serverUrl)) == None
    ensures ConfigValues(ConfigScriptText(QuoteBreakingId, serverUrl)) == Some((QuoteBreakingId, serverUrl))
  {
    var y := ConfigMiddle + (serverUrl + ("\"" + ConfigClose));
    var x := QuoteBreakingId + ("\"" + y);
    SplitAt(ConfigOpen, x);
    assert x[0] == '"';
    var rest := x[1..];
    assert JsString.ReadLiteral(x) == Some(("", rest));
    assert rest[0] == ';' && ConfigMiddle[0] == ',';
    ConfigReadsBack(QuoteBreakingId, serverUrl);
  }

  /** A project id holding `</script>` puts a `<` into the script text as
      written; the escaped form never holds one. */
  lemma ScriptCloseInProjectId(serverUrl: string)
    ensures '<' in ConfigScriptAsWritten("</script><script>alert(1)//", serverUrl)
    ensures '<' !in ConfigScriptText("</script><script>alert(1)//", serverUrl)
  {
    var t := ConfigScriptAsWritten("</script><script>alert(1)//", serverUrl);
    assert t[|ConfigOpen|] == '<';
    ConfigHasNoTagOpen("</script><script>alert(1)//", serverUrl);
  }

  /** What the append adds to the body: the template's whitespace text
      nodes around the configuration script and the loader of
      `serverUrl + "/embed.js"`. */
  function InjectedScripts(projectId: string, serverUrl: string): seq<Node> {
    [ Text(Indent),
      Element("script", map[], [Text(ConfigScriptText(projectId, serverUrl))]),
      Text(Indent),
      Element("script", map["src" := serverUrl + "/embed.js"], []),
      Text(Outdent) ]
  }

  /** The appended nodes carry no `integrity` attribute. */
  lemma InjectedScriptsClean(projectId: string, serverUrl: string)
    ensures NoScriptIntegrity(InjectedScripts(projectId, serverUrl))
  {
    FiveNodesClean(Text(Indent), Element("script", map[], [Text(ConfigScriptText(projectId, serverUrl))]),
                   Text(Indent), Element("script", map["src" := serverUrl + "/embed.js"], []), Text(Outdent));
  }

  lemma FiveNodesClean(a: Node, b: Node, c: Node, d: Node, e: Node)
    requires a.Text? && c.Text? && e.Text?
    requires b.Element? && "integrity" !in b.attrs && |b.children| == 1 && b.children[0].Text?
    requires d.Element? && "integrity" !in d.attrs && d.children == []
    ensures NoScriptIntegrity([a, b, c, d, e])
  {
    assert [e][1..] == [];
    assert NoScriptIntegrity([e]);
    assert [d, e][1..] == [e];
    assert NoScriptIntegrity([d, e]);
    assert [c, d, e][1..] == [d, e];
    assert NoScriptIntegrity([c, d, e]);
    assert b.children[1..] == [];
    assert NoScriptIntegrity(b.children);
    assert [b, c, d, e][1..] == [c, d, e];
    assert NoScriptIntegrity([b, c, d, e]);
    assert [a, b, c, d, e][1..] == [b, c, d, e];
  }

  /** The document rewrite of the HTML branch: base tag if none, scripts
      appended, then every script's `integrity` removed. */
  function RewriteDocument(doc: Document, url: string, projectId: string, serverUrl: string): (r: Document)
    ensures DocHasBase(r)
    ensures !DocHasBase(doc) ==> r.head == [BaseTag(url)] + StripIntegrity(doc.head)
    ensures DocHasBase(doc) ==> r.head == StripIntegrity(doc.head)
    ensures r.body == StripIntegrity(doc.body) + InjectedScripts(projectId, serverUrl)
    ensures NoScriptIntegrity(r.head) && NoScriptIntegrity(r.body)
  {
    var withBase := if DocHasBase(doc) then doc else doc.(head := [BaseTag(url)] + doc.head);
    var injected := withBase.(body := withBase.body + InjectedScripts(projectId, serverUrl));
    InjectedScriptsClean(projectId, serverUrl);
    RewriteFacts(doc, url, InjectedScripts(projectId, serverUrl));
    Document(StripIntegrity(injected.head), StripIntegrity(injected.body))
  }

  /** The proof obligations of `RewriteDocument`, over the steps it composes. */
  lemma RewriteFacts(doc: Document, url: string, scripts: seq<Node>)
    requires NoScriptIntegrity(scripts)
    ensures var head := if DocHasBase(doc) then doc.head else [BaseTag(url)] + doc.head;
      && (HasTag(StripIntegrity(head), "base") || HasTag(StripIntegrity(doc.body + scripts), "base"))
      && (!DocHasBase(doc) ==> StripIntegrity(head) == [BaseTag(url)] + StripIntegrity(doc.head))
      && StripIntegrity(doc.body + scripts) == StripIntegrity(doc.body) + scripts
      && NoScriptIntegrity(StripIntegrity(head)) && NoScriptIntegrity(StripIntegrity(doc.body + scripts))
  {
    var head := if DocHasBase(doc) then doc.head else [BaseTag(url)] + doc.head;
    StripIntegrityAppend(doc.body, scripts);
    StripIntegrityFixedPoint(scripts);
    if !DocHasBase(doc) {
      StripIntegrityAppend([BaseTag(url)], doc.head);
      assert StripIntegrity([BaseTag(url)]) == [BaseTag(url)];
      assert StripIntegrity(head)[0] == BaseTag(url);
    } else {
      StripIntegrityKeepsTags(doc.head, "base");
      StripIntegrityKeepsTags(doc.body + scripts, "base");
      HasTagAppend(doc.body, scripts, "base");
    }
    StripIntegrityRemovesAll(head);
    StripIntegrityRemovesAll(doc.body + scripts);
  }

  lemma {:induction false} HasTagAppend(a: seq<Node>, b: seq<Node>, tag: string)
    ensures HasTag(a + b, tag) == (HasTag(a, tag) || HasTag(b, tag))
    decreases a
  {
    if |a| > 0 {
      assert (a + b)[0] == a[0];
      assert (a + b)[1..] == a[1..] + b;
      HasTagAppend(a[1..], b, tag);
    } else {
      assert a + b == b;
    }
  }

  // ---------------------------------------------------------------------------
  // Server URL and the handler
  // ---------------------------------------------------------------------------

  /** `req.headers['x-forwarded-proto'] || 'http'`, overridden to `https` when
      running on Vercel with a host that does not mention `localhost`. */
  function Protocol(headers: map<string, string>, onVercel: bool, host: string): (r: string)
    ensures onVercel && !Contains(host, "localhost") ==> r == "https"
    ensures !onVercel && !Truthy(headers, "x-forwarded-proto") ==> r == "http"
    ensures r == "https" || r == "http" || (Truthy(headers, "x-forwarded-proto") && r == headers["x-forwarded-proto"])
  {
    if onVercel && !Contains(host, "localhost") then "https"
    else HeaderOr(headers, "x-forwarded-proto", "http")
  }

  /** The server URL the overlay is told to call back, `${protocol}://${host}`. */
  function ServerUrl(headers: map<string, string>, onVercel: bool, host: string): (r: string)
    ensures StartsWith(r, Protocol(headers, onVercel, host) + "://")
    ensures r[|Protocol(headers, onVercel, host)| + 3..] == host
  {
    PrefixOfConcat(Protocol(headers, onVercel, host) + "://", host);
    Protocol(headers, onVercel, host) + "://" + host
  }

  /** How a template literal prints an absent value. */
  function Interpolated(v: Option<string>): string {
    if v.Some? then v.value else "undefined"
  }

  /** The text Node's TypeError carries when `host.includes` is read on an undefined host. */
  const UndefinedHostError: string := "Cannot read properties of undefined (reading 'includes')"

  /** `req.headers.host` as the template prints it. */
  function HostOf(req: ProxyRequest): string {
    Interpolated(if "host" in req.headers then Some(req.headers["host"]) else None)
  }

  /** What is sent once the fetch of `url` returned `up`: other content
      passes through; HTML is rewritten for the requesting host, except on
      Vercel without a `Host` header, where the `TypeError` of
      `host.includes` is caught as a fetch error. */
  function Respond(req: ProxyRequest, url: string, onVercel: bool, up: Upstream): (r: ProxyResponse)
    ensures r.headers == ResponseHeaders(up.headers)
    ensures !Contains(HeaderOr(up.headers, "content-type", ""), "text/html") ==> r == ProxyResponse(200, r.headers, RawData(up.data))
    ensures Contains(HeaderOr(up.headers, "content-type", ""), "text/html") && onVercel && "host" !in req.headers ==>
              r.status == 500 && r.body == PlainText("Error fetching URL: " + UndefinedHostError)
    ensures Contains(HeaderOr(up.headers, "content-type", ""), "text/html") && !(onVercel && "host" !in req.headers) ==>
              r.status == 200 && r.body.Html?
              && r.body.doc == RewriteDocument(up.doc, url, Interpolated(req.projectId), ServerUrl(req.headers, onVercel, HostOf(req)))
    ensures r.body.Html? ==>
              r.status == 200 && !(onVercel && "host" !in req.headers)
              && DocHasBase(r.body.doc) && NoScriptIntegrity(r.body.doc.body) && NoScriptIntegrity(r.body.doc.head)
              && EndsWith(r.body.doc.body, InjectedScripts(Interpolated(req.projectId), ServerUrl(req.headers, onVercel, HostOf(req))))
  {
    var headers := ResponseHeaders(up.headers);
    if !Contains(HeaderOr(up.headers, "content-type", ""), "text/html") then
      ProxyResponse(200, headers, RawData(up.data))
    else if onVercel && "host" !in req.headers then
      // host.includes throws inside the try block; the headers are already set
      ProxyResponse(500, headers, PlainText("Error fetching URL: " + UndefinedHostError))
    else
      var serverUrl := ServerUrl(req.headers, onVercel, HostOf(req));
      var doc := RewriteDocument(up.doc, url, Interpolated(req.projectId), serverUrl);
      EndsWithAppend(StripIntegrity(up.doc.body), InjectedScripts(Interpolated(req.projectId), serverUrl));
      ProxyResponse(200, headers, Html(doc))
  }

  /** The part of `handleProxy` after the guard let `url` through: fetch it,
      then pass the answer on, or report the failure as a 500. */
  function Forward(req: ProxyRequest, url: string, onVercel: bool, fetch: string -> FetchOutcome): (r: ProxyResponse)
    ensures r.status == 200 || r.status == 500
    ensures fetch(url).FetchError? ==> r == ProxyResponse(500, map[], PlainText("Error fetching URL: " + fetch(url).message))
    ensures r.status == 200 ==> fetch(url).Fetched? && r.headers == ResponseHeaders(fetch(url).response.headers)
    ensures r.status == 200 ==> "x-frame-options" !in r.headers && r.headers[AllowOrigin] == "*"
    ensures r.body.Html? ==>
              r.status == 200 && !(onVercel && "host" !in req.headers)
              && DocHasBase(r.body.doc) && NoScriptIntegrity(r.body.doc.body) && NoScriptIntegrity(r.body.doc.head)
              && EndsWith(r.body.doc.body, InjectedScripts(Interpolated(req.projectId), ServerUrl(req.headers, onVercel, HostOf(req))))
  {
    match fetch(url)
    case FetchError(msg) => ProxyResponse(500, map[], PlainText("Error fetching URL: " + msg))
    case Fetched(up) => Respond(req, url, onVercel, up)
  }

  /** `handleProxy`: the whole decision from request to response. `fetch`
      stands for the axios GET with its timeout; any exception it raises is a
      `FetchError`. */
  function HandleProxy(req: ProxyRequest, onVercel: bool, parseHost: string -> Option<string>,
                       fetch: string -> FetchOutcome): (r: ProxyResponse)
    ensures (req.url.None? || req.url == Some("")) ==> r == MissingUrl
    ensures req.url.Some? && req.url.value != "" && parseHost(req.url.value).None? ==>
      r == InvalidUrl
    ensures r.status == 403 <==>
      req.url.Some? && req.url.value != "" && parseHost(req.url.value).Some? && HasBlockedPrefix(parseHost(req.url.value).value)
    ensures r.status == 200 ==> fetch(req.url.value).Fetched? && r.headers == ResponseHeaders(fetch(req.url.value).response.headers)
    ensures r.status == 200 ==> "x-frame-options" !in r.headers && r.headers[AllowOrigin] == "*"
    ensures r.body.Html? ==> DocHasBase(r.body.doc) && NoScriptIntegrity(r.body.doc.body) && NoScriptIntegrity(r.body.doc.head)
    ensures r.body.Html? ==>
              r.status == 200 && !(onVercel && "host" !in req.headers)
              && EndsWith(r.body.doc.body, InjectedScripts(Interpolated(req.projectId), ServerUrl(req.headers, onVercel, HostOf(req))))
  {
    var g := Guard(req.url, parseHost);
    if g.Failure? then g.error
    else
      assert req.url == Some(g.value);
      Forward(req, g.value, onVercel, fetch)
  }

  /** Requests refused by the guard never reach the fetch: the response is the
      same whatever the network would have answered. */
  lemma RejectedRequestsDoNotFetch(req: ProxyRequest, onVercel: bool, parseHost: string -> Option<string>,
                                  fetch1: string -> FetchOutcome, fetch2: string -> FetchOutcome)
    requires Guard(req.url, parseHost).Failure?
    ensures HandleProxy(req, onVercel, parseHost, fetch1) == HandleProxy(req, onVercel, parseHost, fetch2)
    ensures HandleProxy(req, onVercel, parseHost, fetch1).status in {400, 403}
  {
  }

  /** A fetch failure or timeout becomes a 500 carrying the failure text. */
  lemma FetchFailureIs500(req: ProxyRequest, onVercel: bool, parseHost: string -> Option<string>,
                          fetch: string -> FetchOutcome)
    requires Guard(req.url, parseHost).Success?
    requires fetch(req.url.value).FetchError?
    ensures HandleProxy(req, onVercel, parseHost, fetch) ==
      ProxyResponse(500, map[], PlainText("Error fetching URL: " + fetch(req.url.value).message))
  {
  }

  lemma ExampleComPasses()
    ensures !MatchesInternalPattern("example.com")
  {
    var h := "example.com";
    DiffersAt(h, "localhost", 0);
    DiffersAt(h, "127.", 0);
    DiffersAt(h, "10.", 0);
    DiffersAt(h, "192.168.", 0);
    DiffersAt(h, "169.254.", 0);
  }

  lemma HtmlContentType(ct: string)
    requires ct == "text/html; charset=UTF-8"
    ensures Contains(ct, "text/html")
  {
    assert ct[..9] == "text/html";
  }

  lemma LocalServerUrl(headers: map<string, string>)
    requires headers == map["host" := "localhost:3456"]
    ensures ServerUrl(headers, false, "localhost:3456") == "http://localhost:3456"
  {
    assert "x-forwarded-proto" != "host" by { assert "x-forwarded-proto"[0] != "host"[0]; }
    assert HeaderOr(headers, "x-forwarded-proto", "http") == "http";
  }

  /** The rewritten body ends with the loader of `serverUrl + "/embed.js"`
      and the template's trailing whitespace. */
  lemma LoaderEndsBody(doc: Document, url: string, projectId: string, serverUrl: string)
    ensures var d := RewriteDocument(doc, url, projectId, serverUrl);
      && |d.body| >= 2
      && d.body[|d.body| - 2] == Element("script", map["src" := serverUrl + "/embed.js"], [])
      && d.body[|d.body| - 1] == Text(Outdent)
  {
    var d := RewriteDocument(doc, url, projectId, serverUrl);
    var scripts := InjectedScripts(projectId, serverUrl);
    var b := StripIntegrity(doc.body);
    assert d.body == b + scripts;
    assert d.body[|b| + 3] == scripts[3] && d.body[|b| + 4] == scripts[4];
  }

  lemma ExampleComDocument(doc: Document, projectId: string)
    requires !DocHasBase(doc)
    ensures var d := RewriteDocument(doc, "https://example.com/", projectId, "http://localhost:3456");
      && d.head[0] == Element("base", map["href" := "https://example.com/"], [])
      && d.body[|d.body| - 2] == Element("script", map["src" := "http://localhost:3456/embed.js"], [])
      && d.body[|d.body| - 1] == Text(Outdent)
  {
    LoaderEndsBody(doc, "https://example.com/", projectId, "http://localhost:3456");
    LocalLoaderUrl();
  }

  lemma LocalLoaderUrl()
    ensures "http://localhost:3456" + "/embed.js" == "http://localhost:3456/embed.js"
  {
  }

  /** The end-to-end scenario: proxying `https://example.com/` (an HTML page
      without a base tag) yields a head starting with
      `<base href="https://example.com/">` and a body whose last element is
      the loader of `embed.js` from the requesting host, followed only by the
      template's trailing whitespace. */
  lemma ExampleComRewrite(doc: Document, projectId: string, parseHost: string -> Option<string>,
                          fetch: string -> FetchOutcome)
    requires parseHost("https://example.com/") == Some("example.com")
    requires fetch("https://example.com/") == Fetched(Upstream(map["content-type" := "text/html; charset=UTF-8"], "<html>...</html>", doc))
    requires !DocHasBase(doc)
    ensures var r := HandleProxy(ProxyRequest(Some("https://example.com/"), Some(projectId), map["host" := "localhost:3456"]), false, parseHost, fetch);
      && r.status == 200
      && r.body.Html?
      && r.body.doc.head[0] == Element("base", map["href" := "https://example.com/"], [])
      && r.body.doc.body[|r.body.doc.body| - 2] == Element("script", map["src" := "http://localhost:3456/embed.js"], [])
      && r.body.doc.body[|r.body.doc.body| - 1] == Text(Outdent)
  {
    var req := ProxyRequest(Some("https://example.com/"), Some(projectId), map["host" := "localhost:3456"]);
    var ct := "text/html; charset=UTF-8";
    HtmlContentType(ct);
    ExampleComPasses();
    assert Guard(req.url, parseHost) == Success("https://example.com/");
    var up := fetch("https://example.com/").response;
    assert HeaderOr(up.headers, "content-type", "") == ct;
    var su := ServerUrl(req.headers, false, "localhost:3456");
    LocalServerUrl(req.headers);
    assert HandleProxy(req, false, parseHost, fetch) == Respond(req, "https://example.com/", false, up);
    assert Respond(req, "https://example.com/", false, up).body
      == Html(RewriteDocument(doc, "https://example.com/", projectId, "http://localhost:3456"));
    ExampleComDocument(doc, projectId);
  }
}

=== FILE: routes.dfy ===
/** The HTTP layer of server/index.js over the store: the two
    authentication middlewares, the validation each route does before it
    touches the store, the defaults for anonymous authors, and the mapping of
    store errors to statuses. Token verification, token signing and password
    checking are parameters. */
module Routes {
  import opened Base
  import opened Sorting
  import opened Store

  /** The payload of a valid token (`{ id, email, name }`). */
  datatype TokenUser = TokenUser(id: Id, email: string, name: string)

  /** What a route sends back: the status and the body. */
  datatype Payload =
    | ErrorJson(error: string)                    // `res.json({ error })`
    | PlainText(text: string)                     // `res.send(text)`
    | SuccessJson                                 // `{ success: true }`
    | SessionJson(user: TokenUser, token: string) // `{ user: { id, email, name }, token }`
    | ProjectJson(project: Project)
    | ProjectsJson(projects: seq<ProjectSummary>)
    | CommentJson(comment: Comment)
    | CommentsJson(comments: seq<Comment>)
    | ReplyJson(reply: Reply)
    | RepliesJson(replies: seq<Reply>)

  datatype Response = Response(status: int, body: Payload)

  const BearerPrefix := "Bearer "

  // ===== Middleware =====

  /** What `authenticate` decides: pass the verified user on, or stop the
      request with a 401. */
  datatype AuthOutcome = Authenticated(user: TokenUser) | Rejected(response: Response)

  /** `authenticate`: the `Authorization` header must start with `"Bearer "`;
      the token is the rest of it (from index 7), and it must verify. */
  function Authenticate(authorization: Option<string>, verify: string -> Option<TokenUser>): (r: AuthOutcome)
    ensures r.Authenticated? <==>
              authorization.Some? && StartsWith(authorization.value, BearerPrefix)
              && verify(authorization.value[7..]).Some?
    ensures r.Authenticated? ==> verify(authorization.value[7..]) == Some(r.user)
    ensures r.Rejected? ==> r.response.status == 401
    ensures r.Rejected? ==>
              r.response.body == (if authorization.Some? && StartsWith(authorization.value, BearerPrefix)
                                  then ErrorJson("Invalid token") else ErrorJson("Unauthorized"))
  {
    if authorization.None? || !StartsWith(authorization.value, BearerPrefix) then
      Rejected(Response(401, ErrorJson("Unauthorized")))
    else
      match verify(authorization.value[7..])
      case None => Rejected(Response(401, ErrorJson("Invalid token")))
      case Some(user) => Authenticated(user)
  }

  /** `optionalAuth`: never rejects; the user is set exactly when
      `authenticate` would have let the request through, and is the same
      user. */
  function OptionalAuth(authorization: Option<string>, verify: string -> Option<TokenUser>): (r: Option<TokenUser>)
    ensures r.Some? <==> Authenticate(authorization, verify).Authenticated?
    ensures r.Some? ==> r.value == Authenticate(authorization, verify).user
  {
    if authorization.Some? && StartsWith(authorization.value, BearerPrefix) then
      verify(authorization.value[7..])
    else None
  }

  /** A token that verifies behind the prefix authenticates. */
  lemma BearerTokenAuthenticates(token: string, user: TokenUser, verify: string -> Option<TokenUser>)
    requires verify(token) == Some(user)
    ensures Authenticate(Some(BearerPrefix + token), verify) == Authenticated(user)
  {
    var h := BearerPrefix + token;
    assert h[..7] == BearerPrefix;
    assert h[7..] == token;
  }

  // ===== Error mapping =====

  /** The catch blocks of the owner-only routes: an error whose message is
      exactly 'Unauthorized' is 403, anything else is 500 with the message. */
  function GuardedError(e: Error): (r: Response)
    ensures r.status == 403 <==> e == Unauthorized
    ensures r.status != 403 ==> r == Response(500, ErrorJson(Message(e)))
    ensures r.status == 403 ==> r.body == ErrorJson("Unauthorized")
  {
    MessageIsUnauthorizedIff(e);
    if Message(e) == "Unauthorized" then Response(403, ErrorJson("Unauthorized"))
    else Response(500, ErrorJson(Message(e)))
  }

  /** The catch blocks of the other routes: 500 with the message. */
  function PlainError(e: Error): (r: Response)
    ensures r.status == 500 && r.body.ErrorJson? && r.body.error == Message(e)
  {
    Response(500, ErrorJson(Message(e)))
  }

  // ===== Authentication routes =====

  /** The JSON body fields a route reads; a field the client did not send is
      `None`. */
  datatype SignupBody = SignupBody(email: Option<string>, password: Option<string>, name: Option<string>)

  /** `POST /api/auth/signup`. */
  function Signup(st: Store, body: SignupBody, hash: string -> string, sign: TokenUser -> string, stamp: Stamp): (r: (Store, Response))
    ensures !(Given(body.email) && Given(body.password) && Given(body.name)) ==>
              r == (st, Response(400, ErrorJson("All fields are required")))
    ensures Given(body.email) && Given(body.password) && Given(body.name)
            && GetUserByEmail(st, body.email.value).Some? ==>
              r == (st, Response(400, ErrorJson("Email already registered")))
    ensures r.1.status == 200 <==>
              Given(body.email) && Given(body.password) && Given(body.name)
              && GetUserByEmail(st, body.email.value).None?
              && CreateUser(st, body.email.value, body.password.value, body.name.value, hash, stamp).Success?
    ensures r.1.status == 200 ==>
              r.1.body.SessionJson? && r.1.body.user == TokenUser(stamp.id, body.email.value, body.name.value)
              && r.1.body.token == sign(r.1.body.user)
              && r.0.users == st.users + [User(stamp.id, body.email.value, hash(body.password.value), body.name.value)]
    ensures r.1.status != 200 ==> r.0 == st
  {
    if !Given(body.email) || !Given(body.password) || !Given(body.name) then
      (st, Response(400, ErrorJson("All fields are required")))
    else if GetUserByEmail(st, body.email.value).Some? then
      (st, Response(400, ErrorJson("Email already registered")))
    else
      match CreateUser(st, body.email.value, body.password.value, body.name.value, hash, stamp)
      case Failure(_) => (st, Response(500, ErrorJson("Signup failed")))
      case Success((st', u)) =>
        var pub := TokenUser(u.id, u.email, u.name);
        (st', Response(200, SessionJson(pub, sign(pub))))
  }

  datatype LoginBody = LoginBody(email: Option<string>, password: Option<string>)

  /** `POST /api/auth/login`. `checkPassword(plain, hash)` stands for the
      hash comparison. */
  function Login(st: Store, body: LoginBody, checkPassword: (string, string) -> bool, sign: TokenUser -> string): (r: Response)
    ensures !(Given(body.email) && Given(body.password)) ==>
              r == Response(400, ErrorJson("Email and password required"))
    ensures r.status == 200 <==>
              Given(body.email) && Given(body.password)
              && GetUserByEmail(st, body.email.value).Some?
              && checkPassword(body.password.value, GetUserByEmail(st, body.email.value).value.passwordHash)
    ensures r.status == 200 ==>
              var u := GetUserByEmail(st, body.email.value).value;
              r.body == SessionJson(TokenUser(u.id, u.email, u.name), sign(TokenUser(u.id, u.email, u.name)))
    ensures r.status != 200 && r.status != 400 ==> r == Response(401, ErrorJson("Invalid credentials"))
  {
    if !Given(body.email) || !Given(body.password) then
      Response(400, ErrorJson("Email and password required"))
    else
      match GetUserByEmail(st, body.email.value)
      case None => Response(401, ErrorJson("Invalid credentials"))
      case Some(u) =>
        if !checkPassword(body.password.value, u.passwordHash) then Response(401, ErrorJson("Invalid credentials"))
        else
          var pub := TokenUser(u.id, u.email, u.name);
          Response(200, SessionJson(pub, sign(pub)))
  }

  /** A caller cannot tell an unknown e-mail from a wrong password. */
  lemma LoginFailuresLookAlike(st: Store, email: string, password: string,
                               checkPassword: (string, string) -> bool, sign: TokenUser -> string)
    requires email != "" && password != ""
    requires GetUserByEmail(st, email).None?
             || !checkPassword(password, GetUserByEmail(st, email).value.passwordHash)
    ensures Login(st, LoginBody(Some(email), Some(password)), checkPassword, sign)
            == Response(401, ErrorJson("Invalid credentials"))
  {
  }

  // ===== Project routes =====

  /** `GET /api/projects`: the caller's projects, newest first. */
  method GetProjectsRoute(st: Store, authorization: Option<string>, verify: string -> Option<TokenUser>)
    returns (r: Response)
    ensures Authenticate(authorization, verify).Rejected? ==> r == Authenticate(authorization, verify).response
    ensures Authenticate(authorization, verify).Authenticated? ==>
              var uid := Authenticate(authorization, verify).user.id;
              r.status == 200 && r.body.ProjectsJson?
              && (forall s :: s in r.body.projects <==>
                    s.project in st.projects.Values && s.project.ownerId == Some(uid)
                    && s.commentCount == CommentCount(st, s.project.id))
              && Distinct(r.body.projects)
              && (forall i, j :: 0 <= i < j < |r.body.projects| ==>
                    r.body.projects[i].project.createdAt >= r.body.projects[j].project.createdAt)
  {
    match Authenticate(authorization, verify)
    case Rejected(resp) => r := resp;
    case Authenticated(user) =>
      var ps := GetUserProjects(st, user.id);
      r := Response(200, ProjectsJson(ps));
  }

  /** `POST /api/projects`: authenticated; a missing or empty url is 400. */
  function PostProject(st: Store, authorization: Option<string>, verify: string -> Option<TokenUser>,
                       url: Option<string>, stamp: Stamp): (r: (Store, Response))
    ensures Authenticate(authorization, verify).Rejected? ==>
              r == (st, Authenticate(authorization, verify).response)
    ensures Authenticate(authorization, verify).Authenticated? && !Given(url) ==>
              r == (st, Response(400, PlainText("URL required")))
    ensures r.1.status == 200 ==>
              Given(url) && r.1.body.ProjectJson?
              && r.1.body.project == Project(stamp.id, url.value, Some(Authenticate(authorization, verify).user.id), stamp.now)
              && r.0.projects == st.projects[stamp.id := r.1.body.project]
    ensures r.1.status != 200 ==> r.0 == st
  {
    match Authenticate(authorization, verify)
    case Rejected(resp) => (st, resp)
    case Authenticated(user) =>
      if !Given(url) then (st, Response(400, PlainText("URL required")))
      else
        match CreateProject(st, url.value, user.id, stamp)
        case Failure(e) => (st, PlainError(e))
        case Success((st', p)) => (st', Response(200, ProjectJson(p)))
  }

  /** `GET /api/projects/:id`: public; a missing project is 404. */
  function GetProjectRoute(st: Store, id: Id): (r: Response)
    ensures id in st.projects <==> r.status == 200
    ensures id in st.projects ==> r.body == ProjectJson(st.projects[id])
    ensures id !in st.projects ==> r == Response(404, PlainText("Not found"))
  {
    match GetProject(st, id)
    case Success(p) => Response(200, ProjectJson(p))
    case Failure(e) =>
      if Code(e) == Some("PGRST116") then Response(404, PlainText("Not found")) else PlainError(e)
  }

  /** A project just created is found by its id through the public route,
      as it was answered to its creator. */
  lemma PostedProjectIsFound(st: Store, authorization: Option<string>, verify: string -> Option<TokenUser>,
                             url: Option<string>, stamp: Stamp)
    ensures var (st', resp) := PostProject(st, authorization, verify, url, stamp);
            resp.status == 200 ==>
              GetProjectRoute(st', stamp.id) == resp && GetProject(st', stamp.id) == Success(resp.body.project)
  {
  }

  /** `DELETE /api/projects/:id`: authenticated, owner only. */
  function DeleteProjectRoute(st: Store, authorization: Option<string>, verify: string -> Option<TokenUser>, id: Id): (r: (Store, Response))
    ensures Authenticate(authorization, verify).Rejected? ==>
              r == (st, Authenticate(authorization, verify).response)
    ensures r.1.status == 200 <==>
              Authenticate(authorization, verify).Authenticated?
              && OwnerOf(st, id) == Some(Authenticate(authorization, verify).user.id)
    ensures r.1.status == 200 ==> r.0.projects == st.projects - {id} && r.1.body == SuccessJson
    ensures Authenticate(authorization, verify).Authenticated? && r.1.status != 200 ==>
              r == (st, Response(403, ErrorJson("Unauthorized")))
    ensures r.1.status != 200 ==> r.0 == st
  {
    match Authenticate(authorization, verify)
    case Rejected(resp) => (st, resp)
    case Authenticated(user) =>
      match DeleteProject(st, id, user.id)
      case Failure(e) => (st, GuardedError(e))
      case Success(st') => (st', Response(200, SuccessJson))
  }

  // ===== Comment routes =====

  /** `GET /api/comments?projectId=…`: public; the project's comments, oldest
      first. */
  method GetCommentsRoute(st: Store, projectId: Option<string>) returns (r: Response)
    ensures !Given(projectId) ==> r == Response(400, PlainText("ProjectId required"))
    ensures Given(projectId) ==>
              r.status == 200 && r.body.CommentsJson?
              && (forall c :: c in r.body.comments <==> c in CommentsOf(st, projectId.value))
              && |r.body.comments| == |CommentsOf(st, projectId.value)|
              && (forall i, j :: 0 <= i < j < |r.body.comments| ==>
                    r.body.comments[i].createdAt <= r.body.comments[j].createdAt)
  {
    if !Given(projectId) {
      return Response(400, PlainText("ProjectId required"));
    }
    var cs := GetComments(st, projectId.value);
    r := Response(200, CommentsJson(cs));
  }

  datatype CommentBody = CommentBody(projectId: Id, text: string, x: real, y: real, selector: Option<string>)

  /** `req.user?.id || null`. */
  function AuthorId(user: Option<TokenUser>): (r: Option<Id>)
    ensures r.Some? <==> user.Some? && user.value.id != ""
    ensures r.Some? ==> r.value == user.value.id
  {
    if user.Some? && user.value.id != "" then Some(user.value.id) else None
  }

  /** `req.user?.name || 'Anonymous'`. */
  function AuthorName(user: Option<TokenUser>): (r: string)
    ensures user.Some? && user.value.name != "" ==> r == user.value.name
    ensures user.None? ==> r == "Anonymous"
    ensures user.Some? && user.value.name == "" ==> r == "Anonymous"
    ensures r != ""
  {
    if user.Some? && user.value.name != "" then user.value.name else "Anonymous"
  }

  /** `POST /api/comments`: open to anonymous callers; the author is the
      verified user when there is one. The text is not checked here. */
  function PostComment(st: Store, authorization: Option<string>, verify: string -> Option<TokenUser>,
                       body: CommentBody, stamp: Stamp): (r: (Store, Response))
    ensures var user := OptionalAuth(authorization, verify);
            var input := CommentInput(body.projectId, AuthorId(user), AuthorName(user), body.text, body.x, body.y, body.selector);
            r.1.status == 200 <==> CreateComment(st, input, stamp).Success?
    ensures r.1.status == 200 ==>
              var user := OptionalAuth(authorization, verify);
              var input := CommentInput(body.projectId, AuthorId(user), AuthorName(user), body.text, body.x, body.y, body.selector);
              r == (CreateComment(st, input, stamp).value.0, Response(200, CommentJson(CreateComment(st, input, stamp).value.1)))
    ensures r.1.status != 200 ==> r.0 == st && r.1.status == 500
  {
    var user := OptionalAuth(authorization, verify);
    var input := CommentInput(body.projectId, AuthorId(user), AuthorName(user), body.text, body.x, body.y, body.selector);
    match CreateComment(st, input, stamp)
    case Failure(e) => (st, PlainError(e))
    case Success((st', c)) => (st', Response(200, CommentJson(c)))
  }

  /** A comment posted without a valid token is stored anonymously. */
  lemma AnonymousCommentDefaults(st: Store, authorization: Option<string>, verify: string -> Option<TokenUser>,
                                 body: CommentBody, stamp: Stamp)
    requires Authenticate(authorization, verify).Rejected?
    requires stamp.id !in st.comments
    ensures var (st', resp) := PostComment(st, authorization, verify, body, stamp);
            resp.status == 200 && resp.body.CommentJson?
            && resp.body.comment.userId.None? && resp.body.comment.userName == "Anonymous"
            && st'.comments[stamp.id] == resp.body.comment
  {
  }

  /** `PUT /api/comments/:id`: authenticated; empty text is 400 before the
      store is asked; then author only. A comment that does not exist is
      also 403, since the store reports it as 'Unauthorized'. */
  function PutComment(st: Store, authorization: Option<string>, verify: string -> Option<TokenUser>,
                      id: Id, text: Option<string>): (r: (Store, Response))
    ensures Authenticate(authorization, verify).Rejected? ==>
              r == (st, Authenticate(authorization, verify).response)
    ensures Authenticate(authorization, verify).Authenticated? && !Given(text) ==>
              r == (st, Response(400, ErrorJson("Text required")))
    ensures r.1.status == 200 <==>
              Authenticate(authorization, verify).Authenticated? && Given(text)
              && IsAuthor(st, id, Authenticate(authorization, verify).user.id)
    ensures r.1.status == 200 ==>
              r.0.comments == st.comments[id := st.comments[id].(text := text.value)]
              && r.1.body == CommentJson(st.comments[id].(text := text.value))
    ensures Authenticate(authorization, verify).Authenticated? && Given(text) && r.1.status != 200 ==>
              r.1 == Response(403, ErrorJson("Unauthorized"))
    ensures r.1.status != 200 ==> r.0 == st
  {
    match Authenticate(authorization, verify)
    case Rejected(resp) => (st, resp)
    case Authenticated(user) =>
      if !Given(text) then (st, Response(400, ErrorJson("Text required")))
      else
        match UpdateComment(st, id, user.id, text.value)
        case Failure(e) => (st, GuardedError(e))
        case Success((st', c)) => (st', Response(200, CommentJson(c)))
  }

  /** `DELETE /api/comments/:id`: authenticated; author or project owner. A
      missing comment is 500 'Comment not found'. */
  function DeleteCommentRoute(st: Store, authorization: Option<string>, verify: string -> Option<TokenUser>, id: Id): (r: (Store, Response))
    ensures Authenticate(authorization, verify).Rejected? ==>
              r == (st, Authenticate(authorization, verify).response)
    ensures Authenticate(authorization, verify).Authenticated? && id !in st.comments ==>
              r == (st, Response(500, ErrorJson("Comment not found")))
    ensures r.1.status == 200 <==>
              Authenticate(authorization, verify).Authenticated? && id in st.comments
              && MayModerate(st, st.comments[id], Authenticate(authorization, verify).user.id)
    ensures r.1.status == 200 ==> r.0.comments == st.comments - {id} && r.1.body == SuccessJson
    ensures Authenticate(authorization, verify).Authenticated? && id in st.comments && r.1.status != 200 ==>
              r.1 == Response(403, ErrorJson("Unauthorized"))
    ensures r.1.status != 200 ==> r.0 == st
  {
    match Authenticate(authorization, verify)
    case Rejected(resp) => (st, resp)
    case Authenticated(user) =>
      match DeleteComment(st, id, user.id)
      case Failure(e) => (st, GuardedError(e))
      case Success((st', _)) => (st', Response(200, SuccessJson))
  }

  // ===== Reply routes =====

  /** `GET /api/replies?commentId=…`: public; the replies, oldest first. */
  method GetRepliesRoute(st: Store, commentId: Option<string>) returns (r: Response)
    ensures !Given(commentId) ==> r == Response(400, PlainText("CommentId required"))
    ensures Given(commentId) ==>
              r.status == 200 && r.body.RepliesJson?
              && (forall rp :: rp in r.body.replies <==> rp in RepliesOf(st, commentId.value))
              && Distinct(r.body.replies) && |r.body.replies| == |RepliesOf(st, commentId.value)|
              && (forall i, j :: 0 <= i < j < |r.body.replies| ==>
                    r.body.replies[i].createdAt <= r.body.replies[j].createdAt)
  {
    if !Given(commentId) {
      return Response(400, PlainText("CommentId required"));
    }
    var rs := GetReplies(st, commentId.value);
    r := Response(200, RepliesJson(rs));
  }

  /** `POST /api/replies`: open to anonymous callers; text is required. */
  function PostReply(st: Store, authorization: Option<string>, verify: string -> Option<TokenUser>,
                     commentId: Id, text: Option<string>, stamp: Stamp): (r: (Store, Response))
    ensures !Given(text) ==> r == (st, Response(400, ErrorJson("Text required")))
    ensures r.1.status == 200 ==>
              var user := OptionalAuth(authorization, verify);
              Given(text) && stamp.id !in st.replies
              && r.1.body == ReplyJson(Reply(stamp.id, commentId, AuthorId(user), AuthorName(user), text.value, stamp.now))
              && r.0.replies == st.replies[stamp.id := r.1.body.reply]
    ensures Given(text) && stamp.id !in st.replies ==> r.1.status == 200
    ensures r.1.status != 200 ==> r.0 == st
  {
    if !Given(text) then (st, Response(400, ErrorJson("Text required")))
    else
      var user := OptionalAuth(authorization, verify);
      match CreateReply(st, ReplyInput(commentId, AuthorId(user), AuthorName(user), text.value), stamp)
      case Failure(e) => (st, PlainError(e))
      case Success((st', rp)) => (st', Response(200, ReplyJson(rp)))
  }

  /** `DELETE /api/replies/:id`: authenticated; reply author or project
      owner. */
  function DeleteReplyRoute(st: Store, authorization: Option<string>, verify: string -> Option<TokenUser>, id: Id): (r: (Store, Response))
    ensures Authenticate(authorization, verify).Rejected? ==>
              r == (st, Authenticate(authorization, verify).response)
    ensures Authenticate(authorization, verify).Authenticated? && id !in st.replies ==>
              r == (st, Response(500, ErrorJson("Reply not found")))
    ensures r.1.status == 200 <==>
              Authenticate(authorization, verify).Authenticated? && id in st.replies
              && var uid := Authenticate(authorization, verify).user.id;
                 (st.replies[id].userId == Some(uid) || ReplyOwner(st, st.replies[id]) == Some(uid))
    ensures r.1.status == 200 ==> r.0.replies == st.replies - {id} && r.1.body == SuccessJson
    ensures Authenticate(authorization, verify).Authenticated? && id in st.replies && r.1.status != 200 ==>
              r == (st, Response(403, ErrorJson("Unauthorized")))
    ensures r.1.status != 200 ==> r.0 == st
  {
    match Authenticate(authorization, verify)
    case Rejected(resp) => (st, resp)
    case Authenticated(user) =>
      match DeleteReply(st, id, user.id)
      case Failure(e) => (st, GuardedError(e))
      case Success(st') => (st', Response(200, SuccessJson))
  }

  /** The end-to-end scenario of the live check script: a comment posted to a
      project is what its comment listing then contains. */
  lemma PostedCommentIsListed(st: Store, authorization: Option<string>, verify: string -> Option<TokenUser>,
                              body: CommentBody, stamp: Stamp)
    requires stamp.id !in st.comments
    ensures var (st', resp) := PostComment(st, authorization, verify, body, stamp);
            resp.status == 200 && resp.body.CommentJson?
            && resp.body.comment.text == body.text
            && resp.body.comment in CommentsOf(st', body.projectId)
  {
    var user := OptionalAuth(authorization, verify);
    var input := CommentInput(body.projectId, AuthorId(user), AuthorName(user), body.text, body.x, body.y, body.selector);
    CreatedCommentIsListed(st, input, stamp);
  }
}

=== FILE: selector.dfy ===
/** `getCssPath` of server/public/embed.js: the CSS selector the overlay
    stores for the element a click landed on. The walk goes from the element
    up through its parents, stops at the first element carrying an id (which
    becomes `tag#id`) or at the document element (which is never part of the
    path), and marks every id-less element with `:nth-of-type(n)` when it is
    not the first of its tag among its siblings. */
module Selector {
  import opened Base

  /** The element tree as seen from one element, looking up. `previousTags`
      are the lower-cased tag names of the element's preceding element
      siblings, nearest last; `id` is `""` when the element has none. */
  datatype DomNode =
    | DocumentElement      // document.documentElement: the walk stops here
    | NonElement           // a parent that is not an element node (a document fragment, say)
    | Element(tag: string, id: string, previousTags: seq<string>, parent: DomNode)

  /** Tag names as `nodeName.toLowerCase()` reports them: never empty, and
      without the characters that carry meaning in the selector. */
  predicate ValidTag(t: string) {
    |t| > 0 && forall i :: 0 <= i < |t| ==> t[i] != '#' && t[i] != ' ' && t[i] != '>'
  }

  predicate WellFormed(n: DomNode) {
    match n
    case Element(t, _, prev, p) => ValidTag(t) && WellFormed(p)
    case _ => true
  }

  /** Number of `tag` elements among `tags`. */
  function CountTag(tags: seq<string>, tag: string): (r: nat)
    ensures r <= |tags|
  {
    if |tags| == 0 then 0
    else CountTag(tags[..|tags| - 1], tag) + (if tags[|tags| - 1] == tag then 1 else 0)
  }

  /** The `:nth-of-type(n)` suffix, omitted for the first of its tag. */
  function NthSuffix(n: nat): string {
    if n == 1 then "" else ":nth-of-type(" + NatToString(n) + ")"
  }

  /** The segment an id-less element contributes. */
  function PlainSegment(tag: string, previousTags: seq<string>): string {
    tag + NthSuffix(1 + CountTag(previousTags, tag))
  }

  /** The path segments, outermost first: the reference reading of the walk. */
  function Segments(n: DomNode): (r: seq<string>)
    ensures n.Element? <==> |r| > 0
  {
    match n
    case Element(t, id, prev, p) =>
      if id != "" then [t + "#" + id] else Segments(p) + [PlainSegment(t, prev)]
    case _ => []
  }

  /** The element's own segment, which the walk puts last. */
  function OwnSegment(n: DomNode): string
    requires n.Element?
  {
    if n.id != "" then n.tag + "#" + n.id else PlainSegment(n.tag, n.previousTags)
  }

  /** Counting preceding same-tag siblings, as the inner `while (sib = sib.previousElementSibling)` loop does. */
  method NthOfType(tag: string, previousTags: seq<string>) returns (nth: nat)
    ensures nth == 1 + CountTag(previousTags, tag)
  {
    nth := 1;
    var i := |previousTags|;
    assert previousTags[..i] == previousTags;
    while i > 0
      invariant 0 <= i <= |previousTags|
      invariant nth == 1 + CountTag(previousTags, tag) - CountTag(previousTags[..i], tag)
    {
      assert previousTags[..i][..i - 1] == previousTags[..i - 1];
      if previousTags[i - 1] == tag {
        nth := nth + 1;
      }
      i := i - 1;
    }
    assert previousTags[..0] == [];
  }

  /** The segment of an id-less element: its tag, with `:nth-of-type(nth)` unless `nth` is 1. */
  method PlainSegmentOf(tag: string, previousTags: seq<string>) returns (selector: string)
    ensures selector == PlainSegment(tag, previousTags)
  {
    selector := tag;
    var nth := NthOfType(selector, previousTags);
    if nth != 1 {
      selector := selector + ":nth-of-type(" + NatToString(nth) + ")";
    }
  }

  /** One step of the walk: the current element's segment, and whether the
      walk stops at it because it carries an id. */
  method SegmentOf(cur: DomNode) returns (selector: string, stop: bool)
    requires cur.Element?
    ensures selector == OwnSegment(cur)
    ensures stop <==> cur.id != ""
  {
    selector := cur.tag;
    if cur.id != "" {
      selector := selector + "#" + cur.id;
      return selector, true;  // an id anchors the path, so the walk stops
    }
    selector := PlainSegmentOf(cur.tag, cur.previousTags);
    stop := false;
  }

  /** The walk of `getCssPath`: segments collected innermost first and
      prepended, so the result reads from the outermost element down. */
  method WalkUp(el: DomNode) returns (path: seq<string>)
    ensures path == Segments(el)
  {
    path := [];
    var cur := el;
    while cur.Element?
      invariant Segments(el) == Segments(cur) + path
      decreases Depth(cur)
    {
      var selector, stop := SegmentOf(cur);
      if stop {
        SegmentsStep(cur);
        path := [selector] + path;
        return;
      }
      StepUp(el, cur, path);
      path := [selector] + path;
      cur := cur.parent;
    }
  }

  /** Number of elements from `n` up to the top of the tree. */
  function Depth(n: DomNode): nat {
    if n.Element? then 1 + Depth(n.parent) else 0
  }

  /** Moving the walk from an id-less element to its parent keeps the
      collected path a suffix of the reference segments. */
  lemma StepUp(el: DomNode, cur: DomNode, path: seq<string>)
    requires cur.Element? && cur.id == ""
    requires Segments(el) == Segments(cur) + path
    ensures Segments(el) == Segments(cur.parent) + ([OwnSegment(cur)] + path)
  {
    SegmentsStep(cur);
    ConsAssoc(Segments(cur.parent), OwnSegment(cur), path);
  }

  lemma ConsAssoc<T>(a: seq<T>, x: T, b: seq<T>)
    ensures (a + [x]) + b == a + ([x] + b)
  {
  }

  lemma SegmentsStep(n: DomNode)
    requires n.Element?
    ensures n.id != "" ==> Segments(n) == [OwnSegment(n)]
    ensures n.id == "" ==> Segments(n) == Segments(n.parent) + [OwnSegment(n)]
  {
  }

  /** `getCssPath(el)`: `None` for a node that is not an element (the source
      returns `undefined`), otherwise the segments joined with `" > "`. */
  method GetCssPath(el: DomNode) returns (r: Option<string>)
    ensures el.NonElement? ==> r.None?
    ensures !el.NonElement? ==> r == Some(Join(Segments(el), " > "))
  {
    if el.NonElement? {
      return None;
    }
    var path := WalkUp(el);
    r := Some(Join(path, " > "));
  }

  /** The selector the click handler stores: `getCssPath(target) || 'body'`.
      An element whose path prints as the empty string also falls back. */
  function SelectorFor(el: DomNode): (r: string)
    ensures r != ""
    ensures !el.Element? ==> r == "body"
    ensures el.Element? && WellFormed(el) ==> r == Join(Segments(el), " > ")
  {
    if el.Element? then
      var path := Join(Segments(el), " > ");
      if WellFormed(el) then JoinNonEmpty(el); if path == "" then "body" else path
      else if path == "" then "body" else path
    else "body"
  }

  /** A well-formed element always yields a non-empty path. */
  lemma JoinNonEmpty(el: DomNode)
    requires el.Element? && WellFormed(el)
    ensures Join(Segments(el), " > ") != ""
  {
    var s := Segments(el);
    assert s[|s| - 1] == OwnSegment(el);
    if |s| >= 2 {
      assert |Join(s, " > ")| >= 3;
    }
  }

  /** Root-to-leaf order: an id-less element's path is its parent's path,
      then `" > "`, then its own segment (or its segment alone when the parent
      contributes nothing, as the document element does). */
  lemma {:induction false} PathExtendsParent(n: DomNode)
    requires n.Element? && n.id == ""
    ensures Segments(n.parent) == [] ==> Join(Segments(n), " > ") == OwnSegment(n)
    ensures Segments(n.parent) != [] ==>
      Join(Segments(n), " > ") == Join(Segments(n.parent), " > ") + " > " + OwnSegment(n)
  {
    var s := Segments(n);
    assert s == Segments(n.parent) + [OwnSegment(n)];
    assert s[..|s| - 1] == Segments(n.parent);
  }

  /** Ancestor-or-self with a non-empty id, nearest first. */
  predicate HasIdOnPath(n: DomNode) {
    match n
    case Element(_, id, _, p) => id != "" || HasIdOnPath(p)
    case _ => false
  }

  /** The nearest ancestor-or-self carrying an id. */
  function NearestWithId(n: DomNode): (r: DomNode)
    requires HasIdOnPath(n)
    ensures r.Element? && r.id != ""
  {
    if n.id != "" then n else NearestWithId(n.parent)
  }

  predicate HasHash(s: string) {
    exists i :: 0 <= i < |s| && s[i] == '#'
  }

  lemma NoHashInNatToString(n: nat)
    ensures !HasHash(NatToString(n))
  {
    var s := NatToString(n);
    if n >= 10 {
      NoHashInNatToString(n / 10);
      assert s == NatToString(n / 10) + [DigitChar(n % 10)];
      assert forall i :: 0 <= i < |s| - 1 ==> s[i] == NatToString(n / 10)[i];
    }
  }

  lemma NoHashInPlainSegment(tag: string, previousTags: seq<string>)
    requires ValidTag(tag)
    ensures !HasHash(PlainSegment(tag, previousTags))
  {
    var n := 1 + CountTag(previousTags, tag);
    if n != 1 {
      NoHashInNatToString(n);
      var d := NatToString(n);
      var s := tag + ":nth-of-type(" + d + ")";
      forall i | 0 <= i < |s| ensures s[i] != '#' {
        if i < |tag| {
          assert s[i] == tag[i];
        } else if i < |tag| + 13 {
          assert s[i] == ":nth-of-type("[i - |tag|];
        } else if i < |tag| + 13 + |d| {
          assert s[i] == d[i - |tag| - 13];
        } else {
          assert s[i] == ')';
        }
      }
    } else {
      assert PlainSegment(tag, previousTags) == tag;
    }
  }

  /** The walk stops at the nearest element with an id: that element is the
      first segment, `tag#id`, and it is the only segment holding a `#`.
      Without an id on the path, no segment holds a `#`. */
  lemma {:induction false} IdAnchorsPath(n: DomNode)
    requires WellFormed(n) && n.Element?
    ensures HasIdOnPath(n) ==> Segments(n)[0] == NearestWithId(n).tag + "#" + NearestWithId(n).id
    ensures forall i :: 0 <= i < |Segments(n)| && (i > 0 || !HasIdOnPath(n)) ==> !HasHash(Segments(n)[i])
  {
    var s := Segments(n);
    if n.id == "" {
      NoHashInPlainSegment(n.tag, n.previousTags);
      if !n.parent.Element? {
        assert !HasIdOnPath(n.parent);
      } else {
        IdAnchorsPath(n.parent);
        assert s == Segments(n.parent) + [PlainSegment(n.tag, n.previousTags)];
        assert s[0] == Segments(n.parent)[0];
        if HasIdOnPath(n) {
          assert NearestWithId(n) == NearestWithId(n.parent);
        }
      }
    }
  }

  /** `s` followed by `a` equals `s` followed by `b` only when `a == b`. */
  lemma ConcatCancel(s: string, a: string, b: string)
    requires s + a == s + b
    ensures a == b
  {
    assert a == (s + a)[|s|..];
    assert b == (s + b)[|s|..];
  }

  lemma NthSuffixInjective(m: nat, n: nat)
    requires NthSuffix(m) == NthSuffix(n)
    ensures m == n
  {
    var open := ":nth-of-type(";
    if m != 1 && n != 1 {
      var sm := open + NatToString(m) + ")";
      var sn := open + NatToString(n) + ")";
      assert sm[..|sm| - 1] == open + NatToString(m);
      assert sn[..|sn| - 1] == open + NatToString(n);
      ConcatCancel(open, NatToString(m), NatToString(n));
      NatToStringInjective(m, n);
    }
  }

  lemma {:induction false} CountTagAppend(a: seq<string>, b: seq<string>, tag: string)
    ensures CountTag(a + b, tag) == CountTag(a, tag) + CountTag(b, tag)
    decreases |b|
  {
    if |b| == 0 {
      assert a + b == a;
    } else {
      assert (a + b)[..|a + b| - 1] == a + b[..|b| - 1];
      CountTagAppend(a, b[..|b| - 1], tag);
    }
  }

  /** Two id-less siblings of the same tag under the same parent, the first
      preceding the second, end in different segments, so their selectors
      differ. */
  lemma SameTagSiblingsDiffer(tag: string, before: seq<string>, between: seq<string>, parent: DomNode)
    ensures var first := Element(tag, "", before, parent);
            var second := Element(tag, "", before + [tag] + between, parent);
            OwnSegment(first) != OwnSegment(second)
            && Segments(first)[|Segments(first)| - 1] != Segments(second)[|Segments(second)| - 1]
  {
    var k1 := 1 + CountTag(before, tag);
    CountTagAppend(before + [tag], between, tag);
    CountTagAppend(before, [tag], tag);
    var k2 := 1 + CountTag(before + [tag] + between, tag);
    assert k2 > k1;
    if PlainSegment(tag, before) == PlainSegment(tag, before + [tag] + between) {
      ConcatCancel(tag, NthSuffix(k1), NthSuffix(k2));
      NthSuffixInjective(k1, k2);
    }
  }
}

=== FILE: sorting.dfy ===
/** Ordered reads. The store's `.order('created_at', …)` returns the matching
    rows sorted on one integer key; rows with equal keys come in no
    particular order. The sort here inserts the rows one at a time into a
    sorted sequence. */
module Sorting {

  /** Non-decreasing in `key`. */
  predicate SortedBy<T>(s: seq<T>, key: T -> int) {
    forall i, j :: 0 <= i < j < |s| ==> key(s[i]) <= key(s[j])
  }

  /** No element occurs twice. */
  predicate Distinct<T(==)>(s: seq<T>) {
    forall i, j :: 0 <= i < j < |s| ==> s[i] != s[j]
  }

  /** Inserts `x` after every element whose key is at most `x`'s. */
  method InsertSorted<T>(s: seq<T>, x: T, key: T -> int) returns (r: seq<T>, pos: nat)
    requires SortedBy(s, key)
    ensures pos <= |s| && r == s[..pos] + [x] + s[pos..]
    ensures SortedBy(r, key)
  {
    pos := 0;
    while pos < |s| && key(s[pos]) <= key(x)
      invariant pos <= |s|
      invariant forall j :: 0 <= j < pos ==> key(s[j]) <= key(x)
    {
      pos := pos + 1;
    }
    r := s[..pos] + [x] + s[pos..];
    assert forall j :: pos <= j < |s| ==> key(x) < key(s[j]) by {
      if pos < |s| {
        assert key(x) < key(s[pos]);
      }
    }
    forall i, j | 0 <= i < j < |r| ensures key(r[i]) <= key(r[j]) {
      if j < pos {
        assert r[i] == s[i] && r[j] == s[j];
      } else if j == pos {
        assert r[i] == s[i];
      } else if i < pos {
        assert r[i] == s[i] && r[j] == s[j - 1];
      } else if i == pos {
        assert r[j] == s[j - 1];
      } else {
        assert r[i] == s[i - 1] && r[j] == s[j - 1];
      }
    }
  }

  /** The elements of `items`, each exactly once, in non-decreasing `key`
      order. */
  method SortByKey<T(==)>(items: set<T>, key: T -> int) returns (r: seq<T>)
    ensures SortedBy(r, key)
    ensures Distinct(r)
    ensures forall x :: x in r <==> x in items
    ensures |r| == |items|
  {
    r := [];
    var rest := items;
    while rest != {}
      invariant rest <= items
      invariant forall x :: x in r <==> x in items && x !in rest
      invariant Distinct(r)
      invariant |r| + |rest| == |items|
      invariant SortedBy(r, key)
      decreases |rest|
    {
      var x :| x in rest;
      var next, pos := InsertSorted(r, x, key);
      assert forall y :: y in next <==> y in r || y == x by {
        assert forall y :: y in next <==> y in r[..pos] || y == x || y in r[pos..];
        assert r == r[..pos] + r[pos..];
      }
      InsertKeepsDistinct(r, x, pos);
      r := next;
      rest := rest - {x};
    }
  }

  lemma InsertKeepsDistinct<T>(s: seq<T>, x: T, pos: nat)
    requires Distinct(s) && x !in s && pos <= |s|
    ensures Distinct(s[..pos] + [x] + s[pos..])
  {
    var r := s[..pos] + [x] + s[pos..];
    forall i, j | 0 <= i < j < |r| ensures r[i] != r[j] {
      if i < pos && j < pos {
        assert r[i] == s[i] && r[j] == s[j];
      } else if i < pos && j > pos {
        assert r[i] == s[i] && r[j] == s[j - 1];
      } else if i > pos {
        assert r[i] == s[i - 1] && r[j] == s[j - 1];
      } else if i == pos {
        assert r[j] == s[j - 1];
      } else {
        assert r[i] == s[i];
      }
    }
  }
}

=== FILE: store.dfy ===
/** The data layer of server/db.js with the hosted database replaced by
    in-memory tables. Every operation is a transition from one store to the
    next that either succeeds with the rows it returns or fails with the
    error the source throws. The authorization rules are the point:
    editing and moving a comment are for its author only, deleting and
    resolving it are also open to the owner of its project, deleting a reply
    is for its author or the project owner, and deleting a project is for its
    owner only. */
module Store {
  import opened Base
  import opened Sorting

  datatype User = User(id: Id, email: string, passwordHash: string, name: string)

  /** A project. `ownerId` is nullable in the data model. */
  datatype Project = Project(id: Id, url: string, ownerId: Option<Id>, createdAt: int)

  /** A pinned comment; `userId` is `None` for an anonymous author. */
  datatype Comment = Comment(
    id: Id, projectId: Id, userId: Option<Id>, userName: string, text: string,
    x: real, y: real, selector: string, resolved: bool, createdAt: int)

  datatype Reply = Reply(id: Id, commentId: Id, userId: Option<Id>, userName: string, text: string, createdAt: int)

  /** The four tables. Users are kept as a list because a lookup by e-mail
      can match several rows. */
  datatype Store = Store(
    users: seq<User>,
    projects: map<Id, Project>,
    comments: map<Id, Comment>,
    replies: map<Id, Reply>)

  /** Every row is filed under its own primary key, and user ids are unique. */
  predicate Valid(st: Store) {
    (forall k :: k in st.projects ==> st.projects[k].id == k)
    && (forall k :: k in st.comments ==> st.comments[k].id == k)
    && (forall k :: k in st.replies ==> st.replies[k].id == k)
    && (forall i, j :: 0 <= i < j < |st.users| ==> st.users[i].id != st.users[j].id)
  }

  /** What the operations throw. */
  datatype Error =
    | Unauthorized      // `new Error('Unauthorized')`
    | CommentNotFound   // `new Error('Comment not found')`
    | ReplyNotFound     // `new Error('Reply not found')`
    | NoRows            // the database's answer when `.single()` finds no row
    | DuplicateKey      // an insert whose generated key is already taken

  /** The error's `message`, which the routes compare against. */
  function Message(e: Error): string {
    match e
    case Unauthorized => "Unauthorized"
    case CommentNotFound => "Comment not found"
    case ReplyNotFound => "Reply not found"
    case NoRows => "JSON object requested, multiple (or no) rows returned"
    case DuplicateKey => "duplicate key value violates unique constraint"
  }

  /** The error's `code`: only database errors carry one. */
  function Code(e: Error): Option<string> {
    match e
    case NoRows => Some("PGRST116")
    case DuplicateKey => Some("23505")
    case _ => None
  }

  /** Only the authorization failure reads as `'Unauthorized'`, which is what
      lets the routes single it out. */
  lemma MessageIsUnauthorizedIff(e: Error)
    ensures Message(e) == "Unauthorized" <==> e == Unauthorized
  {
    match e
    case Unauthorized =>
    case CommentNotFound => assert Message(e)[0] == 'C';
    case ReplyNotFound => assert Message(e)[0] == 'R';
    case NoRows => assert |Message(e)| > 12;
    case DuplicateKey => assert |Message(e)| > 12;
  }

  /** The key and timestamp the database generates for an inserted row
      (`uuid` default and `now()`). */
  datatype Stamp = Stamp(id: Id, now: int)

  /** `projects.owner_id` of a project, or nothing when there is no such
      project (the `project?.owner_id` of the source). */
  function OwnerOf(st: Store, projectId: Id): (r: Option<Id>)
    ensures r.Some? ==> projectId in st.projects && st.projects[projectId].ownerId == r
  {
    if projectId in st.projects then st.projects[projectId].ownerId else None
  }

  // ===== Users =====

  function UsersWithEmail(users: seq<User>, email: string): (r: seq<User>)
    ensures forall u :: u in r <==> u in users && u.email == email
    ensures |r| <= |users|
  {
    if |users| == 0 then []
    else (if users[0].email == email then [users[0]] else []) + UsersWithEmail(users[1..], email)
  }

  /** `getUserByEmail`: the user with that e-mail, or nothing. `.single()`
      answers no row both for no match and for several matches, and that
      error is swallowed. */
  function GetUserByEmail(st: Store, email: string): (r: Option<User>)
    ensures r.Some? ==> r.value in st.users && r.value.email == email
    ensures r.Some? <==> |UsersWithEmail(st.users, email)| == 1
  {
    var matches := UsersWithEmail(st.users, email);
    if |matches| == 1 then Some(matches[0]) else None
  }

  /** `createUser`: the password is stored through the hash, given here as
      a parameter. */
  function CreateUser(st: Store, email: string, password: string, name: string,
                      hash: string -> string, stamp: Stamp): (r: Result<(Store, User), Error>)
    ensures r.Failure? <==> exists i :: 0 <= i < |st.users| && st.users[i].id == stamp.id
    ensures r.Failure? ==> r.error == DuplicateKey
    ensures r.Success? ==> var (st', u) := r.value;
              u == User(stamp.id, email, hash(password), name)
              && st'.users == st.users + [u]
              && st'.projects == st.projects && st'.comments == st.comments && st'.replies == st.replies
  {
    if exists i :: 0 <= i < |st.users| && st.users[i].id == stamp.id then Failure(DuplicateKey)
    else
      var u := User(stamp.id, email, hash(password), name);
      Success((st.(users := st.users + [u]), u))
  }

  /** Position of the user with that id, if any. */
  function FindUser(users: seq<User>, id: Id): (r: Option<nat>)
    ensures r.Some? ==> r.value < |users| && users[r.value].id == id
    ensures r.None? ==> forall i :: 0 <= i < |users| ==> users[i].id != id
  {
    if |users| == 0 then None
    else if users[0].id == id then Some(0)
    else match FindUser(users[1..], id)
      case None => None
      case Some(i) => Some(i + 1)
  }

  /** The fields a profile update may carry; absent fields are `None`. */
  datatype UserUpdate = UserUpdate(name: Option<string>, email: Option<string>, password: Option<string>)

  /** A field is applied only when it is given and not empty (`if (name)`). */
  predicate Given(o: Option<string>) {
    o.Some? && o.value != ""
  }

  /** Some field of the update is given, so the object sent to `.update()`
      is not empty. */
  predicate GivesSomething(updates: UserUpdate) {
    Given(updates.name) || Given(updates.email) || Given(updates.password)
  }

  /** `updateUser`: the given, non-empty fields replace the stored ones, the
      password through the hash. A missing user is the "no rows" error of
      `.single()`; so is an update that gives nothing, because the database
      service answers an empty `.update({})` with no row at all. */
  function UpdateUser(st: Store, userId: Id, updates: UserUpdate, hash: string -> string): (r: Result<(Store, User), Error>)
    ensures r.Failure? <==> !GivesSomething(updates) || forall i :: 0 <= i < |st.users| ==> st.users[i].id != userId
    ensures r.Failure? ==> r.error == NoRows
    ensures r.Success? ==> var (st', u) := r.value;
              var i := FindUser(st.users, userId).value;
              var before := st.users[i];
              st'.users == st.users[i := u] && u.id == userId
              && (Given(updates.name) ==> u.name == updates.name.value)
              && (!Given(updates.name) ==> u.name == before.name)
              && (Given(updates.email) ==> u.email == updates.email.value)
              && (!Given(updates.email) ==> u.email == before.email)
              && (Given(updates.password) ==> u.passwordHash == hash(updates.password.value))
              && (!Given(updates.password) ==> u.passwordHash == before.passwordHash)
              && st'.projects == st.projects && st'.comments == st.comments && st'.replies == st.replies
  {
    match FindUser(st.users, userId)
    case None => Failure(NoRows)
    case Some(i) =>
      if !GivesSomething(updates) then Failure(NoRows)
      else
      var old_ := st.users[i];
      var u := old_.(
        name := if Given(updates.name) then updates.name.value else old_.name,
        email := if Given(updates.email) then updates.email.value else old_.email,
        passwordHash := if Given(updates.password) then hash(updates.password.value) else old_.passwordHash);
      Success((st.(users := st.users[i := u]), u))
  }

  /** An update that gives nothing, or only empty strings, changes nothing
      and fails with the "no rows" error, whoever it names. */
  lemma EmptyUpdateFails(st: Store, userId: Id, hash: string -> string, name: Option<string>, email: Option<string>)
    requires !Given(name) && !Given(email)
    ensures UpdateUser(st, userId, UserUpdate(name, email, None), hash) == Failure(NoRows)
    ensures Code(NoRows) == Some("PGRST116")
  {
  }

  /** Saving a user's own name and e-mail again, without a password,
      answers that user and leaves the store as it was. */
  lemma SameValuesChangeNothing(st: Store, i: nat, hash: string -> string)
    requires Valid(st) && i < |st.users| && st.users[i].email != ""
    ensures UpdateUser(st, st.users[i].id, UserUpdate(Some(st.users[i].name), Some(st.users[i].email), None), hash)
            == Success((st, st.users[i]))
  {
    var j := FindUser(st.users, st.users[i].id).value;
    assert j == i;
    assert st.users[i := st.users[i]] == st.users;
  }

  // ===== Projects =====

  /** `createProject(url, userId)`: a new project owned by the caller. */
  function CreateProject(st: Store, url: string, userId: Id, stamp: Stamp): (r: Result<(Store, Project), Error>)
    ensures r.Failure? <==> stamp.id in st.projects
    ensures r.Failure? ==> r.error == DuplicateKey
    ensures r.Success? ==> var (st', p) := r.value;
              p == Project(stamp.id, url, Some(userId), stamp.now)
              && st'.projects == st.projects[p.id := p]
              && st'.users == st.users && st'.comments == st.comments && st'.replies == st.replies
  {
    if stamp.id in st.projects then Failure(DuplicateKey)
    else
      var p := Project(stamp.id, url, Some(userId), stamp.now);
      Success((st.(projects := st.projects[p.id := p]), p))
  }

  /** `getProject(id)`: the row, or the "no rows" error that the route turns
      into 404. */
  function GetProject(st: Store, id: Id): (r: Result<Project, Error>)
    ensures r.Success? <==> id in st.projects
    ensures r.Success? ==> r.value == st.projects[id]
    ensures r.Failure? ==> Code(r.error) == Some("PGRST116")
  {
    if id in st.projects then Success(st.projects[id]) else Failure(NoRows)
  }

  /** `deleteProject`: only the owner of an existing project may delete it;
      a missing project is reported as 'Unauthorized' too. Only the project
      row goes (comments and replies are left to the database's own rules). */
  function DeleteProject(st: Store, projectId: Id, userId: Id): (r: Result<Store, Error>)
    ensures r.Success? <==> OwnerOf(st, projectId) == Some(userId)
    ensures r.Failure? ==> r.error == Unauthorized
    ensures r.Success? ==> r.value == st.(projects := st.projects - {projectId})
  {
    // `project.owner_id !== userId`
    if projectId !in st.projects || st.projects[projectId].ownerId != Some(userId) then Failure(Unauthorized)
    else Success(st.(projects := st.projects - {projectId}))
  }

  /** A row of `getUserProjects`: the project and its number of comments
      (`comment_count`, 0 when it has none). */
  datatype ProjectSummary = ProjectSummary(project: Project, commentCount: nat)

  function CommentCount(st: Store, projectId: Id): nat {
    |set k | k in st.comments && st.comments[k].projectId == projectId|
  }

  /** `getUserProjects(userId)`: the caller's projects, newest first. */
  method GetUserProjects(st: Store, userId: Id) returns (r: seq<ProjectSummary>)
    ensures forall s :: s in r <==>
              s.project in st.projects.Values && s.project.ownerId == Some(userId)
              && s.commentCount == CommentCount(st, s.project.id)
    ensures Distinct(r)
    ensures forall i, j :: 0 <= i < j < |r| ==> r[i].project.createdAt >= r[j].project.createdAt
  {
    var items := set p | p in st.projects.Values && p.ownerId == Some(userId) :: ProjectSummary(p, CommentCount(st, p.id));
    r := SortByKey(items, (s: ProjectSummary) => -s.project.createdAt);
  }

  // ===== Comments =====

  /** The comments of one project, unordered. */
  function CommentsOf(st: Store, projectId: Id): set<Comment> {
    set c | c in st.comments.Values && c.projectId == projectId
  }

  /** `getComments(projectId)`: the project's comments, oldest first. */
  method GetComments(st: Store, projectId: Id) returns (r: seq<Comment>)
    ensures forall c :: c in r <==> c in CommentsOf(st, projectId)
    ensures Distinct(r) && |r| == |CommentsOf(st, projectId)|
    ensures forall i, j :: 0 <= i < j < |r| ==> r[i].createdAt <= r[j].createdAt
  {
    r := SortByKey(CommentsOf(st, projectId), (c: Comment) => c.createdAt);
  }

  /** The body of `createComment`; `selector` is absent when not sent. */
  datatype CommentInput = CommentInput(
    projectId: Id, userId: Option<Id>, userName: string, text: string,
    x: real, y: real, selector: Option<string>)

  /** `selector || ''`. */
  function SelectorOrEmpty(s: Option<string>): (r: string)
    ensures Given(s) ==> r == s.value
    ensures !Given(s) ==> r == ""
  {
    if s.Some? then s.value else ""
  }

  /** `createComment`: inserts the comment, unresolved, with `''` for a
      missing selector. */
  function CreateComment(st: Store, input: CommentInput, stamp: Stamp): (r: Result<(Store, Comment), Error>)
    ensures r.Failure? <==> stamp.id in st.comments
    ensures r.Failure? ==> r.error == DuplicateKey
    ensures r.Success? ==> var (st', c) := r.value;
              c.id == stamp.id && c.createdAt == stamp.now && !c.resolved
              && c.projectId == input.projectId && c.userId == input.userId && c.userName == input.userName
              && c.text == input.text && c.x == input.x && c.y == input.y
              && (Given(input.selector) ==> c.selector == input.selector.value)
              && (!Given(input.selector) ==> c.selector == "")
              && st'.comments == st.comments[c.id := c]
              && st'.users == st.users && st'.projects == st.projects && st'.replies == st.replies
  {
    if stamp.id in st.comments then Failure(DuplicateKey)
    else
      var c := Comment(stamp.id, input.projectId, input.userId, input.userName, input.text,
                       input.x, input.y, SelectorOrEmpty(input.selector), false, stamp.now);
      Success((st.(comments := st.comments[c.id := c]), c))
  }

  /** The author check of `updateComment` and `updateCommentPosition`:
      `!comment || comment.user_id !== userId`. An anonymous comment has no
      author, so nobody passes it. */
  predicate IsAuthor(st: Store, commentId: Id, userId: Id) {
    commentId in st.comments && st.comments[commentId].userId == Some(userId)
  }

  /** The check of `deleteComment` and `resolveComment`: the comment's author
      or the owner of its project. (`deleteComment` compares with
      `String(a) === String(b)` and `resolveComment` with `===`; on
      non-null ids they agree.) */
  predicate MayModerate(st: Store, c: Comment, userId: Id) {
    c.userId == Some(userId) || OwnerOf(st, c.projectId) == Some(userId)
  }

  /** `updateComment`: author only; changes the text and nothing else. */
  function UpdateComment(st: Store, commentId: Id, userId: Id, text: string): (r: Result<(Store, Comment), Error>)
    ensures r.Success? <==> IsAuthor(st, commentId, userId)
    ensures r.Failure? ==> r.error == Unauthorized
    ensures r.Success? ==> var (st', c) := r.value;
              c == st.comments[commentId].(text := text)
              && st'.comments == st.comments[commentId := c]
              && st'.users == st.users && st'.projects == st.projects && st'.replies == st.replies
  {
    if !IsAuthor(st, commentId, userId) then Failure(Unauthorized)
    else
      var c := st.comments[commentId].(text := text);
      Success((st.(comments := st.comments[commentId := c]), c))
  }

  /** `updateCommentPosition`: author only; changes `x` and `y` and nothing else. */
  function UpdateCommentPosition(st: Store, commentId: Id, userId: Id, x: real, y: real): (r: Result<(Store, Comment), Error>)
    ensures r.Success? <==> IsAuthor(st, commentId, userId)
    ensures r.Failure? ==> r.error == Unauthorized
    ensures r.Success? ==> var (st', c) := r.value;
              c == st.comments[commentId].(x := x, y := y)
              && st'.comments == st.comments[commentId := c]
              && st'.users == st.users && st'.projects == st.projects && st'.replies == st.replies
  {
    if !IsAuthor(st, commentId, userId) then Failure(Unauthorized)
    else
      var c := st.comments[commentId].(x := x, y := y);
      Success((st.(comments := st.comments[commentId := c]), c))
  }

  /** `deleteComment`: a missing comment is 'Comment not found'; otherwise
      the author or the project owner removes exactly that comment, and the
      removed row is returned. */
  function DeleteComment(st: Store, commentId: Id, userId: Id): (r: Result<(Store, Comment), Error>)
    ensures commentId !in st.comments ==> r == Failure(CommentNotFound)
    ensures commentId in st.comments ==>
              (r.Success? <==> MayModerate(st, st.comments[commentId], userId))
    ensures r.Failure? && commentId in st.comments ==> r.error == Unauthorized
    ensures r.Success? ==> var (st', c) := r.value;
              c == st.comments[commentId]
              && st'.comments == st.comments - {commentId}
              && st'.users == st.users && st'.projects == st.projects && st'.replies == st.replies
  {
    if commentId !in st.comments then Failure(CommentNotFound)
    else
      var c := st.comments[commentId];
      if !MayModerate(st, c, userId) then Failure(Unauthorized)
      else Success((st.(comments := st.comments - {commentId}), c))
  }

  /** `resolveComment`: the author or the project owner sets `resolved` and
      nothing else. */
  function ResolveComment(st: Store, commentId: Id, userId: Id, resolved: bool): (r: Result<(Store, Comment), Error>)
    ensures commentId !in st.comments ==> r == Failure(CommentNotFound)
    ensures commentId in st.comments ==>
              (r.Success? <==> MayModerate(st, st.comments[commentId], userId))
    ensures r.Failure? && commentId in st.comments ==> r.error == Unauthorized
    ensures r.Success? ==> var (st', c) := r.value;
              c == st.comments[commentId].(resolved := resolved)
              && st'.comments == st.comments[commentId := c]
              && st'.users == st.users && st'.projects == st.projects && st'.replies == st.replies
  {
    if commentId !in st.comments then Failure(CommentNotFound)
    else
      var c := st.comments[commentId];
      if !MayModerate(st, c, userId) then Failure(Unauthorized)
      else
        var c' := c.(resolved := resolved);
        Success((st.(comments := st.comments[commentId := c']), c'))
  }

  // ===== Replies =====

  function RepliesOf(st: Store, commentId: Id): set<Reply> {
    set rp | rp in st.replies.Values && rp.commentId == commentId
  }

  /** `getReplies(commentId)`: the comment's replies, oldest first. */
  method GetReplies(st: Store, commentId: Id) returns (r: seq<Reply>)
    ensures forall rp :: rp in r <==> rp in RepliesOf(st, commentId)
    ensures Distinct(r) && |r| == |RepliesOf(st, commentId)|
    ensures forall i, j :: 0 <= i < j < |r| ==> r[i].createdAt <= r[j].createdAt
  {
    r := SortByKey(RepliesOf(st, commentId), (rp: Reply) => rp.createdAt);
  }

  datatype ReplyInput = ReplyInput(commentId: Id, userId: Option<Id>, userName: string, text: string)

  /** `createReply`. */
  function CreateReply(st: Store, input: ReplyInput, stamp: Stamp): (r: Result<(Store, Reply), Error>)
    ensures r.Failure? <==> stamp.id in st.replies
    ensures r.Failure? ==> r.error == DuplicateKey
    ensures r.Success? ==> var (st', rp) := r.value;
              rp == Reply(stamp.id, input.commentId, input.userId, input.userName, input.text, stamp.now)
              && st'.replies == st.replies[rp.id := rp]
              && st'.users == st.users && st'.projects == st.projects && st'.comments == st.comments
  {
    if stamp.id in st.replies then Failure(DuplicateKey)
    else
      var rp := Reply(stamp.id, input.commentId, input.userId, input.userName, input.text, stamp.now);
      Success((st.(replies := st.replies[rp.id := rp]), rp))
  }

  /** The project owner as `deleteReply` finds it: through the reply's
      comment, and nobody when that comment is gone. */
  function ReplyOwner(st: Store, rp: Reply): (r: Option<Id>)
    ensures rp.commentId !in st.comments ==> r.None?
    ensures rp.commentId in st.comments ==> r == OwnerOf(st, st.comments[rp.commentId].projectId)
  {
    if rp.commentId in st.comments then OwnerOf(st, st.comments[rp.commentId].projectId) else None
  }

  /** `deleteReply`: a missing reply is 'Reply not found'; otherwise the
      reply's author or the project owner removes exactly that reply.
      (The source compares with `==`; on non-null ids that is `===`.) */
  function DeleteReply(st: Store, replyId: Id, userId: Id): (r: Result<Store, Error>)
    ensures replyId !in st.replies ==> r == Failure(ReplyNotFound)
    ensures replyId in st.replies ==>
              (r.Success? <==> st.replies[replyId].userId == Some(userId) || ReplyOwner(st, st.replies[replyId]) == Some(userId))
    ensures r.Failure? && replyId in st.replies ==> r.error == Unauthorized
    ensures r.Success? ==> r.value == st.(replies := st.replies - {replyId})
  {
    if replyId !in st.replies then Failure(ReplyNotFound)
    else
      var rp := st.replies[replyId];
      if rp.userId == Some(userId) || ReplyOwner(st, rp) == Some(userId) then
        Success(st.(replies := st.replies - {replyId}))
      else Failure(Unauthorized)
  }

  // ===== Properties =====

  /** The asymmetry of the rules: on a comment written by someone else, the
      project owner may delete and resolve but may neither edit nor move it;
      the author may do all four; anybody else may do none. */
  lemma AuthorizationAsymmetry(st: Store, commentId: Id, userId: Id, text: string, x: real, y: real, resolved: bool)
    requires commentId in st.comments
    ensures var c := st.comments[commentId];
            var owner := OwnerOf(st, c.projectId) == Some(userId);
            var author := c.userId == Some(userId);
            (UpdateComment(st, commentId, userId, text).Success? <==> author)
            && (UpdateCommentPosition(st, commentId, userId, x, y).Success? <==> author)
            && (DeleteComment(st, commentId, userId).Success? <==> author || owner)
            && (ResolveComment(st, commentId, userId, resolved).Success? <==> author || owner)
  {
  }

  /** An anonymous comment can never be edited or moved, and only the
      project owner can delete it. */
  lemma AnonymousComments(st: Store, commentId: Id, userId: Id, text: string)
    requires commentId in st.comments && st.comments[commentId].userId.None?
    ensures UpdateComment(st, commentId, userId, text) == Failure(Unauthorized)
    ensures DeleteComment(st, commentId, userId).Success? <==>
              OwnerOf(st, st.comments[commentId].projectId) == Some(userId)
  {
  }

  /** An orphaned reply (its comment is gone) can be deleted by its author
      only. */
  lemma OrphanedReplyAuthorOnly(st: Store, replyId: Id, userId: Id)
    requires replyId in st.replies && st.replies[replyId].commentId !in st.comments
    ensures DeleteReply(st, replyId, userId).Success? <==> st.replies[replyId].userId == Some(userId)
  {
  }

  /** A comment, once created, is listed among its project's comments. */
  lemma CreatedCommentIsListed(st: Store, input: CommentInput, stamp: Stamp)
    requires CreateComment(st, input, stamp).Success?
    ensures var (st', c) := CreateComment(st, input, stamp).value;
            c in CommentsOf(st', input.projectId)
            && CommentsOf(st', input.projectId) == CommentsOf(st, input.projectId) + {c}
  {
    var (st', c) := CreateComment(st, input, stamp).value;
    assert st'.comments[c.id] == c;
    forall d | d in CommentsOf(st', input.projectId)
      ensures d in CommentsOf(st, input.projectId) + {c}
    {
      var k :| k in st'.comments && st'.comments[k] == d;
      if k != c.id {
        assert st.comments[k] == d;
      }
    }
    forall d | d in CommentsOf(st, input.projectId)
      ensures d in CommentsOf(st', input.projectId)
    {
      var k :| k in st.comments && st.comments[k] == d;
      assert st'.comments[k] == d;
    }
  }

  /** Creating a comment and letting its author delete it again gives back
      the store it started from. */
  lemma CreateThenDeleteRestores(st: Store, input: CommentInput, stamp: Stamp, userId: Id)
    requires input.userId == Some(userId)
    requires CreateComment(st, input, stamp).Success?
    ensures var (st1, c) := CreateComment(st, input, stamp).value;
            DeleteComment(st1, c.id, userId) == Success((st, c))
  {
    var (st1, c) := CreateComment(st, input, stamp).value;
    assert st1.comments - {c.id} == st.comments;
  }

  /** Editing a comment and reading it back gives the new text; a second,
      identical edit changes nothing more. */
  lemma UpdateCommentIdempotent(st: Store, commentId: Id, userId: Id, text: string)
    requires IsAuthor(st, commentId, userId)
    ensures var (st1, c1) := UpdateComment(st, commentId, userId, text).value;
            st1.comments[commentId].text == text
            && UpdateComment(st1, commentId, userId, text) == Success((st1, c1))
  {
    var (st1, c1) := UpdateComment(st, commentId, userId, text).value;
    assert st1.comments[commentId := c1] == st1.comments;
  }

  /** The user operations keep user ids unique. */
  lemma UserOperationsPreserveValid(st: Store, userId: Id, stamp: Stamp, email: string, password: string,
                                    name: string, updates: UserUpdate, hash: string -> string)
    requires Valid(st)
    ensures var r := CreateUser(st, email, password, name, hash, stamp); r.Success? ==> Valid(r.value.0)
    ensures var r := UpdateUser(st, userId, updates, hash); r.Success? ==> Valid(r.value.0)
  {
    var r := UpdateUser(st, userId, updates, hash);
    if r.Success? {
      var us := r.value.0.users;
      forall a, b | 0 <= a < b < |us| ensures us[a].id != us[b].id {
        assert us[a].id == st.users[a].id && us[b].id == st.users[b].id;
      }
    }
    var cu := CreateUser(st, email, password, name, hash, stamp);
    if cu.Success? {
      var us := cu.value.0.users;
      forall a, b | 0 <= a < b < |us| ensures us[a].id != us[b].id {
        if b < |st.users| {
          assert us[a] == st.users[a] && us[b] == st.users[b];
        } else {
          assert us[a] == st.users[a];
        }
      }
    }
  }

  /** The project and reply operations keep each row under its own key. */
  lemma ProjectAndReplyOperationsPreserveValid(st: Store, userId: Id, id: Id, stamp: Stamp, url: string, ri: ReplyInput)
    requires Valid(st)
    ensures var r := CreateProject(st, url, userId, stamp); r.Success? ==> Valid(r.value.0)
    ensures var r := DeleteProject(st, id, userId); r.Success? ==> Valid(r.value)
    ensures var r := CreateReply(st, ri, stamp); r.Success? ==> Valid(r.value.0)
    ensures var r := DeleteReply(st, id, userId); r.Success? ==> Valid(r.value)
  {
  }

  /** The comment operations keep each comment under its own key. */
  lemma CommentOperationsPreserveValid(st: Store, userId: Id, id: Id, stamp: Stamp, text: string,
                                       x: real, y: real, resolved: bool, ci: CommentInput)
    requires Valid(st)
    ensures var r := CreateComment(st, ci, stamp); r.Success? ==> Valid(r.value.0)
    ensures var r := UpdateComment(st, id, userId, text); r.Success? ==> Valid(r.value.0)
    ensures var r := UpdateCommentPosition(st, id, userId, x, y); r.Success? ==> Valid(r.value.0)
    ensures var r := DeleteComment(st, id, userId); r.Success? ==> Valid(r.value.0)
    ensures var r := ResolveComment(st, id, userId, resolved); r.Success? ==> Valid(r.value.0)
  {
  }
}
